=== FILE: README.md ===
# Sentiment-analysis pipeline: a Dafny model

This project models the core of a small Python pipeline. The pipeline asks several local
language models for the sentiment of recent news about one stock ticker, and then compares the
models. It has four stages:

1. **Collecting news and content.**
   - The company name is cleaned from the ticker's long name.
   - The news feed is cut to the recent items, and only so many of them.
   - Each article's summary and scraped text are joined into a content map keyed by link.
2. **Asking a model.**
   - Every article is sent to the model, directly or through a prompt template.
   - The reply is validated against the sentiment schema and stamped with its metadata.
   - Entries are stored in a sentiments map keyed by an 8-character URL hash.
   - A confidence-weighted average sentiment is computed and saved, with the run time, to
     `<folder>/<model with ':' as '_'>/<ticker>_<iteration>.json`.
3. **Per-article metrics** (`generate_model_metrics.py`).
   - The saved runs are grouped by article key.
   - Each article gets an inference rate, a valid-JSON rate, a sentiment variance and mean, and
     a mean confidence.
4. **The comparison report** (`generate_model_comparison_report.py`).
   - All entries of one model are pooled.
   - Each model gets summary statistics.
   - For each configured pair of models, the sentiment columns that the statistical tests
     compare are picked out.

There are three generations of stage 2, and each is modelled in its own module:

- **`utils/`** (`utils/validation_utils.py`, `utils/analysis_utils.py`) is the current code.
  It is modelled by modules `ValidationUtils` and `AnalysisUtils`.
- **`utils.py`** is the earlier library. It is modelled by module `LegacyUtils`.
  - Several of its functions are the same as in `utils/`, and those are not modelled twice:
    - `search_numeric_value` (utils.py:56-58) is `ValidationUtils.SearchNumericValue`;
    - `parse_json_numeric_value` (utils.py:25-29) is `ValidationUtils.ParseJsonNumericValue`;
    - `clean_company_name` and `get_common_suffixes` (utils.py:32-53) are
      `AnalysisUtils.CleanName`;
    - `filter_recent_news` (utils.py:61-70) is `AnalysisUtils.FilterRecentNews`;
    - `format_prompt` (utils.py:128-137) is `AnalysisUtils.FormatPrompt`;
    - `find_published_date` (utils.py:163-164) is `AnalysisUtils.FindPublishedDate`;
    - the weighted-average loop (utils.py:196-215) is `AnalysisUtils.Accumulate`.
  - The differences of `utils.py` are modelled: `validate_json` only parses, `analyze_content`
    stores only parseable replies, and the results folder is fixed.
- **`main.py`** is the original script. Its module-level state (the news list, the content
  map, the company name and the global `sentiments_map`) becomes the fields of class
  `MainScript.Script`.
  - Its top-level statements and `test_model` become methods of that class.
  - They are proved against the same specification functions.
  - Its `validate_json` (main.py:138-143) is the same as the one in `utils.py`, and it is
    `LegacyUtils.LegacyValidateJson`.

## How the model is built

- **Dictionaries.** A Python dict is a sequence of (key, value) pairs in insertion order
  (`JsonValues`).
  - Assigning to an existing key keeps its place and replaces its value.
  - Assigning to a new key appends it.
  - The lemmas in `JsonValues` give the resulting key order (`Dedup` of the assigned keys) and
    say which value wins (the last one assigned).
- **Exceptions.** A call either returns a value or raises: `Outcome<T> = Returns | Raises`.
  - A raise propagates to the nearest handler.
  - At a function wrapped by `handle_errors(default)`, a raise becomes that default.
- **The outside world.** The language model, `json.loads`, `json.dumps`, `float()` of a string,
  the MD5-based URL hash, the clock and the web scraper are parameters (`Oracles.Env`,
  `NewsItem`, `Reply`).
  - Every property is proved for every function these collaborators may be. A function gives
    one answer per input; see "Left out".
- **Numbers.** Numbers are mathematical reals.
  - `round(x, 2)` is round-half-even on reals (`Rounding`).
  - NumPy's `mean` and `var` of an empty list (NaN) are `None`.
- **Loops.**
  - Loops that build dictionaries or accumulate sums are methods with loop invariants.
  - Each such method is proved equal to a recursive specification function.
  - The properties are lemmas about those functions.

Three behaviours of the code matter for the properties below:

- The schema check accepts replies with extra fields, and the whole parsed object is kept
  (utils/validation_utils.py:8-31: the pydantic model does not forbid extra fields).
- Entries that failed validation stay in the sentiments map. They carry only their metadata
  (utils/analysis_utils.py:211-222).
  - The weighted average then reads their "sentiment" and "confidence" with the fallback
    regular-expression scan over the entry's JSON text (utils/analysis_utils.py:236-241).
  - That scan finds the `time_taken` literal; see `InvalidEntryShiftsAverage`.
- A failure of the warm-up call (`pre_warm_model`) is not caught, so the whole run is aborted
  (utils/analysis_utils.py:104-105).

## Model

| member | source | states |
|---|---|---|
| ValidationUtils.ValidateJson | utils/validation_utils.py:8-37 | accepted exactly when the reply parses to an object with a non-empty string "reasoning", a "sentiment" in [-1, 1] and a "confidence" in [0, 1]; the accepted dict is the parsed object itself; on rejection the dict is empty |
| ValidationUtils.ValidateJsonAccepts | utils/validation_utils.py:8-37 | any object with a non-empty reasoning, a sentiment in [-1, 1], a confidence in [0, 1] and any other fields is accepted as (True, the object) |
| ValidationUtils.ValidateJsonAcceptsBounds | utils/validation_utils.py:14-25 | the bounds are inclusive, and extra fields are accepted and kept: an object at the extreme values is accepted unchanged |
| ValidationUtils.ValidateJsonAcceptsExample | utils/validation_utils.py:8-37 | {"reasoning": "x", "sentiment": 0.3, "confidence": 0.7} is accepted unchanged |
| ValidationUtils.ValidateJsonRejects | utils/validation_utils.py:8-37 | a missing required field or an out-of-range sentiment or confidence gives (False, {}) |
| ValidationUtils.MatchAtLiteral | utils/validation_utils.py:40-42 | a match of `[-+]?[0-1]\.\d+` at a position covers a literal of that shape and is greedy: the next character is not a digit |
| ValidationUtils.SearchFromNone | utils/validation_utils.py:40-42 | the scan from a position finds nothing exactly when no position from there on starts a match |
| ValidationUtils.SearchFromFirst | utils/validation_utils.py:40-42 | no position before the one the scan returns starts a match, so re.search finds the leftmost match |
| ValidationUtils.SearchNumericValue | utils/validation_utils.py:40-42 | any value found lies strictly between -2 and 2 |
| ValidationUtils.SearchNumericValueLeftmost | utils/validation_utils.py:40-42 | None exactly when the text has no match; otherwise the value is the float of the leftmost match |
| ValidationUtils.TwoDecimalLiteral | utils/validation_utils.py:41 | a literal d.dd matches the pattern and has value d + d/10 + d/100 |
| ValidationUtils.SearchScoreExample | utils/validation_utils.py:40-42 | `"score": 0.73` yields 0.73 |
| ValidationUtils.SearchLeftmostExample | utils/validation_utils.py:40-42 | "11.45" yields 1.45: the match starts at the second character, because "11." does not fit `[0-1]\.` |
| ValidationUtils.ParseJsonNumericValue | utils/validation_utils.py:45-49 | a present key gives float(value) (a number itself, 1.0 or 0.0 for a boolean, the parsed string), which raises exactly when float() does; a missing key gives the scan of json.dumps of the dict, a value in (-2, 2) or None |
| ValidationUtils.PresentKeyIgnoresText | utils/validation_utils.py:45-49 | when the key is present the serialised text plays no part |
| Rounding.RoundHalfEven | utils/analysis_utils.py:245 | the integer chosen is within 1/2 of the input, and integers are kept |
| Rounding.Round2 | utils/analysis_utils.py:245 | round(x, 2) is within 0.005 of x |
| Rounding.Round2Monotone | utils/analysis_utils.py:245 | round(x, 2) is monotone |
| Rounding.Round2OfHundredths | utils/analysis_utils.py:245 | multiples of 0.01 are fixed points |
| Rounding.Round2Within | utils/analysis_utils.py:245 | rounding keeps a value inside any range whose ends are multiples of 0.01, such as [-1, 1] |
| PyStrings.Strip | utils/analysis_utils.py:46 | str.strip(): no whitespace at either end, and no new characters |
| PyStrings.StripCuts | utils/analysis_utils.py:46 | str.strip() returns a middle slice s[a:b] of its input with only whitespace before a and after b |
| PyStrings.BeforeFirstComma | utils/analysis_utils.py:43 | split(",")[0]: the longest comma-free prefix |
| PyStrings.RemoveAllNoNewChar | utils/analysis_utils.py:45 | str.replace(w, "") introduces no character that was not there |
| PyStrings.ReplaceColons | utils/analysis_utils.py:143 | replace(":", "_"): same length, every ':' becomes '_', other characters unchanged |
| PyStrings.Basename | generate_model_metrics.py:31 | os.path.basename: the slash-free suffix after the last '/' |
| PyStrings.BasenameOfJoin | generate_model_comparison_report.py:38-39 | the basename of a directory joined with a slash-free name is that name |
| PyStrings.PathJoinInjective | utils/analysis_utils.py:148 | joining one directory with two different relative names gives two different paths |
| PyStrings.PyPrefix | utils/analysis_utils.py:58 | a Python slice [:n] is a prefix of the list, of length min(n, len) for n >= 0 and max(len + n, 0) for n < 0 |
| PyStrings.NatToStringRoundTrip | utils/analysis_utils.py:148 | the decimal text of the iteration number reads back as that number |
| AnalysisUtils.CleanName | utils/analysis_utils.py:39-46 | the cleaned name has no comma and no whitespace at either end |
| AnalysisUtils.CleanCompanyName | utils/analysis_utils.py:39-46 | the suffix-removal loop computes CleanName |
| AnalysisUtils.CleanNameExample | utils/analysis_utils.py:21-46 | "NVIDIA Corporation, Inc." cleans to "nvidia" |
| AnalysisUtils.CleanNameNotIdempotent | utils/analysis_utils.py:43-46 | removal is a single pass: "corcorp.p." cleans to "corp.", which cleans again to "" |
| AnalysisUtils.Recent | utils/analysis_utils.py:54-57 | the comprehension keeps exactly the items at or after the cutoff, in feed order |
| AnalysisUtils.RecentOne | utils/analysis_utils.py:54-57 | one item is kept exactly when it is published at or after the cutoff |
| AnalysisUtils.RecentAppend | utils/analysis_utils.py:54-57 | filtering a concatenation gives the concatenation of the filtered parts, so every recent item is kept, duplicates included, in feed order |
| AnalysisUtils.FilterRecentNewsProperties | utils/analysis_utils.py:49-58 | the result is the first items of the recent-item comprehension, and for max_news_items >= 0 exactly min(max_news_items, number of recent items) of them; hence an ordered subsequence of the feed, all recent |
| AnalysisUtils.FormatPrompt | utils/analysis_utils.py:191-200 | for a sentiment model the prompt is the content itself |
| AnalysisUtils.FormatPromptEmbedsContent | utils/analysis_utils.py:197-199 | a template with a {content_to_analyze} field gives a prompt containing the content |
| AnalysisUtils.FindPublishedDate | utils/analysis_utils.py:225-227 | "" when no item has the link; otherwise the published text of the first item with it |
| AnalysisUtils.StampMeta | utils/analysis_utils.py:212-219 | after update() the entry holds valid, url, published and time_taken with the given values |
| AnalysisUtils.StampKeeps | utils/analysis_utils.py:212-219 | update() leaves every other key as it was |
| AnalysisUtils.StampOfEmpty | utils/analysis_utils.py:211-219 | a rejected reply's {} becomes exactly the four metadata keys, in that order |
| AnalysisUtils.ProcessContent | utils/analysis_utils.py:203-222 | a raising model call gives {}; otherwise the entry carries the verdict, url, published date and rounded time, and every other field of the validated dict |
| AnalysisUtils.ArticleEntryMeta | utils/analysis_utils.py:169-177 | an article's entry is empty exactly when its model call raised |
| AnalysisUtils.AnalyzeContent | utils/analysis_utils.py:157-178 | the loop's map is the non-empty entries assigned under their URL hashes in content-map order |
| AnalysisUtils.AnalyzeContentEntries | utils/analysis_utils.py:157-178 | the map's keys are the distinct hashes in first-seen order; every non-empty entry's hash is a key; each value is the non-empty entry of an article with that hash |
| AnalysisUtils.CombineAdds | utils/analysis_utils.py:239-241 | two numbers read, sentiment non-zero: the pass adds their product and the confidence |
| AnalysisUtils.ComputeWeightedAverageSentiment | utils/analysis_utils.py:230-250 | the loop computes WeightedAverage: the rounded ratio, 0.0 for zero weight, and 0.0 when any read raises |
| AnalysisUtils.AccumulateZeroSentiments | utils/analysis_utils.py:239 | a map whose every sentiment is 0.0 accumulates nothing |
| AnalysisUtils.SkippedEntryAddsNothing | utils/analysis_utils.py:236-241 | appending an entry whose sentiment reads None or 0.0, or whose confidence reads None, leaves both sums unchanged |
| AnalysisUtils.ZeroSentimentsAverageZero | utils/analysis_utils.py:243-248 | all sentiments zero give the average 0.0 |
| AnalysisUtils.AccumulateBounded | utils/analysis_utils.py:235-241 | with scores inside the schema's ranges, the sum stays within plus or minus the total weight |
| AnalysisUtils.WeightedAverageBounded | utils/analysis_utils.py:230-250 | with scores inside the schema's ranges, the average lies in [-1, 1] |
| AnalysisUtils.FinishBounded | utils/analysis_utils.py:243-248 | the final division and rounding keep the result in [-1, 1] |
| AnalysisUtils.ScoredEntryAdds | utils/analysis_utils.py:235-241 | appending a scored entry adds sentiment times confidence to the sum and confidence to the weight |
| AnalysisUtils.WeightedAverageExample | utils/analysis_utils.py:230-250 | (0.5, 0.8) and (-0.5, 0.2) average to 0.3 |
| AnalysisUtils.InvalidEntryCountsTwice | utils/analysis_utils.py:236-241 | an entry without both score keys contributes the first scanned literal x as both sentiment and confidence |
| AnalysisUtils.InvalidEntryShiftsAverage | utils/analysis_utils.py:211-241 | a valid (0.6, 0.9) plus a rejected entry dumped as {"time_taken": 1.23} average to 0.96 |
| AnalysisUtils.ScannedEntryShiftsAverage | utils/analysis_utils.py:236-248 | the same average for any rejected entry whose dump scans to 1.23 |
| AnalysisUtils.TimeTakenScanned | utils/validation_utils.py:40-42 | the scan of {"time_taken": 1.23} yields 1.23 |
| AnalysisUtils.ResultsFilesDistinct | utils/analysis_utils.py:143-148 | two iterations of one model and ticker never write the same file |
| AnalysisUtils.TestModel | utils/analysis_utils.py:91-154 | the run saves exactly when the warm-up call and, for a chat model, the first-prompt call return; then it writes the analysed map, its weighted average and the rounded run time to the model's file for that iteration |
| GenerateModelSentiments.ArticleContent | generate_model_sentiments.py:56-59 | the content is undefined (IndexError) exactly for an empty summary |
| GenerateModelSentiments.ArticleContentShape | generate_model_sentiments.py:56-59 | a summary ending in '?' is dropped; the summary otherwise starts the content; scraped text is appended after one space |
| GenerateModelSentiments.QuestionSummaryDropped | generate_model_sentiments.py:56-59 | a '?' summary leaves only " " plus the scraped text, or "" |
| GenerateModelSentiments.ContentPairsSpec | generate_model_sentiments.py:54-61 | the loop raises exactly when some summary is empty; otherwise it assigns the non-empty contents under their links in feed order |
| GenerateModelSentiments.GetContentMap | generate_model_sentiments.py:50-62 | the loop computes the map, or the decorator's {} when it raised |
| GenerateModelSentiments.GetContentMapProperties | generate_model_sentiments.py:50-62 | {} when some summary is empty; otherwise the keys are the distinct links, every link with content is a key, each value is the last content for that link, and every value is the content of an item with that link |
| GenerateModelSentiments.CheckCompanyInfo | generate_model_sentiments.py:66-70 | the check either raises or returns True |
| GenerateModelSentiments.LogCompanyInfo | generate_model_sentiments.py:65-70 | True exactly when the company name and ticker are both non-empty |
| LegacyUtils.LegacyValidateJson | utils.py:17-22 | (True, parsed) exactly when the text parses; otherwise (False, {}) |
| LegacyUtils.LegacyProcess | utils.py:152-158 | an unparseable reply is skipped; a parsed object is recorded; a raising call or a non-object result raises |
| LegacyUtils.LegacyProcessRecord | utils.py:155-158 | the record is the parsed object with url and published set and every other field unchanged |
| LegacyUtils.LegacyProcessNonEmpty | utils.py:155-158 | a stored record is never empty |
| LegacyUtils.RecordFoldSpec | utils.py:146-158 | the fold raises exactly when some pass raises; otherwise it is the records kept, under their keys, in order |
| LegacyUtils.LegacyPairsSpec | utils.py:146-158 | the loop's assignments: the records of parseable replies under their URL hashes, or a raise |
| LegacyUtils.LegacyAnalyzeContent | utils.py:140-160 | the loop computes LegacySentimentsOf |
| LegacyUtils.LegacyAnalyzeContentEntries | utils.py:140-160 | returns exactly when no pass raises; then the keys are the distinct hashes, every stored record's hash is a key, and each value is the record of an article with that hash |
| LegacyUtils.UnparseableReplyDropped | utils.py:154-158 | an unparseable reply is dropped here, but kept by the current code with valid = false |
| LegacyUtils.LegacyComputeWeightedAverage | utils.py:196-215 | the loop raises exactly when a read raises; otherwise it gives WeightedAverage |
| LegacyUtils.ResultsDirectory | utils.py:192-193 | the directory ends with the colon-free model name under "sentiments/" |
| LegacyUtils.LegacyTestModel | utils.py:73-102 | saves exactly when the setup call, the analysis and the average all return; the saved data is the analysed map, its weighted average and the rounded time |
| MainScript.ScriptCleanName | main.py:41-55 | the script's cleaning (lower, cut at the comma, remove the eight suffixes, no strip) leaves no comma |
| MainScript.ScriptCleanNameExample | main.py:41-55 | "NVIDIA Corporation, Inc." gives "nvidia " with a trailing space, which strips to the library's result |
| MainScript.RemoveFirst | main.py:87 | list.remove(x): one fewer item when x is present, the list unchanged otherwise, and the multiset loses one x |
| MainScript.RemoveFirstKeepsRecent | main.py:86-87 | removing a stale item does not change the recent items |
| MainScript.InPlaceFilterKeepsRecent | main.py:84-87 | the loop keeps every recent item, in order, and only items of the feed |
| MainScript.SkippedItemSurvives | main.py:84-87 | removing while iterating skips the next item: two distinct stale items leave the second |
| MainScript.ScriptParseNumeric | main.py:146-157 | a present key gives the raw value; a missing key gives the scanned literal, or 0.0 |
| MainScript.ScriptAddEntryAgrees | main.py:212-218 | with numeric scores, one pass of the script's loop equals the library's |
| MainScript.ScriptAccumulateAgrees | main.py:209-221 | with numeric scores, the script's sums equal the library's, and so does the average when the weight is non-zero |
| MainScript.ZeroWeightRawSum | main.py:209-221 | with zero total weight the script returns the raw sum (1.0 here), where the library returns 0.0 |
| MainScript.Script.constructor | main.py:70-93 | the feed is the fetched list, and the name and both maps start empty |
| MainScript.Script.CleanCompanyName | main.py:37-55 | the name is the script's cleaning of the long name, or "" for an invalid symbol |
| MainScript.Script.FilterNews | main.py:82-90 | the feed becomes the in-place filter of the old feed cut to max_news_items |
| MainScript.Script.BuildContentMap | main.py:120-133 | fails exactly when the loop raises; otherwise the map is the old map with the loop's assignments |
| MainScript.Script.FindPublished | main.py:198-204 | the search loop finds FindPublishedDate |
| MainScript.Script.ProcessArticle | main.py:183-205 | one pass of the loop gives the legacy entry for the article |
| MainScript.Script.RecordRun | main.py:181-206 | fails exactly when a pass raises; otherwise the global map is its old contents with the run's assignments |
| MainScript.Script.Aggregate | main.py:208-221 | the loop computes the script's average of the global map |
| MainScript.Script.TestModel | main.py:160-240 | saves exactly when setup, analysis and average return; the saved map is the global map with this run's records added, to the file of that iteration |
| MainScript.RunLeaks | main.py:92 | the global map keeps every earlier key; a key not recorded in this run keeps its earlier value |
| MainScript.StaleEntrySaved | main.py:194-205 | an article whose reply is dropped in this run is saved with the previous run's entry for its hash |
| ModelMetrics.ExtractModelName | generate_model_metrics.py:30-31 | the name has no ':' and no '/' and is no longer than the path |
| ModelMetrics.ReplaceColonsIdempotent | generate_model_metrics.py:31 | replacing colons a second time changes nothing |
| ModelMetrics.ExtractModelNameOfPath | generate_model_metrics.py:118-126 | the key of a loaded model is its directory name |
| ModelMetrics.GroupRun | generate_model_metrics.py:37-38 | the inner loop appends one run's pairs to the grouping |
| ModelMetrics.AggregateSentiments | generate_model_metrics.py:34-39 | the loops compute the grouping of all runs' pairs, or raise on a run without a "sentiments" object |
| ModelMetrics.AllPairsSpec | generate_model_metrics.py:36-37 | the pairs exist exactly when every run is well formed, and number the sum of the runs' sizes |
| ModelMetrics.AllPairsIndex | generate_model_metrics.py:36-37 | the j-th pair of run r appears after all pairs of the runs before it |
| ModelMetrics.GroupKeys | generate_model_metrics.py:35-38 | the grouped keys are the distinct keys in first-seen order |
| ModelMetrics.GroupValues | generate_model_metrics.py:35-38 | a key's list is every value given for it, in order, and absent keys are absent |
| ModelMetrics.GroupSize | generate_model_metrics.py:34-39 | grouping loses no entry: the list lengths add up to the number of pairs |
| ModelMetrics.AggregateSentimentsProperties | generate_model_metrics.py:34-39 | returns exactly for well-formed runs; then the keys, the per-key lists and the total size are as above |
| ModelMetrics.ValuesPerRun | generate_model_metrics.py:34-39 | a key's list holds one entry per run that has that key, in run order |
| ModelMetrics.CollectEntry | generate_model_metrics.py:46-50 | one pass succeeds exactly for a collectible entry and appends to that key's lists |
| ModelMetrics.CollectArticle | generate_model_metrics.py:45-50 | one article's passes give the gathering of all entries so far |
| ModelMetrics.CollectAll | generate_model_metrics.py:43-50 | the first loop succeeds exactly when every entry is collectible, and gives the gathering of the flattened entries |
| ModelMetrics.SummarizeAll | generate_model_metrics.py:52-75 | the second loop gives each key's metrics, or raises |
| ModelMetrics.ComputeMetricsPerArticle | generate_model_metrics.py:42-75 | the two loops compute MetricsPerArticle |
| ModelMetrics.GatheredEntry | generate_model_metrics.py:46-50 | an invalid entry lengthens only the "valid" list; a valid one appends its time, sentiment and confidence too |
| ModelMetrics.GatherKeys | generate_model_metrics.py:44-50 | the metrics keys are the distinct article keys in first-seen order |
| ModelMetrics.GatherValues | generate_model_metrics.py:44-50 | each key's lists are those gathered from exactly that key's entries |
| ModelMetrics.MetricsAllKeys | generate_model_metrics.py:52-75 | the output keys are those of the gathered metrics |
| ModelMetrics.MetricsAllGet | generate_model_metrics.py:53-73 | each key's output is the summary of its own lists |
| ModelMetrics.ValuesForFlatten | generate_model_metrics.py:44-45 | flattening the grouped dict and picking one key gives back that key's list |
| ModelMetrics.MetricsPerArticleProperties | generate_model_metrics.py:42-75 | a key is in the output exactly when it has entries, and its metrics are the summary of exactly those entries |
| ModelMetrics.MetricsOfGroupKeys | generate_model_metrics.py:34-75 | after grouping, the output keys are exactly the article keys of the runs |
| ModelMetrics.ValidCount | generate_model_metrics.py:54 | sum() of the boolean flags counts the valid entries |
| ModelMetrics.ValidRate | generate_model_metrics.py:54-63 | the valid-JSON rate is the rounded share of valid entries, in [0, 1] |
| ModelMetrics.NoValidEntriesZero | generate_model_metrics.py:57-73 | with no valid entry the rate, variance, mean and confidence fall back to 0 |
| ComparisonReport.ExtractSentiments | generate_model_comparison_report.py:31-35 | the loop computes the pooled values of all runs |
| ComparisonReport.ExtractSentimentsProperties | generate_model_comparison_report.py:31-35 | returns exactly for well-formed runs; the pooled list has one entry per stored entry |
| ComparisonReport.ExtractSentimentsOrder | generate_model_comparison_report.py:33-34 | run r's j-th value sits after all values of the runs before it |
| ComparisonReport.ReportModelName | generate_model_comparison_report.py:38-39 | the name is the slash-free tail of the path |
| ComparisonReport.ReportModelNameOfPath | generate_model_comparison_report.py:128-137 | a model's key is its directory name, with no colon |
| ComparisonReport.ValidOnesSpec | generate_model_comparison_report.py:43 | the valid list holds exactly the entries whose "valid" is truthy |
| ComparisonReport.ComputeMetricsProperties | generate_model_comparison_report.py:42-61 | an empty list or a missing "valid" raises; otherwise the rate is the valid share in [0, 1], the samples are the first n valid reasonings, and the means are of the valid entries |
| ComparisonReport.InvalidEntriesOnlyCounted | generate_model_comparison_report.py:43-53 | only the count of the invalid entries matters, never their contents |
| ComparisonReport.SentimentSelection | generate_model_comparison_report.py:65-66 | the selection is never longer than its input |
| ComparisonReport.SelectionOfObjects | generate_model_comparison_report.py:65-66 | over objects the comprehension returns the "sentiment" values of the entries that have one, in order |
| ComparisonReport.CompareLoaded | generate_model_comparison_report.py:64-66 | comparing two loaded models compares their selected sentiment columns |
| ComparisonReport.BuildComparisons | generate_model_comparison_report.py:149-156 | the loop computes the comparisons dict |
| ComparisonReport.ComparisonPairsSpec | generate_model_comparison_report.py:149-156 | the loop records "m1 vs m2" with its comparison for exactly the pairs whose models were both loaded, in order |
| ComparisonReport.FoundPairsMembers | generate_model_comparison_report.py:150-156 | each pair compared is a configured pair whose models are both loaded |
| ComparisonReport.LoadPairsNames | generate_model_comparison_report.py:128-137 | no loaded key contains ':' |
| ComparisonReport.ColonNamedPairSkipped | generate_model_comparison_report.py:128-156 | a pair naming a model with ':' is never compared, because its key was stored with '_' |
| JsonValues.Assign | utils/analysis_utils.py:177 | d[k] = v: the key keeps its place or is appended, and it maps to v |
| JsonValues.AssignOther | utils/analysis_utils.py:177 | d[k] = v leaves every other key unchanged |
| JsonValues.AssignAllGet | utils/analysis_utils.py:169-177 | after a sequence of assignments each key holds its last assigned value, or its earlier one |
| JsonValues.AssignAllKeys | utils/analysis_utils.py:169-177 | the keys of a dict built by assignments are the distinct keys in first-assignment order |

## Left out

- The language model, web scraping, HTTP, the Yahoo Finance and FinNews clients, the MD5 digest,
  `json.loads` and `json.dumps` are parameters. Their behaviour is not modelled.
- `get_content` (main.py:101-117) and `utils/web_scraper.py` are the scraper parameter.
- File I/O is left out: the message files, YAML configuration, the JSON result files and their
  loading, and the spreadsheet, CSV and heatmap output.
  - `generate_heatmaps.py`, `utils/file_utils.py` and `utils/context.py` are not part of this
    model.
  - A saved run is modelled as the path and the data written.
- `time.time()`, `datetime.utcnow()`, logging, `print` and `lru_cache` are left out. Times are
  parameters.
- The `get_news` wrapper and `load_config` are left out.
- `create_xlsx_and_csvs` and `create_spreadsheet` are left out.
- The final dict comprehensions of the two reports' `main` that apply a metrics function to
  every model are left out. The functions they apply are modelled.
- IEEE floating point is left out. Numbers are reals, so overflow, NaN and rounding error of
  float arithmetic are not modelled.
  - NumPy's NaN for the mean of an empty list is `None`.
- The statistical tests `f_oneway` and `ttest_ind` are left out. The model stops at the two
  sentiment columns they are given.
- NumPy's mean and variance of non-numbers are left out: they raise in the model.
- `str.lower()` is modelled for ASCII letters only.
- The regex class `\d` is modelled as the ASCII digits.
- ModelMetrics.ValidRate: states the rate only when every "valid" flag is a JSON boolean. This
  is what the pipeline writes.
- The pydantic schema is modelled by its effect on parsed JSON. Strict mode's type rules are
  reduced to "the three fields are present, of their type and in range".
- Oracles.NewsItem: every feed item is assumed to carry `link`, `summary`, `published` and the
  parsed publication time. The program's own error paths for an item missing one of these keys
  are not modelled:
  - the `""` default of `find_published_date` (utils/analysis_utils.py:225-227), which only a
    `KeyError` reaches;
  - the `{}` of `get_content_map` for a missing `link` or `summary`
    (generate_model_sentiments.py:49-56);
  - the uncaught `KeyError`s that end main.py (lines 86, 121, 125 and 201-202).
- JsonValues.Get: reads the first pair with the key. Python keeps the last value of a repeated
  key, so the two agree only on objects with distinct keys. `json.loads` and every dict the
  pipeline builds produce only such objects. Duplicate keys in a parse result are not modelled.
- Prompt templates are pre-split into literal text and the `{content_to_analyze}` and
  `{company_name}` slots (`Oracles.Piece`). The `{{` and `}}` escapes of `str.format` are not
  modelled. Nor are its errors: a `KeyError` for an unknown field and a `ValueError` for a
  stray brace.
  - In the source these errors are not caught. `format_prompt` is called in `analyze_content`
    (utils/analysis_utils.py:170-172), outside the handler of `process_content`, and neither
    `analyze_content`, `test_model` nor `test_models` has one. In main.py:184-186 the error
    ends the script.
  - The model has no such raise.
- The language model is a function from prompt to reply (`Oracles.Env.llm`), so one prompt
  always gets the same reply. Ollama samples at temperature 0.2 (main.py:162), and two articles
  with the same content send the same prompt. Each iteration takes its own `Env`, so replies
  may differ between iterations. Within one iteration the model does not cover two different
  replies to one prompt. The properties hold for every such function, not for every sequence of
  sampled replies.

## Findings

| source | as written | input that shows it | evidently intended | confidence | as-written member | corrected member |
|---|---|---|---|---|---|---|
| main.py:84-87 | `news_object.remove(news)` inside `for news in news_object` skips the item after each removal | two distinct stale items [a, b]: only a is removed, so [b] survives the filter | keep exactly the recent items, as the later `filter_recent_news` comprehension does | high; not executed | MainScript.SkippedItemSurvives | AnalysisUtils.FilterRecentNewsProperties |
| main.py:209-221 | when the total weight is zero, the average is left as the raw weighted sum | sentiments 0.5 and -0.5 with confidences 1.0 and -1.0 (main.py validates nothing): the sum is 1.0, the weight is 0, and 1.0 is saved | 0.0 for zero weight, as `compute_weighted_average_sentiment` returns | low; not executed | MainScript.ZeroWeightRawSum | AnalysisUtils.ZeroSentimentsAverageZero |

=== FILE: analysis_utils.dfy ===
/** utils/analysis_utils.py: preparing the inputs (company name, recent news, prompts), running
    one model over the articles, and the confidence-weighted average of a run. */
module AnalysisUtils {
  import opened JsonValues
  import opened PyStrings
  import opened Rounding
  import opened Oracles
  import opened ValidationUtils

  const CommonSuffixes: seq<string> :=
    ["inc.", "incorporated", "corp.", "corporation", "ltd.", "limited", "co.", "company"]

  const DummyPrompt: string := "Hello"

  /** Seconds in the timedelta(days=1) the recency window is counted in. */
  const SecondsPerDay: int := 86400

  // ---------------------------------------------------------------------------
  // clean_company_name

  /** What clean_company_name returns: lower-case, cut at the first comma, each suffix deleted
      in list order, stripped. No comma survives and no whitespace is left at either end. */
  function CleanName(longName: string): (r: string)
    ensures ',' !in r
    ensures r == [] || (!IsSpace(r[0]) && !IsSpace(r[|r| - 1]))
  {
    var cut := BeforeFirstComma(Lower(longName));
    var kept := RemoveEach(cut, CommonSuffixes);
    RemoveEachNoNewChar(cut, CommonSuffixes, ',');
    Strip(kept)
  }

  method CleanCompanyName(longName: string) returns (companyName: string)
    ensures companyName == CleanName(longName)
  {
    companyName := BeforeFirstComma(Lower(longName));
    ghost var start := companyName;
    var i := 0;
    while i < |CommonSuffixes|
      invariant 0 <= i <= |CommonSuffixes|
      invariant RemoveEach(companyName, CommonSuffixes[i..]) == RemoveEach(start, CommonSuffixes)
    {
      assert CommonSuffixes[i..][1..] == CommonSuffixes[i + 1..];
      companyName := RemoveAll(companyName, CommonSuffixes[i]);
      i := i + 1;
    }
    companyName := Strip(companyName);
  }

  /** Deleting w from a text that starts with no w-initial character leaves that text alone. */
  lemma {:induction false} RemoveAllSkip(p: string, rest: string, w: string)
    requires w != [] && w[0] !in p
    ensures RemoveAll(p + rest, w) == p + RemoveAll(rest, w)
    decreases |p|
  {
    var q := p + rest;
    if p == [] {
      assert q == rest;
    } else {
      var p' := p[1..];
      assert q[1..] == p' + rest;
      assert q[0] == p[0] && p[0] != w[0];
      assert w[0] !in p' by {
        assert forall j :: 0 <= j < |p'| ==> p'[j] == p[j + 1];
      }
      RemoveAllSkip(p', rest, w);
      if |q| >= |w| {
        assert q[..|w|] != w by {
          assert q[..|w|][0] == q[0];
        }
        assert RemoveAll(q, w) == [q[0]] + RemoveAll(q[1..], w);
      } else {
        assert RemoveAll(rest, w) == rest;
      }
      assert p == [p[0]] + p';
    }
  }

  /** A text lacking some character of w holds no occurrence of w. */
  lemma {:induction false} RemoveAllAbsent(s: string, w: string, c: char)
    requires c in w && c !in s
    ensures RemoveAll(s, w) == s
    decreases |s|
  {
    if |s| >= |w| {
      assert c !in s[..|w|];
      RemoveAllAbsent(s[1..], w, c);
    }
  }

  lemma RemoveAllLeading(w: string, rest: string)
    requires w != []
    ensures RemoveAll(w + rest, w) == RemoveAll(rest, w)
  {
    assert (w + rest)[..|w|] == w;
    assert (w + rest)[|w|..] == rest;
  }

  /** Of the suffixes, only "corporation" occurs in s = t + "corporation" when t has none
      of the characters '.', 'e', 'c' and 'l'. */
  lemma CorporationRemoved(s: string, t: string)
    requires s == t + "corporation" && '.' !in t && 'e' !in t && 'c' !in t && 'l' !in t
    ensures RemoveEach(s, CommonSuffixes) == t
  {
    SuffixesBeforeCorporation(s);
    CorporationAtEnd(s, t);
    SuffixesAfterCorporation(t, CommonSuffixes[4..]);
  }

  lemma SuffixesBeforeCorporation(s: string)
    requires '.' !in s && 'e' !in s
    ensures RemoveEach(s, CommonSuffixes) == RemoveEach(RemoveAll(s, "corporation"), CommonSuffixes[4..])
  {
    RemoveAllAbsent(s, "inc.", '.');
    RemoveAllAbsent(s, "incorporated", 'e');
    RemoveAllAbsent(s, "corp.", '.');
    assert CommonSuffixes[3..][1..] == CommonSuffixes[4..];
  }

  lemma CorporationAtEnd(s: string, t: string)
    requires s == t + "corporation" && 'c' !in t
    ensures RemoveAll(s, "corporation") == t
  {
    assert s == t + ("corporation" + []);
    RemoveAllSkip(t, "corporation" + [], "corporation");
    RemoveAllLeading("corporation", []);
  }

  lemma SuffixesAfterCorporation(t: string, ws: seq<string>)
    requires 'l' !in t && 'c' !in t
    requires |ws| == 4 && ws[0] == "ltd." && ws[1] == "limited" && ws[2] == "co." && ws[3] == "company"
    ensures RemoveEach(t, ws) == t
  {
    RemoveAllAbsent(t, ws[0], 'l');
    RemoveAllAbsent(t, ws[1], 'l');
    RemoveAllAbsent(t, ws[2], 'c');
    RemoveAllAbsent(t, ws[3], 'c');
    RemoveEachStep(t, ws, 3);
    RemoveEachStep(t, ws, 2);
    RemoveEachStep(t, ws, 1);
    RemoveEachStep(t, ws, 0);
    assert ws[0..] == ws;
  }

  /** "NVIDIA Corporation, Inc." becomes "nvidia". */
  lemma CleanNameExample(longName: string)
    requires longName == "NVIDIA Corporation, Inc."
    ensures CleanName(longName) == "nvidia"
  {
    LowerAndCutExample(longName);
    NvidiaLacksSuffixChars("nvidia ");
    CorporationRemoved("nvidia corporation", "nvidia ");
    StripExample("nvidia ");
  }

  lemma NvidiaLacksSuffixChars(t: string)
    requires t == "nvidia "
    ensures '.' !in t && 'e' !in t && 'c' !in t && 'l' !in t
    ensures t + "corporation" == "nvidia corporation"
  {
  }

  lemma LowerAndCutExample(longName: string)
    requires longName == "NVIDIA Corporation, Inc."
    ensures BeforeFirstComma(Lower(longName)) == "nvidia corporation"
  {
    LowerExample(longName);
    BeforeFirstCommaPrefix("nvidia corporation", ", inc.");
  }

  lemma LowerExample(longName: string)
    requires longName == "NVIDIA Corporation, Inc."
    ensures Lower(longName) == "nvidia corporation" + ", inc."
  {
  }

  lemma StripExample(t: string)
    requires t == "nvidia "
    ensures Strip(t) == "nvidia"
  {
    assert LStrip(t) == t;
    assert RStrip(t) == "nvidia" by {
      assert t[..|t| - 1] == "nvidia";
    }
  }

  /** Cutting at the first comma of a comma-free text followed by a comma gives that text. */
  lemma {:induction false} BeforeFirstCommaPrefix(s: string, rest: string)
    requires ',' !in s && rest != [] && rest[0] == ','
    ensures BeforeFirstComma(s + rest) == s
    decreases |s|
  {
    if s != [] {
      assert (s + rest)[1..] == s[1..] + rest;
      BeforeFirstCommaPrefix(s[1..], rest);
    } else {
      assert s + rest == rest;
    }
  }

  /** Deleting a suffix can join two halves into a new occurrence of it, so cleaning a cleaned
      name can change it again: "corcorp.p." cleans to "corp.", which cleans to "". */
  lemma CleanNameNotIdempotent(longName: string)
    requires longName == "corcorp.p."
    ensures CleanName(longName) == "corp."
    ensures CleanName(CleanName(longName)) == ""
  {
    CleanCorcorp(longName);
    CleanCorp("corp.");
  }

  lemma CleanCorcorp(s: string)
    requires s == "corcorp.p."
    ensures CleanName(s) == "corp."
  {
    LowerCutWhole(s);
    RemoveEachCorcorp(s, "corp.");
    StripWhole("corp.");
  }

  lemma LowerCutWhole(s: string)
    requires s == "corcorp.p."
    ensures BeforeFirstComma(Lower(s)) == s
  {
    assert Lower(s) == s;
    BeforeFirstCommaWhole(s);
  }

  lemma StripWhole(t: string)
    requires t == "corp."
    ensures Strip(t) == t
  {
    assert LStrip(t) == t;
    assert RStrip(t) == t;
  }

  lemma RemoveEachCorcorp(s: string, t: string)
    requires s == "corcorp.p." && t == "corp."
    ensures RemoveEach(s, CommonSuffixes) == t
  {
    RemoveAllAbsent(s, "inc.", 'i');
    RemoveAllAbsent(s, "incorporated", 'i');
    CorpJoined(s, t);
    assert RemoveEach(s, CommonSuffixes) == RemoveEach(t, CommonSuffixes[3..]);
    CorpSurvivesRest(t, CommonSuffixes[3..]);
  }

  lemma CorpJoined(s: string, t: string)
    requires s == "corcorp.p." && t == "corp."
    ensures RemoveAll(s, "corp.") == t
  {
    assert s[..5][3] == 'c' && "corp."[3] == 'p';
    assert s[1..] == "or" + ("corp." + "p.");
    RemoveAllSkip("or", "corp." + "p.", "corp.");
    RemoveAllLeading("corp.", "p.");
  }

  lemma CorpSurvivesRest(t: string, ws: seq<string>)
    requires t == "corp."
    requires |ws| == 5 && ws[0] == "corporation" && ws[1] == "ltd." && ws[2] == "limited"
             && ws[3] == "co." && ws[4] == "company"
    ensures RemoveEach(t, ws) == t
  {
    RemoveAllAbsent(t, ws[0], 'i');
    RemoveAllAbsent(t, ws[1], 'l');
    RemoveAllAbsent(t, ws[2], 'l');
    assert RemoveAll(t, ws[3]) == t by {
      assert t[..3][2] == 'r' && "co."[2] == '.';
      RemoveAllAbsent(t[1..], "co.", 'c');
    }
    RemoveAllAbsent(t, ws[4], 'm');
    RemoveEachStep(t, ws, 4);
    RemoveEachStep(t, ws, 3);
    RemoveEachStep(t, ws, 2);
    RemoveEachStep(t, ws, 1);
    RemoveEachStep(t, ws, 0);
  }

  lemma RemoveEachFrom(s: string, ws: seq<string>, i: nat)
    requires i < |ws|
    ensures RemoveEach(s, ws[i..]) == RemoveEach(RemoveAll(s, ws[i]), ws[i + 1..])
  {
    assert ws[i..][0] == ws[i] && ws[i..][1..] == ws[i + 1..];
  }

  lemma RemoveEachStep(s: string, ws: seq<string>, i: nat)
    requires i < |ws| && RemoveAll(s, ws[i]) == s && RemoveEach(s, ws[i + 1..]) == s
    ensures RemoveEach(s, ws[i..]) == s
  {
    assert ws[i..][0] == ws[i] && ws[i..][1..] == ws[i + 1..];
  }

  lemma CleanCorp(t: string)
    requires t == "corp."
    ensures CleanName(t) == ""
  {
    assert Lower(t) == t;
    BeforeFirstCommaWhole(t);
    CorpRemoved(t, CommonSuffixes);
  }

  /** The third suffix deletes "corp." whole, and nothing comes back from the empty text. */
  lemma CorpRemoved(t: string, ws: seq<string>)
    requires t == "corp." && ws == CommonSuffixes
    ensures RemoveEach(t, ws) == []
  {
    assert ws[0] == "inc." && ws[1] == "incorporated" && ws[2] == "corp.";
    RemoveAllAbsent(t, ws[0], 'i');
    RemoveAllAbsent(t, ws[1], 'i');
    assert RemoveAll(t, ws[2]) == [] by {
      assert t == "corp." + [];
      RemoveAllLeading("corp.", []);
    }
    RemoveEachFrom(t, ws, 0);
    RemoveEachFrom(t, ws, 1);
    RemoveEachFrom([], ws, 2);
    RemoveEachOfEmpty(ws[3..]);
    assert ws[0..] == ws;
  }

  /** Nothing is left to delete from the empty text. */
  lemma {:induction false} RemoveEachOfEmpty(ws: seq<string>)
    ensures RemoveEach([], ws) == []
    decreases |ws|
  {
    if ws != [] {
      assert RemoveAll([], ws[0]) == [];
      RemoveEachOfEmpty(ws[1..]);
    }
  }

  lemma {:induction false} BeforeFirstCommaWhole(s: string)
    requires ',' !in s
    ensures BeforeFirstComma(s) == s
    decreases |s|
  {
    if s != [] {
      BeforeFirstCommaWhole(s[1..]);
    }
  }

  // ---------------------------------------------------------------------------
  // filter_recent_news

  /** now - timedelta(days=maxNewsAge), in seconds. */
  function Cutoff(now: real, maxNewsAge: int): real {
    now - (maxNewsAge * SecondsPerDay) as real
  }

  predicate IsSubsequence(a: seq<NewsItem>, b: seq<NewsItem>)
    decreases |b|
  {
    a == [] || (b != [] && if a[0] == b[0] then IsSubsequence(a[1..], b[1..]) else IsSubsequence(a, b[1..]))
  }

  lemma {:induction false} SubsequencePrefix(a: seq<NewsItem>, b: seq<NewsItem>, n: nat)
    requires IsSubsequence(a, b) && n <= |a|
    ensures IsSubsequence(a[..n], b)
    decreases |b|
  {
    if n > 0 {
      if a[0] == b[0] {
        assert a[..n][1..] == a[1..][..n - 1];
        SubsequencePrefix(a[1..], b[1..], n - 1);
      } else {
        SubsequencePrefix(a, b[1..], n);
      }
    }
  }

  /** The comprehension: the items published at or after the cutoff, in feed order. */
  function Recent(news: seq<NewsItem>, cutoff: real): (r: seq<NewsItem>)
    ensures forall i :: 0 <= i < |r| ==> r[i].publishedAt as real >= cutoff
    ensures forall x :: x in news && x.publishedAt as real >= cutoff ==> x in r
    ensures IsSubsequence(r, news)
    decreases |news|
  {
    if news == [] then []
    else if news[0].publishedAt as real >= cutoff then [news[0]] + Recent(news[1..], cutoff)
    else Recent(news[1..], cutoff)
  }

  /** The comprehension filters item by item: one item is kept exactly when it is recent. */
  lemma RecentOne(x: NewsItem, cutoff: real)
    ensures Recent([x], cutoff) == if x.publishedAt as real >= cutoff then [x] else []
  {
  }

  lemma RecentCons(x: NewsItem, rest: seq<NewsItem>, cutoff: real)
    ensures Recent([x] + rest, cutoff) == Recent([x], cutoff) + Recent(rest, cutoff)
  {
    assert ([x] + rest)[0] == x && ([x] + rest)[1..] == rest;
    assert [x][1..] == [];
  }

  /** ... and the filter of a concatenation is the concatenation of the filters, so every
      recent item is kept, duplicates included, in feed order. */
  lemma {:induction false} RecentAppend(a: seq<NewsItem>, b: seq<NewsItem>, cutoff: real)
    ensures Recent(a + b, cutoff) == Recent(a, cutoff) + Recent(b, cutoff)
    decreases |a|
  {
    if a == [] {
      assert a + b == b;
    } else {
      var x, rest := a[0], a[1..];
      calc {
        Recent(a + b, cutoff);
        { assert a + b == [x] + (rest + b); }
        Recent([x] + (rest + b), cutoff);
        { RecentCons(x, rest + b, cutoff); }
        Recent([x], cutoff) + Recent(rest + b, cutoff);
        { RecentAppend(rest, b, cutoff); }
        Recent([x], cutoff) + (Recent(rest, cutoff) + Recent(b, cutoff));
        (Recent([x], cutoff) + Recent(rest, cutoff)) + Recent(b, cutoff);
        { RecentCons(x, rest, cutoff); assert a == [x] + rest; }
        Recent(a, cutoff) + Recent(b, cutoff);
      }
    }
  }

  /** filter_recent_news: the comprehension cut by the Python slice [:maxNewsItems]. */
  function FilterRecentNews(news: seq<NewsItem>, now: real, maxNewsAge: int, maxNewsItems: int)
    : seq<NewsItem>
  {
    PyPrefix(Recent(news, Cutoff(now, maxNewsAge)), maxNewsItems)
  }

  /** filter_recent_news keeps items of the feed in feed order, only items at or after the cutoff
      (the cutoff itself included), at most maxNewsItems of them, and drops no qualifying item
      while there is room. */
  lemma FilterRecentNewsProperties(news: seq<NewsItem>, now: real, maxNewsAge: int, maxNewsItems: int)
    ensures var r := FilterRecentNews(news, now, maxNewsAge, maxNewsItems);
            && IsSubsequence(r, news)
            && (forall i :: 0 <= i < |r| ==> r[i].publishedAt as real >= Cutoff(now, maxNewsAge))
            && (maxNewsItems >= 0 ==> |r| <= maxNewsItems)
            && (0 <= |r| < maxNewsItems ==>
                  forall x :: x in news && x.publishedAt as real >= Cutoff(now, maxNewsAge) ==> x in r)
            && var q := Recent(news, Cutoff(now, maxNewsAge));
               && |r| <= |q| && r == q[..|r|]
               && (maxNewsItems >= 0 ==> |r| == if maxNewsItems <= |q| then maxNewsItems else |q|)
  {
    var q := Recent(news, Cutoff(now, maxNewsAge));
    var r := FilterRecentNews(news, now, maxNewsAge, maxNewsItems);
    SubsequencePrefix(q, news, |r|);
    assert r == q[..|r|];
    if 0 <= |r| < maxNewsItems {
      assert r == q;
    }
  }

  // ---------------------------------------------------------------------------
  // format_prompt

  /** "sentiment" in model_name: such a model gets the article text as its whole prompt. */
  predicate IsSentimentModel(modelName: string) {
    Contains(modelName, "sentiment")
  }

  function PieceText(p: Piece, content: string, companyName: string): string {
    match p
    case Literal(text) => text
    case ContentSlot => content
    case CompanySlot => companyName
  }

  /** template.format(content_to_analyze=content, company_name=companyName). */
  function FillTemplate(template: seq<Piece>, content: string, companyName: string): string
    decreases |template|
  {
    if template == [] then []
    else PieceText(template[0], content, companyName) + FillTemplate(template[1..], content, companyName)
  }

  lemma {:induction false} FillTemplateSplit(template: seq<Piece>, content: string, companyName: string, i: nat)
    requires i <= |template|
    ensures FillTemplate(template, content, companyName)
         == FillTemplate(template[..i], content, companyName) + FillTemplate(template[i..], content, companyName)
    decreases i
  {
    if i > 0 {
      assert template[..i][1..] == template[1..][..i - 1];
      assert template[i..] == template[1..][i - 1..];
      FillTemplateSplit(template[1..], content, companyName, i - 1);
    }
  }

  function FormatPrompt(isSentimentModel: bool, analyzePrompt: seq<Piece>, content: string,
                        companyName: string): (prompt: string)
    ensures isSentimentModel ==> prompt == content
  {
    if isSentimentModel then content else FillTemplate(analyzePrompt, content, companyName)
  }

  /** A template with a {content_to_analyze} field carries the article text into the prompt. */
  lemma FormatPromptEmbedsContent(analyzePrompt: seq<Piece>, content: string, companyName: string, i: nat)
    requires i < |analyzePrompt| && analyzePrompt[i] == ContentSlot
    ensures Contains(FormatPrompt(false, analyzePrompt, content, companyName), content)
  {
    FillTemplateSplit(analyzePrompt, content, companyName, i);
    assert analyzePrompt[i..][1..] == analyzePrompt[i + 1..];
    var before := FillTemplate(analyzePrompt[..i], content, companyName);
    var after := FillTemplate(analyzePrompt[i + 1..], content, companyName);
    assert FillTemplate(analyzePrompt[i..], content, companyName) == content + after;
    assert FormatPrompt(false, analyzePrompt, content, companyName) == before + content + after;
    ContainsInfix(before, content, after);
  }

  // ---------------------------------------------------------------------------
  // find_published_date and process_content

  /** The `published` text of the first news item linking to url, or "" if none does. */
  function FindPublishedDate(news: seq<NewsItem>, url: string): (r: string)
    ensures (forall i :: 0 <= i < |news| ==> news[i].link != url) ==> r == ""
    ensures forall i :: FirstLinkTo(news, url, i) ==> r == news[i].published
    decreases |news|
  {
    if news == [] then ""
    else if news[0].link == url then news[0].published
    else
      var r := FindPublishedDate(news[1..], url);
      assert (forall i :: 0 <= i < |news| ==> news[i].link != url) ==>
             (forall i :: 0 <= i < |news[1..]| ==> news[1..][i].link != url);
      forall i | FirstLinkTo(news, url, i)
        ensures r == news[i].published
      {
        assert 0 <= i < |news| && news[i].link == url;
        assert i != 0;
        assert news[1..][i - 1] == news[i];
        forall j | 0 <= j < i - 1
          ensures news[1..][j].link != url
        {
          assert news[1..][j] == news[j + 1];
        }
        assert FirstLinkTo(news[1..], url, i - 1);
      }
      r
  }

  /** news[i] is the first item linking to url. */
  predicate FirstLinkTo(news: seq<NewsItem>, url: string, i: int) {
    0 <= i < |news| && news[i].link == url && forall j :: 0 <= j < i ==> news[j].link != url
  }

  const MetaKeys: seq<string> := ["valid", "url", "published", "time_taken"]

  /** The four fields process_content adds to every entry. */
  predicate HasMeta(entry: Dict, valid: bool, url: string, published: string, timeTaken: real) {
    && Get(entry, "valid") == Some(Bool(valid))
    && Get(entry, "url") == Some(Str(url))
    && Get(entry, "published") == Some(Str(published))
    && Get(entry, "time_taken") == Some(Num(timeTaken))
  }

  /** The four assignments process_content makes after validation, in its order. */
  function Stamp(d: Dict, valid: bool, url: string, published: string, timeTaken: real): Dict {
    var e1 := Assign(d, "valid", Bool(valid));
    var e2 := Assign(e1, "url", Str(url));
    var e3 := Assign(e2, "published", Str(published));
    Assign(e3, "time_taken", Num(timeTaken))
  }

  lemma StampMeta(d: Dict, valid: bool, url: string, published: string, timeTaken: real)
    ensures HasMeta(Stamp(d, valid, url, published, timeTaken), valid, url, published, timeTaken)
  {
    var e1 := Assign(d, "valid", Bool(valid));
    var e2 := Assign(e1, "url", Str(url));
    var e3 := Assign(e2, "published", Str(published));
    var e4 := Assign(e3, "time_taken", Num(timeTaken));
    AssignOther(e1, "url", Str(url), "valid");
    AssignOther(e2, "published", Str(published), "valid");
    AssignOther(e3, "time_taken", Num(timeTaken), "valid");
    AssignOther(e2, "published", Str(published), "url");
    AssignOther(e3, "time_taken", Num(timeTaken), "url");
    AssignOther(e3, "time_taken", Num(timeTaken), "published");
  }

  lemma StampKeeps(d: Dict, valid: bool, url: string, published: string, timeTaken: real)
    ensures forall k :: k !in MetaKeys ==> Get(Stamp(d, valid, url, published, timeTaken), k) == Get(d, k)
  {
    forall k | k !in MetaKeys
      ensures Get(Stamp(d, valid, url, published, timeTaken), k) == Get(d, k)
    {
      assert k != "valid" && k != "url" && k != "published" && k != "time_taken";
      var e1 := Assign(d, "valid", Bool(valid));
      var e2 := Assign(e1, "url", Str(url));
      var e3 := Assign(e2, "published", Str(published));
      AssignOther(d, "valid", Bool(valid), k);
      AssignOther(e1, "url", Str(url), k);
      AssignOther(e2, "published", Str(published), k);
      AssignOther(e3, "time_taken", Num(timeTaken), k);
    }
  }

  lemma StampOfEmpty(d: Dict, valid: bool, url: string, published: string, timeTaken: real)
    requires Keys(d) == []
    ensures Keys(Stamp(d, valid, url, published, timeTaken)) == MetaKeys
  {
    FreshKeys(d, "valid", Bool(valid), "url", Str(url), "published", Str(published), "time_taken", Num(timeTaken));
  }

  /** Two assignments of new, distinct keys append them in order. */
  lemma TwoNewKeys(d: Dict, ks: seq<string>, k1: string, v1: Json, k2: string, v2: Json)
    requires Keys(d) == ks && k1 !in ks && k2 !in ks && k1 != k2
    ensures Keys(Assign(Assign(d, k1, v1), k2, v2)) == ks + [k1, k2]
  {
    AssignNewKey(d, k1, v1, ks);
    AssignNewKey(Assign(d, k1, v1), k2, v2, ks + [k1]);
  }

  /** Four assignments of distinct keys to an empty dict leave exactly those keys, in order. */
  lemma FreshKeys(d: Dict, k1: string, v1: Json, k2: string, v2: Json, k3: string, v3: Json, k4: string, v4: Json)
    requires Keys(d) == []
    requires k1 != k2 && k1 != k3 && k1 != k4 && k2 != k3 && k2 != k4 && k3 != k4
    ensures Keys(Assign(Assign(Assign(Assign(d, k1, v1), k2, v2), k3, v3), k4, v4)) == [k1, k2, k3, k4]
  {
    TwoNewKeys(d, [], k1, v1, k2, v2);
    assert [] + [k1, k2] == [k1, k2];
    TwoMoreKeys(Assign(Assign(d, k1, v1), k2, v2), k1, k2, k3, v3, k4, v4);
  }

  lemma TwoMoreKeys(e: Dict, k1: string, k2: string, k3: string, v3: Json, k4: string, v4: Json)
    requires Keys(e) == [k1, k2]
    requires k1 != k3 && k1 != k4 && k2 != k3 && k2 != k4 && k3 != k4
    ensures Keys(Assign(Assign(e, k3, v3), k4, v4)) == [k1, k2, k3, k4]
  {
    TwoNewKeys(e, [k1, k2], k3, v3, k4, v4);
    assert [k1, k2] + [k3, k4] == [k1, k2, k3, k4];
  }

  /** process_content for one article, given the model's reply: the validated dict updated with
      `valid`, `url`, `published` and `time_taken`; {} when the call raised. An unparseable or
      off-schema reply gives exactly the four fields; a valid one keeps all its own fields. */
  function ProcessContent(reply: Reply, parse: string -> Option<Json>, url: string,
                          news: seq<NewsItem>, seconds: real): (entry: Dict)
    ensures reply.Failed? ==> entry == []
    ensures reply.Text? ==>
              HasMeta(entry, ValidateJson(parse(reply.text)).0, url, FindPublishedDate(news, url), Round2(seconds))
    ensures reply.Text? && !ValidateJson(parse(reply.text)).0 ==> Keys(entry) == MetaKeys
    ensures reply.Text? ==>
              forall k :: k !in MetaKeys ==> Get(entry, k) == Get(ValidateJson(parse(reply.text)).1, k)
  {
    match reply
    case Failed => []
    case Text(output) =>
      var (valid, sentimentJson) := ValidateJson(parse(output));
      var published := FindPublishedDate(news, url);
      StampMeta(sentimentJson, valid, url, published, Round2(seconds));
      StampKeeps(sentimentJson, valid, url, published, Round2(seconds));
      if valid then Stamp(sentimentJson, valid, url, published, Round2(seconds))
      else
        StampOfEmpty(sentimentJson, valid, url, published, Round2(seconds));
        Stamp(sentimentJson, valid, url, published, Round2(seconds))
  }

  // ---------------------------------------------------------------------------
  // analyze_content

  /** The arguments analyze_content hands unchanged to every article. */
  datatype Batch = Batch(env: Env, analyzePrompt: seq<Piece>, modelName: string,
                         companyName: string, news: seq<NewsItem>)

  /** process_content for the j-th entry (url, content) of the content map. */
  function ArticleEntry(b: Batch, url: string, content: string, j: nat): Dict {
    var prompt := FormatPrompt(IsSentimentModel(b.modelName), b.analyzePrompt, content, b.companyName);
    ProcessContent(b.env.llm(prompt), b.env.parse, url, b.news, b.env.elapsed(j))
  }

  /** An article's entry is empty exactly when its model call raised; otherwise it carries the
      validation verdict, the url, the published date of the first news item with that link and
      the rounded time of its call. */
  lemma ArticleEntryMeta(b: Batch, url: string, content: string, j: nat)
    ensures var prompt := FormatPrompt(IsSentimentModel(b.modelName), b.analyzePrompt, content, b.companyName);
            var entry := ArticleEntry(b, url, content, j);
            && (entry != [] <==> b.env.llm(prompt).Text?)
            && (entry != [] ==> HasMeta(entry, ValidateJson(b.env.parse(b.env.llm(prompt).text)).0,
                                        url, FindPublishedDate(b.news, url), Round2(b.env.elapsed(j))))
  {
  }

  /** hash_url of each url of the content map. */
  function Hashes(b: Batch, contentMap: seq<(string, string)>): (ks: seq<string>)
    ensures |ks| == |contentMap|
  {
    seq(|contentMap|, j requires 0 <= j < |contentMap| => b.env.hash(contentMap[j].0))
  }

  /** process_content's result for each article of the content map. */
  function Entries(b: Batch, contentMap: seq<(string, string)>): (es: seq<Dict>)
    ensures |es| == |contentMap|
  {
    seq(|contentMap|, j requires 0 <= j < |contentMap| => ArticleEntry(b, contentMap[j].0, contentMap[j].1, j))
  }

  /** The (key, entry) pairs for the non-empty entries, in order: the `if sentiment_json:`
      filter of the loop. */
  function NonEmptyPairs<T>(ks: seq<string>, es: seq<seq<T>>): seq<(string, seq<T>)>
    requires |ks| == |es|
    decreases |ks|
  {
    if ks == [] then []
    else
      var n := |ks| - 1;
      NonEmptyPairs(ks[..n], es[..n]) + if es[n] != [] then [(ks[n], es[n])] else []
  }

  /** The (hash_url(url), entry) assignments analyze_content performs, in content-map order:
      one per article whose processing did not raise. */
  function Recorded(b: Batch, contentMap: seq<(string, string)>): seq<(string, Dict)> {
    NonEmptyPairs(Hashes(b, contentMap), Entries(b, contentMap))
  }

  lemma RecordedSnoc(b: Batch, contentMap: seq<(string, string)>, j: nat)
    requires j < |contentMap|
    ensures var entry := ArticleEntry(b, contentMap[j].0, contentMap[j].1, j);
            Recorded(b, contentMap[..j + 1])
            == Recorded(b, contentMap[..j]) + if entry != [] then [(b.env.hash(contentMap[j].0), entry)] else []
  {
    var ks, es := Hashes(b, contentMap[..j + 1]), Entries(b, contentMap[..j + 1]);
    assert ks[..j] == Hashes(b, contentMap[..j]);
    assert es[..j] == Entries(b, contentMap[..j]);
  }

  method AnalyzeContent(b: Batch, contentMap: seq<(string, string)>)
    returns (sentimentsMap: seq<(string, Dict)>)
    ensures sentimentsMap == AssignAll([], Recorded(b, contentMap))
  {
    sentimentsMap := [];
    var isSentimentModel := IsSentimentModel(b.modelName);
    var j := 0;
    while j < |contentMap|
      invariant 0 <= j <= |contentMap|
      invariant sentimentsMap == AssignAll([], Recorded(b, contentMap[..j]))
    {
      var (url, content) := contentMap[j];
      var prompt := FormatPrompt(isSentimentModel, b.analyzePrompt, content, b.companyName);
      var sentimentJson := ProcessContent(b.env.llm(prompt), b.env.parse, url, b.news, b.env.elapsed(j));
      assert sentimentJson == ArticleEntry(b, url, content, j);
      RecordedSnoc(b, contentMap, j);
      if sentimentJson != [] {
        AssignAllSnoc([], Recorded(b, contentMap[..j]), b.env.hash(url), sentimentJson);
        sentimentsMap := Assign(sentimentsMap, b.env.hash(url), sentimentJson);
      } else {
        assert Recorded(b, contentMap[..j]) + [] == Recorded(b, contentMap[..j]);
      }
      j := j + 1;
    }
    assert contentMap[..j] == contentMap;
  }

  /** Every pair comes from a non-empty entry and carries that entry's key. */
  lemma {:induction false} NonEmptyPairsFrom<T>(ks: seq<string>, es: seq<seq<T>>)
    requires |ks| == |es|
    ensures forall i :: 0 <= i < |NonEmptyPairs(ks, es)| ==>
              exists j :: 0 <= j < |ks| && NonEmptyPairs(ks, es)[i] == (ks[j], es[j]) && es[j] != []
    decreases |ks|
  {
    if ks != [] {
      var n := |ks| - 1;
      NonEmptyPairsFrom(ks[..n], es[..n]);
      var before := NonEmptyPairs(ks[..n], es[..n]);
      var all := NonEmptyPairs(ks, es);
      var last := if es[n] != [] then [(ks[n], es[n])] else [];
      assert all == before + last;
      forall i | 0 <= i < |NonEmptyPairs(ks, es)|
        ensures exists j :: 0 <= j < |ks| && NonEmptyPairs(ks, es)[i] == (ks[j], es[j]) && es[j] != []
      {
        var j;
        if i < |before| {
          assert all[i] == before[i];
          j :| 0 <= j < n && before[i] == (ks[..n][j], es[..n][j]) && es[..n][j] != [];
          assert ks[..n][j] == ks[j] && es[..n][j] == es[j];
        } else {
          assert last != [] && all[i] == last[0];
          j := n;
        }
        assert 0 <= j < |ks| && all[i] == (ks[j], es[j]) && es[j] != [];
      }
    } else {
      assert NonEmptyPairs(ks, es) == [];
    }
  }

  /** Every non-empty entry has a pair. */
  lemma {:induction false} NonEmptyPairsCover<T>(ks: seq<string>, es: seq<seq<T>>)
    requires |ks| == |es|
    ensures forall j :: 0 <= j < |ks| && es[j] != [] ==> ks[j] in Keys(NonEmptyPairs(ks, es))
    decreases |ks|
  {
    if ks != [] {
      var n := |ks| - 1;
      NonEmptyPairsCover(ks[..n], es[..n]);
      var before := NonEmptyPairs(ks[..n], es[..n]);
      var all := NonEmptyPairs(ks, es);
      forall x | x in Keys(before)
        ensures x in Keys(all)
      {
        var i :| 0 <= i < |before| && Keys(before)[i] == x;
        assert all[i] == before[i];
        assert Keys(all)[i] == x;
      }
      forall j | 0 <= j < |ks| && es[j] != []
        ensures ks[j] in Keys(all)
      {
        if j < n {
          assert ks[..n][j] == ks[j] && es[..n][j] == es[j];
        } else {
          KeysSnoc(before, ks[n], es[n]);
          assert Keys(all)[|before|] == ks[n];
        }
      }
    }
  }

  /** analyze_content: the stored keys are the hashes of the articles whose call did not raise,
      in content-map order of first appearance; every such article is stored (an unparseable
      reply too, as valid false); and every stored entry is the one process_content made for
      an article of the map whose hash is its key. */
  lemma AnalyzeContentEntries(b: Batch, contentMap: seq<(string, string)>)
    ensures var m := AssignAll([], Recorded(b, contentMap));
            && Keys(m) == Dedup(Keys(Recorded(b, contentMap)))
            && (forall j :: 0 <= j < |contentMap| && ArticleEntry(b, contentMap[j].0, contentMap[j].1, j) != [] ==>
                  b.env.hash(contentMap[j].0) in Keys(m))
            && (forall k :: k in Keys(m) ==>
                  exists j :: 0 <= j < |contentMap| && k == b.env.hash(contentMap[j].0)
                    && Get(m, k) == Some(ArticleEntry(b, contentMap[j].0, contentMap[j].1, j))
                    && ArticleEntry(b, contentMap[j].0, contentMap[j].1, j) != [])
  {
    var ks, es := Hashes(b, contentMap), Entries(b, contentMap);
    var kvs := Recorded(b, contentMap);
    var m := AssignAll([], kvs);
    AssignAllKeys(kvs);
    NonEmptyPairsFrom(ks, es);
    NonEmptyPairsCover(ks, es);
    forall j | 0 <= j < |contentMap| && ArticleEntry(b, contentMap[j].0, contentMap[j].1, j) != []
      ensures b.env.hash(contentMap[j].0) in Keys(m)
    {
      assert es[j] != [];
      assert ks[j] in Keys(kvs);
    }
    forall k | k in Keys(m)
      ensures exists j :: 0 <= j < |contentMap| && k == b.env.hash(contentMap[j].0)
                && Get(m, k) == Some(ArticleEntry(b, contentMap[j].0, contentMap[j].1, j))
                && ArticleEntry(b, contentMap[j].0, contentMap[j].1, j) != []
    {
      AssignAllGet([], kvs, k);
      var i := LastIndex(kvs, k);
      var j :| 0 <= j < |ks| && kvs[i] == (ks[j], es[j]) && es[j] != [];
      assert ks[j] == b.env.hash(contentMap[j].0);
      assert es[j] == ArticleEntry(b, contentMap[j].0, contentMap[j].1, j);
    }
  }

  /** Where LastValue comes from. */
  function LastIndex<V>(kvs: seq<(string, V)>, k: string): (i: nat)
    requires k in Keys(kvs)
    ensures i < |kvs| && kvs[i].0 == k && kvs[i].1 == LastValue(kvs, k)
    decreases |kvs|
  {
    var n := |kvs| - 1;
    assert Keys(kvs) == Keys(kvs[..n]) + [kvs[n].0];
    if kvs[n].0 == k then n
    else
      var i := LastIndex(kvs[..n], k);
      assert kvs[..n][i] == kvs[i];
      i
  }

  // ---------------------------------------------------------------------------
  // compute_weighted_average_sentiment

  /** The arithmetic of one pass of the loop body, given the two values read: add s·c and c
      unless one is missing or s is 0.0; a read that raised makes the pass raise. */
  function Combine(acc: (real, real), s: Outcome<Option<real>>, c: Outcome<Option<real>>): Outcome<(real, real)> {
    if s.Raises? || c.Raises? then Raises
    else if s.value.Some? && c.value.Some? && s.value.value != 0.0 then
      Returns((acc.0 + s.value.value * c.value.value, acc.1 + c.value.value))
    else Returns(acc)
  }

  /** Two numbers read, the first non-zero: the pass adds their product and the second. */
  lemma CombineAdds(sum: real, weight: real, s: real, c: real)
    requires s != 0.0
    ensures Combine((sum, weight), Returns(Some(s)), Returns(Some(c))) == Returns((sum + s * c, weight + c))
  {
  }

  /** One pass of the loop body: read the entry's sentiment and confidence (the direct key, or
      else the scan of the serialised entry) and combine them into the running sums. */
  function AddEntry(acc: (real, real), entry: Dict, env: Env): Outcome<(real, real)> {
    Combine(acc, ParseJsonNumericValue(entry, "sentiment", env.dumps, env.parseFloat),
                 ParseJsonNumericValue(entry, "confidence", env.dumps, env.parseFloat))
  }

  /** (average_sentiment, total_weight) after the loop has run over the given entries. */
  function Accumulate(sentimentsMap: seq<(string, Dict)>, env: Env): Outcome<(real, real)>
    decreases |sentimentsMap|
  {
    if sentimentsMap == [] then Returns((0.0, 0.0))
    else
      var n := |sentimentsMap| - 1;
      match Accumulate(sentimentsMap[..n], env)
      case Raises => Raises
      case Returns(acc) => AddEntry(acc, sentimentsMap[n].1, env)
  }

  /** After the loop: the weighted mean rounded to 2 places, or 0.0 when the weight is 0. */
  function Finish(acc: (real, real)): real {
    if acc.1 != 0.0 then Round2(acc.0 / acc.1) else 0.0
  }

  /** The decorated function's result: a raise anywhere gives the default 0.0. */
  function WeightedAverage(sentimentsMap: seq<(string, Dict)>, env: Env): real {
    match Accumulate(sentimentsMap, env)
    case Raises => 0.0
    case Returns(acc) => Finish(acc)
  }

  /** Once an entry raises, the whole loop raises. */
  lemma {:induction false} AccumulateRaises(sentimentsMap: seq<(string, Dict)>, i: nat, env: Env)
    requires i <= |sentimentsMap| && Accumulate(sentimentsMap[..i], env) == Raises
    ensures Accumulate(sentimentsMap, env) == Raises
    decreases |sentimentsMap|
  {
    if i < |sentimentsMap| {
      var n := |sentimentsMap| - 1;
      assert sentimentsMap[..n][..i] == sentimentsMap[..i];
      AccumulateRaises(sentimentsMap[..n], i, env);
    } else {
      assert sentimentsMap[..i] == sentimentsMap;
    }
  }

  /** One more entry is one more pass of the loop body. */
  lemma AccumulateSnoc(sentimentsMap: seq<(string, Dict)>, i: nat, env: Env)
    requires i < |sentimentsMap|
    ensures Accumulate(sentimentsMap[..i + 1], env)
         == match Accumulate(sentimentsMap[..i], env)
            case Raises => Raises
            case Returns(acc) => AddEntry(acc, sentimentsMap[i].1, env)
  {
    assert sentimentsMap[..i + 1][..i] == sentimentsMap[..i];
  }

  method ComputeWeightedAverageSentiment(sentimentsMap: seq<(string, Dict)>, env: Env)
    returns (averageSentiment: real)
    ensures averageSentiment == WeightedAverage(sentimentsMap, env)
  {
    averageSentiment := 0.0;
    var totalWeight := 0.0;
    var i := 0;
    while i < |sentimentsMap|
      invariant 0 <= i <= |sentimentsMap|
      invariant Accumulate(sentimentsMap[..i], env) == Returns((averageSentiment, totalWeight))
    {
      var entry := sentimentsMap[i].1;
      var sValue := ParseJsonNumericValue(entry, "sentiment", env.dumps, env.parseFloat);
      var sConfidence := ParseJsonNumericValue(entry, "confidence", env.dumps, env.parseFloat);
      AccumulateSnoc(sentimentsMap, i, env);
      var next := Combine((averageSentiment, totalWeight), sValue, sConfidence);
      if next.Raises? {
        AccumulateRaises(sentimentsMap, i + 1, env);
        return 0.0;
      }
      averageSentiment, totalWeight := next.value.0, next.value.1;
      i := i + 1;
    }
    assert sentimentsMap[..i] == sentimentsMap;
    if totalWeight != 0.0 {
      averageSentiment := averageSentiment / totalWeight;
      averageSentiment := Round2(averageSentiment);
    } else {
      averageSentiment := 0.0;
    }
  }

  lemma {:induction false} AccumulateZeroSentiments(sentimentsMap: seq<(string, Dict)>, env: Env)
    requires forall i :: 0 <= i < |sentimentsMap| ==> Get(sentimentsMap[i].1, "sentiment") == Some(Num(0.0))
    ensures Accumulate(sentimentsMap, env) == Raises || Accumulate(sentimentsMap, env) == Returns((0.0, 0.0))
    decreases |sentimentsMap|
  {
    if sentimentsMap != [] {
      AccumulateZeroSentiments(sentimentsMap[..|sentimentsMap| - 1], env);
    }
  }

  /** An empty map, or one whose every sentiment is exactly 0.0, averages to exactly 0.0:
      there is no division by zero. */
  lemma ZeroSentimentsAverageZero(sentimentsMap: seq<(string, Dict)>, env: Env)
    requires forall i :: 0 <= i < |sentimentsMap| ==> Get(sentimentsMap[i].1, "sentiment") == Some(Num(0.0))
    ensures WeightedAverage(sentimentsMap, env) == 0.0
  {
    AccumulateZeroSentiments(sentimentsMap, env);
  }

  /** Entries that carry their sentiment and confidence as numbers. */
  predicate CarriesScores(entry: Dict) {
    && Get(entry, "sentiment").Some? && Get(entry, "sentiment").value.Num?
    && -1.0 <= Get(entry, "sentiment").value.n <= 1.0
    && Get(entry, "confidence").Some? && Get(entry, "confidence").value.Num?
    && 0.0 <= Get(entry, "confidence").value.n <= 1.0
  }

  /** A pass over numbers in range keeps the weight non-negative and the sum within the weight. */
  lemma CombineBounded(sum: real, weight: real, s: real, c: real)
    requires 0.0 <= weight && -weight <= sum <= weight
    requires -1.0 <= s <= 1.0 && 0.0 <= c <= 1.0
    ensures Combine((sum, weight), Returns(Some(s)), Returns(Some(c))).Returns?
    ensures var next := Combine((sum, weight), Returns(Some(s)), Returns(Some(c))).value;
            0.0 <= next.1 && -next.1 <= next.0 <= next.1
  {
    if s != 0.0 {
      CombineAdds(sum, weight, s, c);
      ProductWithin(s, c);
      AddWithin(sum, weight, s * c, c);
    }
  }

  lemma AddWithin(sum: real, weight: real, p: real, c: real)
    requires 0.0 <= weight && -weight <= sum <= weight
    requires 0.0 <= c && -c <= p <= c
    ensures 0.0 <= weight + c && -(weight + c) <= sum + p <= weight + c
  {
  }

  lemma ProductWithin(s: real, c: real)
    requires -1.0 <= s <= 1.0 && 0.0 <= c
    ensures -c <= s * c <= c
  {
    ProductNonNegative(1.0 - s, c);
    ProductNonNegative(1.0 + s, c);
    assert (1.0 - s) * c == c - s * c;
    assert (1.0 + s) * c == c + s * c;
  }

  lemma ProductNonNegative(a: real, b: real)
    requires 0.0 <= a && 0.0 <= b
    ensures 0.0 <= a * b
  {
  }

  lemma FactorNonNegative(a: real, b: real)
    requires 0.0 < b && 0.0 <= a * b
    ensures 0.0 <= a
  {
    assert a == (a * b) / b;
  }

  lemma {:induction false} AccumulateBounded(sentimentsMap: seq<(string, Dict)>, env: Env)
    requires forall i :: 0 <= i < |sentimentsMap| ==> CarriesScores(sentimentsMap[i].1)
    ensures Accumulate(sentimentsMap, env).Returns?
    ensures var (sum, weight) := Accumulate(sentimentsMap, env).value; 0.0 <= weight && -weight <= sum <= weight
    decreases |sentimentsMap|
  {
    if sentimentsMap != [] {
      var n := |sentimentsMap| - 1;
      AccumulateBounded(sentimentsMap[..n], env);
      var entry := sentimentsMap[n].1;
      var s := Get(entry, "sentiment").value.n;
      var c := Get(entry, "confidence").value.n;
      assert ParseJsonNumericValue(entry, "sentiment", env.dumps, env.parseFloat) == Returns(Some(s));
      assert ParseJsonNumericValue(entry, "confidence", env.dumps, env.parseFloat) == Returns(Some(c));
      CombineBounded(Accumulate(sentimentsMap[..n], env).value.0, Accumulate(sentimentsMap[..n], env).value.1, s, c);
    }
  }

  /** When every entry carries a sentiment in [-1, 1] and a confidence in [0, 1], as every
      valid entry does, the average lies in [-1, 1]. */
  lemma WeightedAverageBounded(sentimentsMap: seq<(string, Dict)>, env: Env)
    requires forall i :: 0 <= i < |sentimentsMap| ==> CarriesScores(sentimentsMap[i].1)
    ensures -1.0 <= WeightedAverage(sentimentsMap, env) <= 1.0
  {
    AccumulateBounded(sentimentsMap, env);
    var acc := Accumulate(sentimentsMap, env).value;
    WeightedAverageOf(sentimentsMap, env, acc.0, acc.1);
    FinishBounded(acc.0, acc.1);
  }

  /** A sum within its weight gives a rounded mean in [-1, 1]. */
  lemma FinishBounded(sum: real, weight: real)
    requires 0.0 <= weight && -weight <= sum <= weight
    ensures -1.0 <= Finish((sum, weight)) <= 1.0
  {
    if weight != 0.0 {
      RatioWithin(sum, weight);
      Round2Within(sum / weight, -100, 100);
    }
  }

  lemma RatioWithin(sum: real, weight: real)
    requires 0.0 < weight && -weight <= sum <= weight
    ensures -1.0 <= sum / weight <= 1.0
  {
    var q := sum / weight;
    assert q * weight == sum;
    assert (1.0 - q) * weight == weight - sum;
    assert (1.0 + q) * weight == weight + sum;
    FactorNonNegative(1.0 - q, weight);
    FactorNonNegative(1.0 + q, weight);
  }

  /** An entry that carries both scores as numbers, the sentiment non-zero, adds s·c to the
      sum and c to the weight. */
  lemma ScoredEntryAdds(sentimentsMap: seq<(string, Dict)>, key: string, entry: Dict, env: Env,
                        s: real, c: real, sum: real, weight: real)
    requires Get(entry, "sentiment") == Some(Num(s)) && Get(entry, "confidence") == Some(Num(c)) && s != 0.0
    requires Accumulate(sentimentsMap, env) == Returns((sum, weight))
    ensures Accumulate(sentimentsMap + [(key, entry)], env) == Returns((sum + s * c, weight + c))
  {
    var m := sentimentsMap + [(key, entry)];
    assert m[..|sentimentsMap|] == sentimentsMap;
    assert ParseJsonNumericValue(entry, "sentiment", env.dumps, env.parseFloat) == Returns(Some(s));
    assert ParseJsonNumericValue(entry, "confidence", env.dumps, env.parseFloat) == Returns(Some(c));
    assert Accumulate(m, env) == Combine((sum, weight), Returns(Some(s)), Returns(Some(c)));
    CombineAdds(sum, weight, s, c);
  }

  /** An entry whose sentiment reads as None or 0.0, or whose confidence reads as None, leaves
      both sums as they were. */
  lemma SkippedEntryAddsNothing(sentimentsMap: seq<(string, Dict)>, key: string, entry: Dict, env: Env,
                                sum: real, weight: real)
    requires Accumulate(sentimentsMap, env) == Returns((sum, weight))
    requires var s := ParseJsonNumericValue(entry, "sentiment", env.dumps, env.parseFloat);
             var c := ParseJsonNumericValue(entry, "confidence", env.dumps, env.parseFloat);
             s.Returns? && c.Returns? && (s.value.None? || c.value.None? || s.value == Some(0.0))
    ensures Accumulate(sentimentsMap + [(key, entry)], env) == Returns((sum, weight))
  {
    assert (sentimentsMap + [(key, entry)])[..|sentimentsMap|] == sentimentsMap;
  }

  /** {0.5 with confidence 0.8, -0.5 with confidence 0.2} averages to (0.4 - 0.1) / 1.0 = 0.3. */
  lemma WeightedAverageExample(a: Dict, b: Dict, env: Env)
    requires a == [("sentiment", Num(0.5)), ("confidence", Num(0.8))]
    requires b == [("sentiment", Num(-0.5)), ("confidence", Num(0.2))]
    ensures WeightedAverage([("a", a), ("b", b)], env) == 0.3
  {
    FindFirst(a, "sentiment", 0);
    FindFirst(a, "confidence", 1);
    FindFirst(b, "sentiment", 0);
    FindFirst(b, "confidence", 1);
    var m1: seq<(string, Dict)> := [];
    ScoredEntryAdds(m1, "a", a, env, 0.5, 0.8, 0.0, 0.0);
    var m2 := m1 + [("a", a)];
    ScoredEntryAdds(m2, "b", b, env, -0.5, 0.2, 0.0 + 0.5 * 0.8, 0.0 + 0.8);
    var m := m2 + [("b", b)];
    WeightedAverageOf(m, env, 0.0 + 0.5 * 0.8 + -0.5 * 0.2, 0.0 + 0.8 + 0.2);
    Round2OfHundredths(30);
    assert m == [("a", a), ("b", b)];
  }

  /** An entry with neither field (every invalid entry) still takes part: both lookups fall back
      to the scan of the same serialised entry, so one literal found there, such as its
      time_taken, counts as sentiment and as confidence at once. */
  lemma InvalidEntryCountsTwice(sentimentsMap: seq<(string, Dict)>, key: string, entry: Dict, env: Env,
                                x: real, sum: real, weight: real)
    requires "sentiment" !in Keys(entry) && "confidence" !in Keys(entry)
    requires SearchNumericValue(env.dumps(entry)) == Some(x) && x != 0.0
    requires Accumulate(sentimentsMap, env) == Returns((sum, weight))
    ensures Accumulate(sentimentsMap + [(key, entry)], env) == Returns((sum + x * x, weight + x))
  {
    var m := sentimentsMap + [(key, entry)];
    assert m[..|sentimentsMap|] == sentimentsMap;
    assert ParseJsonNumericValue(entry, "sentiment", env.dumps, env.parseFloat) == Returns(Some(x));
    assert ParseJsonNumericValue(entry, "confidence", env.dumps, env.parseFloat) == Returns(Some(x));
    assert Accumulate(m, env) == Combine((sum, weight), Returns(Some(x)), Returns(Some(x)));
    CombineAdds(sum, weight, x, x);
  }

  /** A run with one valid entry (0.6, confidence 0.9) and one invalid entry whose serialised
      time_taken is 1.23 does not average to 0.6 but to round(2.0529 / 2.13, 2) = 0.96. */
  lemma InvalidEntryShiftsAverage(valid: Dict, invalid: Dict, env: Env)
    requires valid == [("sentiment", Num(0.6)), ("confidence", Num(0.9))]
    requires Keys(invalid) == MetaKeys
    requires env.dumps(invalid) == "{\"time_taken\": 1.23}"
    ensures WeightedAverage([("k1", valid), ("k2", invalid)], env) == 0.96
  {
    TimeTakenScanned(env.dumps(invalid));
    ScannedEntryShiftsAverage(valid, invalid, env);
  }

  lemma ScannedEntryShiftsAverage(valid: Dict, invalid: Dict, env: Env)
    requires valid == [("sentiment", Num(0.6)), ("confidence", Num(0.9))]
    requires Keys(invalid) == MetaKeys
    requires SearchNumericValue(env.dumps(invalid)) == Some(1.23)
    ensures WeightedAverage([("k1", valid), ("k2", invalid)], env) == 0.96
  {
    FindFirst(valid, "sentiment", 0);
    FindFirst(valid, "confidence", 1);
    var m0: seq<(string, Dict)> := [];
    ScoredEntryAdds(m0, "k1", valid, env, 0.6, 0.9, 0.0, 0.0);
    var m := m0 + [("k1", valid)];
    assert "sentiment" !in Keys(invalid) && "confidence" !in Keys(invalid);
    InvalidEntryCountsTwice(m, "k2", invalid, env, 1.23, 0.0 + 0.6 * 0.9, 0.0 + 0.9);
    var both := m + [("k2", invalid)];
    var sum, weight := 0.0 + 0.6 * 0.9 + 1.23 * 1.23, 0.0 + 0.9 + 1.23;
    WeightedAverageOf(both, env, sum, weight);
    FinishExample(sum, weight);
    assert both == [("k1", valid), ("k2", invalid)];
  }

  lemma TimeTakenScanned(s: string)
    requires s == "{\"time_taken\": 1.23}"
    ensures SearchNumericValue(s) == Some(1.23)
  {
    assert forall k :: 0 <= k < 15 ==> !IsUnitDigit(s[k]) && !IsSign(s[k]);
    SearchSkips(s, 0, 15);
    assert DigitsEnd(s, 19) == 19;
    assert DigitsEnd(s, 18) == 19;
    assert DigitsEnd(s, 17) == 19;
    assert MatchAt(s, 15) == Some(19);
    assert SearchFrom(s, 15) == Some((15, 19));
    var t := s[15..19];
    assert t[0] == '1' && t[1] == '.' && t[2] == '2' && t[3] == '3';
    assert SearchNumericValue(s) == Some(LiteralValue(t));
    TwoDecimalLiteral(t);
    assert DigitValue('1') == 1.0 && DigitValue('2') == 2.0 && DigitValue('3') == 3.0;
    assert LiteralValue(t) == 1.23;
  }

  lemma WeightedAverageOf(sentimentsMap: seq<(string, Dict)>, env: Env, sum: real, weight: real)
    requires Accumulate(sentimentsMap, env) == Returns((sum, weight))
    ensures WeightedAverage(sentimentsMap, env) == Finish((sum, weight))
  {
  }

  lemma FinishExample(sum: real, weight: real)
    requires sum == 0.0 + 0.6 * 0.9 + 1.23 * 1.23 && weight == 0.0 + 0.9 + 1.23
    ensures Finish((sum, weight)) == 0.96
  {
    var x := sum / weight;
    assert 96.0 <= x * 100.0 < 96.5;
  }

  // ---------------------------------------------------------------------------
  // test_model and save_results

  /** The JSON document save_results writes for one run. */
  datatype Artifact = Artifact(averageSentiment: real, timeTaken: real, sentiments: seq<(string, Dict)>)

  /** <folder>/<model with ':' replaced by '_'>/<ticker>_<iteration>.json */
  function ResultsFile(folder: string, modelName: string, tickerSymbol: string, iteration: nat): string {
    PathJoin(PathJoin(folder, ReplaceColons(modelName)), tickerSymbol + "_" + NatToString(iteration) + ".json")
  }

  /** Two iterations of one model and ticker never write the same file. */
  lemma ResultsFilesDistinct(folder: string, modelName: string, tickerSymbol: string, i1: nat, i2: nat)
    requires i1 != i2
    ensures ResultsFile(folder, modelName, tickerSymbol, i1) != ResultsFile(folder, modelName, tickerSymbol, i2)
  {
    var dir := PathJoin(folder, ReplaceColons(modelName));
    var n1, n2 := NatToString(i1), NatToString(i2);
    var b1, b2 := tickerSymbol + "_" + n1 + ".json", tickerSymbol + "_" + n2 + ".json";
    NatToStringInjective(i1, i2);
    var k := |tickerSymbol| + 1;
    assert b1[k..k + |n1|] == n1;
    if |n1| == |n2| {
      assert b2[k..k + |n1|] == n2;
    }
    assert b1 != b2;
    assert (b1 != [] && b1[0] == '/') == (b2 != [] && b2[0] == '/');
    PathJoinInjective(dir, b1, b2);
  }

  /** test_model: pre-warm, prepare the prompt, analyse every article, average, and give the
      path and document save_results writes. The pre-warm call and, for a model without
      "sentiment" in its name, the first-prompt call are not guarded, so if either raises the
      run raises. `runSeconds` is what the clock says the whole run took. */
  method TestModel(env: Env, modelName: string, iteration: nat, firstPrompt: string, template: seq<Piece>,
                   companyName: string, contentMap: seq<(string, string)>, news: seq<NewsItem>,
                   folder: string, tickerSymbol: string, runSeconds: real)
    returns (saved: Outcome<(string, Artifact)>)
    ensures saved.Returns? <==> env.llm(DummyPrompt).Text? && (IsSentimentModel(modelName) || env.llm(firstPrompt).Text?)
    ensures saved.Returns? ==>
              var b := Batch(env, if IsSentimentModel(modelName) then [] else template, modelName, companyName, news);
              && saved.value.0 == ResultsFile(folder, modelName, tickerSymbol, iteration)
              && saved.value.1.sentiments == AssignAll([], Recorded(b, contentMap))
              && saved.value.1.averageSentiment == WeightedAverage(saved.value.1.sentiments, env)
              && saved.value.1.timeTaken == Round2(runSeconds)
  {
    if env.llm(DummyPrompt).Failed? {
      return Raises;
    }
    var analyzePrompt: seq<Piece> := [];
    if !IsSentimentModel(modelName) {
      if env.llm(firstPrompt).Failed? {
        return Raises;
      }
      analyzePrompt := template;
    }
    var b := Batch(env, analyzePrompt, modelName, companyName, news);
    var sentimentsMap := AnalyzeContent(b, contentMap);
    var averageSentiment := ComputeWeightedAverageSentiment(sentimentsMap, env);
    var path := ResultsFile(folder, modelName, tickerSymbol, iteration);
    saved := Returns((path, Artifact(averageSentiment, Round2(runSeconds), sentimentsMap)));
  }
}

=== FILE: comparison_report.dfy ===
/** generate_model_comparison_report.py: each model's saved sentiments flattened into one list,
    the summary statistics of that list, the samples two models' sentiment scores give the
    statistical tests, and the loop over the configured comparison pairs. */
module ComparisonReport {
  import opened JsonValues
  import opened PyStrings
  import opened ModelMetrics

  // ---------------------------------------------------------------------------
  // extract_sentiments

  /** The values of a dict, in order. */
  function ValuesOf(ps: seq<(string, Json)>): (vs: seq<Json>)
    ensures |vs| == |ps|
  {
    seq(|ps|, i requires 0 <= i < |ps| => ps[i].1)
  }

  lemma ValuesOfAppend(p: seq<(string, Json)>, q: seq<(string, Json)>)
    ensures ValuesOf(p + q) == ValuesOf(p) + ValuesOf(q)
  {
  }

  /** The list extract_sentiments returns: the values of every run's "sentiments" map, run after
      run; Raises when some run has no "sentiments" object. */
  function SentimentsOf(runs: seq<Json>): Outcome<seq<Json>> {
    match AllPairs(runs)
    case Raises => Raises
    case Returns(p) => Returns(ValuesOf(p))
  }

  /** extract_sentiments: extends the list with each run's values in turn. */
  method ExtractSentiments(runs: seq<Json>) returns (r: Outcome<seq<Json>>)
    ensures r == SentimentsOf(runs)
  {
    var sentiments: seq<Json> := [];
    ghost var pairs: seq<(string, Json)> := [];
    var i := 0;
    while i < |runs|
      invariant 0 <= i <= |runs|
      invariant AllPairs(runs[..i]) == Returns(pairs) && sentiments == ValuesOf(pairs)
    {
      var m := RunSentiments(runs[i]);
      AllPairsSnoc(runs, i);
      if m.Raises? {
        AllPairsRaises(runs, i + 1);
        return Raises;
      }
      ValuesOfAppend(pairs, m.value);
      sentiments := sentiments + ValuesOf(m.value);
      pairs := pairs + m.value;
      i := i + 1;
    }
    assert runs[..i] == runs;
    return Returns(sentiments);
  }

  /** extract_sentiments raises exactly when some run lacks a "sentiments" object; otherwise it
      holds as many entries as the runs' maps together. */
  lemma ExtractSentimentsProperties(runs: seq<Json>)
    ensures SentimentsOf(runs).Returns? <==> WellFormedRuns(runs)
    ensures SentimentsOf(runs).Returns? ==> |SentimentsOf(runs).value| == SumSizes(runs)
  {
    AllPairsSpec(runs);
  }

  /** Run r's j-th value comes right after the entries of the runs before it. */
  lemma ExtractSentimentsOrder(runs: seq<Json>, r: nat, j: nat)
    requires SentimentsOf(runs).Returns? && r < |runs| && j < MapSize(runs[r])
    ensures SumSizes(runs[..r]) + j < |SentimentsOf(runs).value|
    ensures SentimentsOf(runs).value[SumSizes(runs[..r]) + j] == RunSentiments(runs[r]).value[j].1
  {
    var p := AllPairs(runs).value;
    AllPairsIndex(runs, r, j);
    AllPairsSpec(runs[..r]);
    var k := SumSizes(runs[..r]) + j;
    assert SentimentsOf(runs).value == ValuesOf(p);
    assert ValuesOf(p)[k] == p[k].1;
  }

  // ---------------------------------------------------------------------------
  // extract_model_name

  /** os.path.basename(path), with no replacement of its own: the ':' in a model name were
      already turned into '_' when the directory path was built. */
  function ReportModelName(path: string): (name: string)
    ensures '/' !in name
    ensures |name| <= |path| && name == path[|path| - |name|..]
  {
    Basename(path)
  }

  /** The name read back from a model's directory is the model name with '_' for ':'. */
  lemma ReportModelNameOfPath(folder: string, model: string)
    requires '/' !in model
    ensures ReportModelName(PathJoin(folder, ReplaceColons(model))) == ReplaceColons(model)
    ensures ':' !in ReportModelName(PathJoin(folder, ReplaceColons(model)))
  {
    ExtractModelNameOfPath(folder, model);
  }

  // ---------------------------------------------------------------------------
  // compute_metrics

  /** The summary of one model. None stands for the NaN numpy gives for an empty list. */
  datatype ReportMetrics = ReportMetrics(rate: Option<real>, validJsonRate: real, variance: Option<real>,
                                         meanSentiment: Option<real>, meanConfidence: Option<real>,
                                         reasoningSamples: seq<Json>)

  /** Every entry has the key: `[s[name] for s in xs]` does not raise. */
  predicate HasAll(xs: seq<Json>, name: string) {
    forall i :: 0 <= i < |xs| ==> Field(xs[i], name).Returns?
  }

  /** np.mean: Raises on a value that is not a number, NaN (None) on an empty list. */
  function NanMean(xs: seq<Json>): Outcome<Option<real>> {
    var ns := Numbers(xs);
    if ns.None? then Raises else if ns.value == [] then Returns(None) else Returns(Some(Mean(ns.value)))
  }

  /** np.var, likewise. */
  function NanVar(xs: seq<Json>): Outcome<Option<real>> {
    var ns := Numbers(xs);
    if ns.None? then Raises else if ns.value == [] then Returns(None) else Returns(Some(Variance(ns.value)))
  }

  /** compute_metrics: the statistics of the valid entries; the valid rate over all entries,
      which raises ZeroDivisionError on an empty list; the reasoning of the first
      `sampleSize` valid entries (a Python slice, so a negative size drops entries from the
      end). A missing key raises KeyError. */
  function ComputeMetrics(sentiments: seq<Json>, sampleSize: int): Outcome<ReportMetrics> {
    if !HasAll(sentiments, "valid") then Raises
    else
      var valid := ValidOnes(sentiments);
      if !HasAll(valid, "time_taken") then Raises
      else
        var rate := NanMean(Column(valid, "time_taken"));
        if rate.Raises? || |sentiments| == 0 then Raises
        else if !HasAll(valid, "sentiment") || !HasAll(valid, "confidence") then Raises
        else
          var variance := NanVar(Column(valid, "sentiment"));
          var meanSentiment := NanMean(Column(valid, "sentiment"));
          var meanConfidence := NanMean(Column(valid, "confidence"));
          var sample := PyPrefix(valid, sampleSize);
          if variance.Raises? || meanSentiment.Raises? || meanConfidence.Raises? || !HasAll(sample, "reasoning")
          then Raises
          else
            Returns(ReportMetrics(rate.value, |valid| as real / |sentiments| as real, variance.value,
                                  meanSentiment.value, meanConfidence.value, Column(sample, "reasoning")))
  }

  /** The valid entries come out in order, each one an entry of the input whose "valid" is
      truthy, and every such entry comes out. */
  lemma {:induction false} ValidOnesSpec(ss: seq<Json>)
    ensures forall s :: s in ValidOnes(ss) <==> s in ss && IsValid(s)
    decreases |ss|
  {
    if ss != [] {
      var n := |ss| - 1;
      ValidOnesSpec(ss[..n]);
      assert ss == ss[..n] + [ss[n]];
    }
  }

  /** compute_metrics raises on an empty list, and on an entry without "valid". Otherwise the
      valid rate is the share of entries whose "valid" is truthy, a number in [0, 1]; the
      samples are the reasoning of the first min(n, |valid|) valid entries, in order; and the
      statistics are those of the valid entries' fields. */
  lemma ComputeMetricsProperties(sentiments: seq<Json>, sampleSize: int)
    ensures sentiments == [] ==> ComputeMetrics(sentiments, sampleSize) == Raises
    ensures !HasAll(sentiments, "valid") ==> ComputeMetrics(sentiments, sampleSize) == Raises
    ensures ComputeMetrics(sentiments, sampleSize).Returns? ==>
              var m := ComputeMetrics(sentiments, sampleSize).value;
              var valid := ValidOnes(sentiments);
              && m.validJsonRate == |valid| as real / |sentiments| as real
              && 0.0 <= m.validJsonRate <= 1.0
              && (0 <= sampleSize ==> |m.reasoningSamples| == if sampleSize <= |valid| then sampleSize else |valid|)
              && (forall i :: 0 <= i < |m.reasoningSamples| ==> m.reasoningSamples[i] == FieldOr(valid[i], "reasoning"))
              && m.rate == NanMean(Column(valid, "time_taken")).value
              && m.meanSentiment == NanMean(Column(valid, "sentiment")).value
              && m.meanConfidence == NanMean(Column(valid, "confidence")).value
  {
    if ComputeMetrics(sentiments, sampleSize).Returns? {
      ShareBounded(|ValidOnes(sentiments)|, |sentiments|);
    }
  }

  /** Invalid entries count only towards the valid rate: two lists with the same valid entries
      and the same length give the same metrics. */
  lemma InvalidEntriesOnlyCounted(s1: seq<Json>, s2: seq<Json>, sampleSize: int)
    requires HasAll(s1, "valid") && HasAll(s2, "valid")
    requires ValidOnes(s1) == ValidOnes(s2) && |s1| == |s2|
    ensures ComputeMetrics(s1, sampleSize) == ComputeMetrics(s2, sampleSize)
  {
  }

  // ---------------------------------------------------------------------------
  // compare_models

  /** `"sentiment" in s`: a key of an object, a substring of a string, an element of a list;
      TypeError on a number, a bool or None. */
  function HasSentiment(s: Json): Outcome<bool> {
    match s
    case Obj(fields) => Returns("sentiment" in Keys(fields))
    case Str(t) => Returns(Contains(t, "sentiment"))
    case Arr(items) => Returns(Str("sentiment") in items)
    case _ => Raises
  }

  /** `[s["sentiment"] for s in xs if "sentiment" in s]`. */
  function SentimentSelection(xs: seq<Json>): (r: Outcome<seq<Json>>)
    ensures r.Returns? ==> |r.value| <= |xs|
    decreases |xs|
  {
    if xs == [] then Returns([])
    else
      var n := |xs| - 1;
      match SentimentSelection(xs[..n])
      case Raises => Raises
      case Returns(p) =>
        match HasSentiment(xs[n])
        case Raises => Raises
        case Returns(has) =>
          if !has then Returns(p)
          else (match Field(xs[n], "sentiment") case Raises => Raises case Returns(v) => Returns(p + [v]))
  }

  /** The objects that have a "sentiment" key, in order. */
  function WithSentiment(xs: seq<Json>): (r: seq<Json>)
    ensures |r| <= |xs|
    decreases |xs|
  {
    if xs == [] then []
    else
      var n := |xs| - 1;
      if xs[n].Obj? && "sentiment" in Keys(xs[n].fields) then WithSentiment(xs[..n]) + [xs[n]]
      else WithSentiment(xs[..n])
  }

  /** The two samples compare_models hands to f_oneway and ttest_ind. */
  datatype Comparison = Comparison(sentiments1: seq<Json>, sentiments2: seq<Json>)

  function CompareModels(model1: seq<Json>, model2: seq<Json>): Outcome<Comparison> {
    match SentimentSelection(model1)
    case Raises => Raises
    case Returns(s1) =>
      match SentimentSelection(model2)
      case Raises => Raises
      case Returns(s2) => Returns(Comparison(s1, s2))
  }

  predicate AllObjects(xs: seq<Json>) {
    forall i :: 0 <= i < |xs| ==> xs[i].Obj?
  }

  lemma AllObjectsPrefix(xs: seq<Json>, n: nat)
    requires AllObjects(xs) && n <= |xs|
    ensures AllObjects(xs[..n])
  {
    forall i | 0 <= i < n
      ensures xs[..n][i].Obj?
    {
      assert xs[..n][i] == xs[i];
    }
  }

  /** One more object: its "sentiment" is appended when it has one. */
  lemma SelectionStep(xs: seq<Json>, p: seq<Json>)
    requires xs != [] && xs[|xs| - 1].Obj? && SentimentSelection(xs[..|xs| - 1]) == Returns(p)
    ensures var last := xs[|xs| - 1];
            SentimentSelection(xs) ==
              Returns(if "sentiment" in Keys(last.fields) then p + [FieldOr(last, "sentiment")] else p)
  {
  }

  lemma WithSentimentStep(xs: seq<Json>)
    requires xs != [] && xs[|xs| - 1].Obj?
    ensures var last := xs[|xs| - 1];
            Column(WithSentiment(xs), "sentiment") ==
              if "sentiment" in Keys(last.fields)
              then Column(WithSentiment(xs[..|xs| - 1]), "sentiment") + [FieldOr(last, "sentiment")]
              else Column(WithSentiment(xs[..|xs| - 1]), "sentiment")
  {
    var n := |xs| - 1;
    if "sentiment" in Keys(xs[n].fields) {
      ColumnSnoc(WithSentiment(xs[..n]), xs[n], "sentiment");
    }
  }

  /** On a list of objects the selection never raises: it is the "sentiment" of exactly the
      objects that have one, in order; the others are passed over. */
  lemma {:induction false} SelectionOfObjects(xs: seq<Json>)
    requires AllObjects(xs)
    ensures SentimentSelection(xs) == Returns(Column(WithSentiment(xs), "sentiment"))
    decreases |xs|
  {
    if xs != [] {
      var n := |xs| - 1;
      AllObjectsPrefix(xs, n);
      SelectionOfObjects(xs[..n]);
      SelectionStep(xs, Column(WithSentiment(xs[..n]), "sentiment"));
      WithSentimentStep(xs);
    }
  }

  // ---------------------------------------------------------------------------
  // The comparison loop in main

  /** The key a comparison is stored under. */
  function PairLabel(m1: string, m2: string): string {
    m1 + " vs " + m2
  }

  /** The dict comprehension that loads each configured model: its directory is the model name
      with '_' for ':', its key the last component of that directory. */
  function AllData(folder: string, models: seq<string>, load: string -> seq<Json>): Outcome<seq<(string, seq<Json>)>> {
    match LoadPairs(folder, models, load)
    case Raises => Raises
    case Returns(kvs) => Returns(AssignAll([], kvs))
  }

  /** The (name, sentiments) assignments of that comprehension, in order. */
  function LoadPairs(folder: string, models: seq<string>, load: string -> seq<Json>): Outcome<seq<(string, seq<Json>)>>
    decreases |models|
  {
    if models == [] then Returns([])
    else
      var n := |models| - 1;
      var path := PathJoin(folder, ReplaceColons(models[n]));
      match LoadPairs(folder, models[..n], load)
      case Raises => Raises
      case Returns(kvs) =>
        match SentimentsOf(load(path))
        case Raises => Raises
        case Returns(ss) => Returns(kvs + [(ReportModelName(path), ss)])
  }

  /** The comparisons made, in loop order: a pair naming a model missing from the loaded data
      raises KeyError, which the loop catches and passes over; an error inside compare_models
      is not caught. */
  function ComparisonPairs(allData: seq<(string, seq<Json>)>, pairs: seq<(string, string)>): Outcome<seq<(string, Comparison)>>
    decreases |pairs|
  {
    if pairs == [] then Returns([])
    else
      var n := |pairs| - 1;
      var m1, m2 := pairs[n].0, pairs[n].1;
      match ComparisonPairs(allData, pairs[..n])
      case Raises => Raises
      case Returns(kvs) =>
        if m1 !in Keys(allData) || m2 !in Keys(allData) then Returns(kvs)
        else
          match CompareModels(Get(allData, m1).value, Get(allData, m2).value)
          case Raises => Raises
          case Returns(c) => Returns(kvs + [(PairLabel(m1, m2), c)])
  }

  /** The comparisons dict the loop leaves. */
  function ComparisonsOf(allData: seq<(string, seq<Json>)>, pairs: seq<(string, string)>): Outcome<seq<(string, Comparison)>> {
    match ComparisonPairs(allData, pairs)
    case Raises => Raises
    case Returns(kvs) => Returns(AssignAll([], kvs))
  }

  lemma ComparisonPairsSnoc(allData: seq<(string, seq<Json>)>, pairs: seq<(string, string)>, i: nat)
    requires i < |pairs|
    ensures ComparisonPairs(allData, pairs[..i + 1])
         == match ComparisonPairs(allData, pairs[..i])
            case Raises => Raises
            case Returns(kvs) =>
              if pairs[i].0 !in Keys(allData) || pairs[i].1 !in Keys(allData) then Returns(kvs)
              else
                match CompareModels(Get(allData, pairs[i].0).value, Get(allData, pairs[i].1).value)
                case Raises => Raises
                case Returns(c) => Returns(kvs + [(PairLabel(pairs[i].0, pairs[i].1), c)])
  {
    assert pairs[..i + 1][..i] == pairs[..i];
  }

  lemma {:induction false} ComparisonPairsRaises(allData: seq<(string, seq<Json>)>, pairs: seq<(string, string)>, i: nat)
    requires i <= |pairs| && ComparisonPairs(allData, pairs[..i]) == Raises
    ensures ComparisonPairs(allData, pairs) == Raises
    decreases |pairs|
  {
    if i < |pairs| {
      var n := |pairs| - 1;
      assert pairs[..n][..i] == pairs[..i];
      ComparisonPairsRaises(allData, pairs[..n], i);
    } else {
      assert pairs[..i] == pairs;
    }
  }

  /** The loop over comparison_pairs in main. */
  method BuildComparisons(allData: seq<(string, seq<Json>)>, pairs: seq<(string, string)>)
    returns (r: Outcome<seq<(string, Comparison)>>)
    ensures r == ComparisonsOf(allData, pairs)
  {
    var comparisons: seq<(string, Comparison)> := [];
    ghost var made: seq<(string, Comparison)> := [];
    var i := 0;
    while i < |pairs|
      invariant 0 <= i <= |pairs|
      invariant ComparisonPairs(allData, pairs[..i]) == Returns(made)
      invariant comparisons == AssignAll([], made)
    {
      var m1, m2 := pairs[i].0, pairs[i].1;
      ComparisonPairsSnoc(allData, pairs, i);
      if m1 in Keys(allData) && m2 in Keys(allData) {
        var c := CompareModels(Get(allData, m1).value, Get(allData, m2).value);
        if c.Raises? {
          ComparisonPairsRaises(allData, pairs, i + 1);
          return Raises;
        }
        AssignAllSnoc([], made, PairLabel(m1, m2), c.value);
        comparisons := Assign(comparisons, PairLabel(m1, m2), c.value);
        made := made + [(PairLabel(m1, m2), c.value)];
      }
      i := i + 1;
    }
    assert pairs[..i] == pairs;
    return Returns(comparisons);
  }

  /** The pairs whose two models were both loaded, in order. */
  function FoundPairs(allData: seq<(string, seq<Json>)>, pairs: seq<(string, string)>): (r: seq<(string, string)>)
    ensures |r| <= |pairs|
    decreases |pairs|
  {
    if pairs == [] then []
    else
      var n := |pairs| - 1;
      if pairs[n].0 in Keys(allData) && pairs[n].1 in Keys(allData) then FoundPairs(allData, pairs[..n]) + [pairs[n]]
      else FoundPairs(allData, pairs[..n])
  }

  /** Every loaded model's entries are objects. */
  predicate ObjectsOnly(allData: seq<(string, seq<Json>)>) {
    forall i :: 0 <= i < |allData| ==> AllObjects(allData[i].1)
  }

  lemma LoadedObjects(allData: seq<(string, seq<Json>)>, m: string)
    requires ObjectsOnly(allData) && m in Keys(allData)
    ensures AllObjects(Get(allData, m).value)
  {
    var i := Find(allData, m);
    assert AllObjects(allData[i].1);
  }

  /** The sentiment scores selected from a loaded model's entries. */
  function Selected(allData: seq<(string, seq<Json>)>, m: string): seq<Json> {
    Column(WithSentiment(GetOr(allData, m, [])), "sentiment")
  }

  /** The entry comparisons[f"{m1} vs {m2}"] = compare_models(...) makes, as it should be. */
  function Compared(allData: seq<(string, seq<Json>)>, pair: (string, string)): (string, Comparison) {
    (PairLabel(pair.0, pair.1), Comparison(Selected(allData, pair.0), Selected(allData, pair.1)))
  }

  /** The comparisons the found pairs should give, in order. */
  function ExpectedPairs(allData: seq<(string, seq<Json>)>, found: seq<(string, string)>): (r: seq<(string, Comparison)>)
    ensures |r| == |found|
  {
    seq(|found|, i requires 0 <= i < |found| => Compared(allData, found[i]))
  }

  lemma ExpectedPairsSnoc(allData: seq<(string, seq<Json>)>, found: seq<(string, string)>, pair: (string, string))
    ensures ExpectedPairs(allData, found + [pair]) == ExpectedPairs(allData, found) + [Compared(allData, pair)]
  {
    var l, r := ExpectedPairs(allData, found + [pair]), ExpectedPairs(allData, found) + [Compared(allData, pair)];
    forall i | 0 <= i < |l|
      ensures l[i] == r[i]
    {
      if i < |found| {
        assert (found + [pair])[i] == found[i];
      }
    }
  }

  /** A pair of loaded, all-object models compares their selected sentiment scores. */
  lemma CompareLoaded(allData: seq<(string, seq<Json>)>, m1: string, m2: string)
    requires ObjectsOnly(allData) && m1 in Keys(allData) && m2 in Keys(allData)
    ensures CompareModels(Get(allData, m1).value, Get(allData, m2).value)
         == Returns(Compared(allData, (m1, m2)).1)
  {
    LoadedObjects(allData, m1);
    LoadedObjects(allData, m2);
    SelectionOfObjects(Get(allData, m1).value);
    SelectionOfObjects(Get(allData, m2).value);
  }

  /** When the loaded entries are objects, the loop does not raise: a pair naming a missing
      model is passed over and every other pair is compared, in order, under its label. */
  lemma {:induction false} ComparisonPairsSpec(allData: seq<(string, seq<Json>)>, pairs: seq<(string, string)>)
    requires ObjectsOnly(allData)
    ensures ComparisonPairs(allData, pairs) == Returns(ExpectedPairs(allData, FoundPairs(allData, pairs)))
    decreases |pairs|
  {
    if pairs != [] {
      var n := |pairs| - 1;
      ComparisonPairsSpec(allData, pairs[..n]);
      var m1, m2 := pairs[n].0, pairs[n].1;
      if m1 in Keys(allData) && m2 in Keys(allData) {
        CompareLoaded(allData, m1, m2);
        ExpectedPairsSnoc(allData, FoundPairs(allData, pairs[..n]), pairs[n]);
      }
    }
  }

  /** LoadPairs assigns keys that are model names with '_' for ':'. */
  lemma {:induction false} LoadPairsNames(folder: string, models: seq<string>, load: string -> seq<Json>)
    requires forall i :: 0 <= i < |models| ==> '/' !in models[i]
    requires LoadPairs(folder, models, load).Returns?
    ensures forall k :: k in Keys(LoadPairs(folder, models, load).value) ==> ':' !in k
    decreases |models|
  {
    if models != [] {
      var n := |models| - 1;
      LoadPairsNames(folder, models[..n], load);
      var kvs := LoadPairs(folder, models[..n], load).value;
      var path := PathJoin(folder, ReplaceColons(models[n]));
      ReportModelNameOfPath(folder, models[n]);
      KeysSnoc(kvs, ReportModelName(path), SentimentsOf(load(path)).value);
    }
  }

  /** A comparison pair written with a configured model name that has a ':' names no loaded
      model, since the loaded data is keyed by directory names, where ':' became '_': the pair
      is never compared. */
  lemma ColonNamedPairSkipped(folder: string, models: seq<string>, load: string -> seq<Json>,
                              pairs: seq<(string, string)>, m1: string, m2: string)
    requires forall i :: 0 <= i < |models| ==> '/' !in models[i]
    requires AllData(folder, models, load).Returns?
    requires ':' in m1 || ':' in m2
    ensures (m1, m2) !in FoundPairs(AllData(folder, models, load).value, pairs)
  {
    var allData := AllData(folder, models, load).value;
    var kvs := LoadPairs(folder, models, load).value;
    LoadPairsNames(folder, models, load);
    AssignAllKeys(kvs);
    assert m1 !in Keys(allData) || m2 !in Keys(allData);
    FoundPairsMembers(allData, pairs);
  }

  lemma {:induction false} FoundPairsMembers(allData: seq<(string, seq<Json>)>, pairs: seq<(string, string)>)
    ensures forall p :: p in FoundPairs(allData, pairs) ==> p in pairs && p.0 in Keys(allData) && p.1 in Keys(allData)
    decreases |pairs|
  {
    if pairs != [] {
      var n := |pairs| - 1;
      FoundPairsMembers(allData, pairs[..n]);
      assert pairs == pairs[..n] + [pairs[n]];
    }
  }
}

=== FILE: generate_model_sentiments.dfy ===
/** generate_model_sentiments.py: the content map the models are run on (article summaries plus
    scraped text, keyed by link) and the check on the company name and ticker. */
module GenerateModelSentiments {
  import opened JsonValues
  import opened Oracles
  import opened AnalysisUtils

  // ---------------------------------------------------------------------------
  // get_content_map

  /** The text one news item contributes, given what the scraper returned for its link: the
      summary unless it ends with '?', then the scraped text after a single space when there is
      any. None where news["summary"][-1] raises IndexError, that is on an empty summary. */
  function ArticleContent(summary: string, extra: string): (r: Option<string>)
    ensures r.None? <==> summary == []
  {
    if summary == [] then None
    else
      var base := if summary[|summary| - 1] != '?' then summary else "";
      Some(if extra != [] then base + (" " + extra) else base)
  }

  /** A kept summary starts the content; a summary ending in '?' leaves only the scraped text
      after one space, or nothing; scraped text, when there is any, ends the content with one
      space before it. */
  lemma ArticleContentShape(summary: string, extra: string)
    requires summary != []
    ensures var r := ArticleContent(summary, extra).value;
            && (summary[|summary| - 1] != '?' ==> |summary| <= |r| && r[..|summary|] == summary)
            && (summary[|summary| - 1] == '?' ==> r == if extra != [] then " " + extra else "")
            && (extra != [] ==> |extra| < |r| && r[|r| - |extra|..] == extra && r[|r| - |extra| - 1] == ' ')
            && (extra == [] && summary[|summary| - 1] != '?' ==> r == summary)
  {
    var base := if summary[|summary| - 1] != '?' then summary else "";
    var r := ArticleContent(summary, extra).value;
    if extra != [] {
      assert r == base + (" " + extra);
      assert r[..|base|] == base;
      assert r[|r| - |extra|..] == extra;
    } else {
      assert base + [] == base;
    }
  }

  /** Every summary has a last character to look at. */
  predicate SummariesPresent(news: seq<NewsItem>) {
    forall i :: 0 <= i < |news| ==> news[i].summary != []
  }

  function Links(news: seq<NewsItem>): (ls: seq<string>)
    ensures |ls| == |news|
  {
    seq(|news|, i requires 0 <= i < |news| => news[i].link)
  }

  /** The content of each item, for a feed whose summaries are all present. */
  function Contents(news: seq<NewsItem>, scrape: string -> string): (cs: seq<string>)
    requires SummariesPresent(news)
    ensures |cs| == |news|
  {
    seq(|news|, i requires 0 <= i < |news| => ArticleContent(news[i].summary, scrape(news[i].link)).value)
  }

  /** The `content_map[url] = content` assignments the loop makes, in feed order (one per item
      whose content is non-empty), or Raises when some summary is empty. */
  function ContentPairs(news: seq<NewsItem>, scrape: string -> string): Outcome<seq<(string, string)>>
    decreases |news|
  {
    if news == [] then Returns([])
    else
      var n := |news| - 1;
      match ContentPairs(news[..n], scrape)
      case Raises => Raises
      case Returns(kvs) => AddContent(kvs, news[n], scrape)
  }

  /** One pass of the loop body: the item's content is assigned under its link when non-empty. */
  function AddContent(kvs: seq<(string, string)>, item: NewsItem, scrape: string -> string): Outcome<seq<(string, string)>> {
    match ArticleContent(item.summary, scrape(item.link))
    case None => Raises
    case Some(content) => if content != [] then Returns(kvs + [(item.link, content)]) else Returns(kvs)
  }

  /** The map get_content_map returns: the assignments made in turn, or the decorator's {} when
      the loop raised. */
  function ContentMapOf(news: seq<NewsItem>, scrape: string -> string): seq<(string, string)> {
    match ContentPairs(news, scrape)
    case Raises => []
    case Returns(kvs) => AssignAll([], kvs)
  }

  /** The loop raises exactly when some summary is empty; otherwise it assigns the non-empty
      contents, keyed by link, in feed order. */
  lemma {:induction false} ContentPairsSpec(news: seq<NewsItem>, scrape: string -> string)
    ensures ContentPairs(news, scrape).Returns? <==> SummariesPresent(news)
    ensures ContentPairs(news, scrape).Returns? ==>
              ContentPairs(news, scrape).value == NonEmptyPairs(Links(news), Contents(news, scrape))
    decreases |news|
  {
    if news != [] {
      var n := |news| - 1;
      var prefix := news[..n];
      ContentPairsSpec(prefix, scrape);
      assert forall k :: 0 <= k < n ==> prefix[k] == news[k];
      if SummariesPresent(news) {
        assert SummariesPresent(prefix);
        var ls, cs := Links(news), Contents(news, scrape);
        assert ls[..n] == Links(prefix);
        assert cs[..n] == Contents(prefix, scrape);
      } else if SummariesPresent(prefix) {
        assert news[n].summary == [];
      }
    }
  }

  /** Once the loop has raised, it has raised for the whole feed. */
  lemma {:induction false} ContentPairsRaises(news: seq<NewsItem>, scrape: string -> string, i: nat)
    requires i <= |news| && ContentPairs(news[..i], scrape) == Raises
    ensures ContentPairs(news, scrape) == Raises
    decreases |news|
  {
    if i < |news| {
      var n := |news| - 1;
      assert news[..n][..i] == news[..i];
      ContentPairsRaises(news[..n], scrape, i);
    } else {
      assert news[..i] == news;
    }
  }

  /** Each pass of the loop body adds to the assignments of the passes before it. */
  lemma ContentPairsSnoc(news: seq<NewsItem>, scrape: string -> string, i: nat)
    requires i < |news| && ContentPairs(news[..i], scrape).Returns?
    ensures ContentPairs(news[..i + 1], scrape) == AddContent(ContentPairs(news[..i], scrape).value, news[i], scrape)
  {
    assert news[..i + 1][..i] == news[..i];
  }

  /** get_content_map: the loop over the feed, each item's content assigned under its link. An
      empty summary raises IndexError, which the decorator turns into {}. */
  method GetContentMap(news: seq<NewsItem>, scrape: string -> string) returns (contentMap: seq<(string, string)>)
    ensures contentMap == ContentMapOf(news, scrape)
  {
    contentMap := [];
    ghost var pairs: seq<(string, string)> := [];
    var i := 0;
    while i < |news|
      invariant 0 <= i <= |news|
      invariant ContentPairs(news[..i], scrape) == Returns(pairs)
      invariant contentMap == AssignAll([], pairs)
    {
      var url := news[i].link;
      var extraContent := scrape(url);
      var item := ArticleContent(news[i].summary, extraContent);
      ContentPairsSnoc(news, scrape, i);
      if item.None? {
        ContentPairsRaises(news, scrape, i + 1);
        return [];
      }
      var content := item.value;
      if content != [] {
        AssignAllSnoc([], pairs, url, content);
        contentMap := Assign(contentMap, url, content);
        pairs := pairs + [(url, content)];
      }
      i := i + 1;
    }
    assert news[..i] == news;
  }

  /** get_content_map: with every summary present, the keys are the links of the items with
      non-empty content in feed order of first appearance, a repeated link keeping its first
      place and taking the content of its last item; every such link is a key; and every value
      is the non-empty content of an item with that link. An empty summary anywhere gives {}. */
  lemma GetContentMapProperties(news: seq<NewsItem>, scrape: string -> string)
    ensures !SummariesPresent(news) ==> ContentMapOf(news, scrape) == []
    ensures SummariesPresent(news) ==>
              var kvs := NonEmptyPairs(Links(news), Contents(news, scrape));
              var m := ContentMapOf(news, scrape);
              && Keys(m) == Dedup(Keys(kvs))
              && (forall k :: k in Keys(m) ==> Get(m, k) == Some(LastValue(kvs, k)))
              && (forall i :: 0 <= i < |news| && Contents(news, scrape)[i] != [] ==> news[i].link in Keys(m))
              && (forall k :: k in Keys(m) ==>
                    exists i :: 0 <= i < |news| && news[i].link == k && Get(m, k) == Some(Contents(news, scrape)[i])
                      && Contents(news, scrape)[i] != [])
  {
    ContentPairsSpec(news, scrape);
    if SummariesPresent(news) {
      var ls, cs := Links(news), Contents(news, scrape);
      var kvs := NonEmptyPairs(ls, cs);
      var m := AssignAll([], kvs);
      AssignAllKeys(kvs);
      NonEmptyPairsFrom(ls, cs);
      NonEmptyPairsCover(ls, cs);
      forall k | k in Keys(m)
        ensures Get(m, k) == Some(LastValue(kvs, k))
      {
        AssignAllGet([], kvs, k);
      }
      forall i | 0 <= i < |news| && cs[i] != []
        ensures news[i].link in Keys(m)
      {
        assert ls[i] in Keys(kvs);
      }
      forall k | k in Keys(m)
        ensures exists i :: 0 <= i < |news| && news[i].link == k && Get(m, k) == Some(cs[i]) && cs[i] != []
      {
        AssignAllGet([], kvs, k);
        var p := LastIndex(kvs, k);
        var i :| 0 <= i < |ls| && kvs[p] == (ls[i], cs[i]) && cs[i] != [];
        assert news[i].link == k;
      }
    }
  }

  /** A summary ending in '?' is never used: the item's content is the scraped text after one
      space, or nothing. */
  lemma QuestionSummaryDropped(news: seq<NewsItem>, scrape: string -> string, i: nat)
    requires SummariesPresent(news) && i < |news|
    requires news[i].summary[|news[i].summary| - 1] == '?'
    ensures var extra := scrape(news[i].link);
            Contents(news, scrape)[i] == if extra != [] then " " + extra else ""
  {
    ArticleContentShape(news[i].summary, scrape(news[i].link));
  }

  // ---------------------------------------------------------------------------
  // log_company_info

  /** The body of log_company_info: ValueError when either text is empty. */
  function CheckCompanyInfo(companyName: string, tickerSymbol: string): (r: Outcome<bool>)
    ensures r.Returns? ==> r.value
  {
    if companyName == [] || tickerSymbol == [] then Raises else Returns(true)
  }

  /** The decorated log_company_info: the ValueError becomes False. */
  function LogCompanyInfo(companyName: string, tickerSymbol: string): (ok: bool)
    ensures ok <==> companyName != [] && tickerSymbol != []
  {
    match CheckCompanyInfo(companyName, tickerSymbol)
    case Raises => false
    case Returns(b) => b
  }
}

=== FILE: json_values.dfy ===
/** Python values the sentiment pipeline passes around: parsed JSON, dicts that keep their
    insertion order, and the outcome of a call that may raise. */
module JsonValues {

  datatype Option<+T> = None | Some(value: T)

  /** A Python call either returns a value or raises an exception that propagates to its caller. */
  datatype Outcome<+T> = Returns(value: T) | Raises

  /** A parsed JSON value. JSON integers and floats are both numbers, modelled as reals. */
  datatype Json =
    | Null
    | Bool(b: bool)
    | Num(n: real)
    | Str(s: string)
    | Arr(items: seq<Json>)
    | Obj(fields: seq<(string, Json)>)

  /** A Python dict with string keys: its (key, value) pairs in insertion order. */
  type Dict = seq<(string, Json)>

  // ---------------------------------------------------------------------------
  // Python values

  /** bool(j): the truth value Python gives a JSON value. */
  predicate Truthy(j: Json) {
    match j
    case Null => false
    case Bool(b) => b
    case Num(n) => n != 0.0
    case Str(s) => s != []
    case Arr(items) => items != []
    case Obj(fields) => fields != []
  }

  /** The number a value stands for in arithmetic (True is 1, False is 0); None for
      the values on which `+` or `*` with a float raises TypeError. */
  function Arith(j: Json): Option<real> {
    match j
    case Bool(b) => Some(if b then 1.0 else 0.0)
    case Num(n) => Some(n)
    case _ => None
  }

  /** float(j). A string goes through parseFloat, which is None where float() raises. */
  function FloatOf(j: Json, parseFloat: string -> Option<real>): Outcome<real> {
    match j
    case Num(n) => Returns(n)
    case Bool(b) => Returns(if b then 1.0 else 0.0)
    case Str(s) => (match parseFloat(s) case Some(x) => Returns(x) case None => Raises)
    case _ => Raises
  }

  // ---------------------------------------------------------------------------
  // Dicts as insertion-ordered pairs

  predicate Distinct(xs: seq<string>) {
    forall i, j :: 0 <= i < j < |xs| ==> xs[i] != xs[j]
  }

  function Keys<V>(d: seq<(string, V)>): seq<string> {
    seq(|d|, i requires 0 <= i < |d| => d[i].0)
  }

  lemma KeysSnoc<V>(d: seq<(string, V)>, k: string, v: V)
    ensures Keys(d + [(k, v)]) == Keys(d) + [k]
  {
    assert forall i :: 0 <= i < |d| ==> Keys(d + [(k, v)])[i] == Keys(d)[i];
  }

  lemma KeysPrefix<V>(d: seq<(string, V)>, n: nat)
    requires n <= |d|
    ensures Keys(d[..n]) == Keys(d)[..n]
  {
  }

  /** Position of the pair holding key k, or |d| when k is absent. */
  function Find<V>(d: seq<(string, V)>, k: string): (i: nat)
    ensures i <= |d|
    ensures i < |d| ==> d[i].0 == k
    ensures forall j :: 0 <= j < i ==> d[j].0 != k
    ensures i == |d| <==> k !in Keys(d)
    decreases |d|
  {
    if d == [] then 0
    else if d[0].0 == k then
      assert Keys(d)[0] == k;
      0
    else
      var i := 1 + Find(d[1..], k);
      assert Keys(d) == [d[0].0] + Keys(d[1..]);
      i
  }

  lemma FindFirst<V>(d: seq<(string, V)>, k: string, i: nat)
    requires i <= |d|
    requires i < |d| ==> d[i].0 == k
    requires forall j :: 0 <= j < i ==> d[j].0 != k
    ensures Find(d, k) == i
  {
  }

  /** d.get(k). */
  function Get<V>(d: seq<(string, V)>, k: string): (r: Option<V>)
    ensures r.Some? <==> k in Keys(d)
  {
    var i := Find(d, k);
    if i < |d| then Some(d[i].1) else None
  }

  /** d.get(k, default). */
  function GetOr<V>(d: seq<(string, V)>, k: string, default: V): V {
    match Get(d, k)
    case Some(v) => v
    case None => default
  }

  /** d[k] = v: a key already present keeps its place and takes the new value; a new key goes last. */
  function Assign<V>(d: seq<(string, V)>, k: string, v: V): (r: seq<(string, V)>)
    ensures Keys(r) == if k in Keys(d) then Keys(d) else Keys(d) + [k]
    ensures Get(r, k) == Some(v)
  {
    var i := Find(d, k);
    if i < |d| then
      var r := d[i := (k, v)];
      assert Keys(r) == Keys(d);
      FindFirst(r, k, i);
      r
    else
      var r := d + [(k, v)];
      KeysSnoc(d, k, v);
      FindFirst(r, k, i);
      r
  }

  /** d[k] = v leaves every other key's value as it was. */
  lemma AssignOther<V>(d: seq<(string, V)>, k: string, v: V, k': string)
    requires k' != k
    ensures Get(Assign(d, k, v), k') == Get(d, k')
  {
    var i := Find(d, k);
    var r := Assign(d, k, v);
    var j := Find(d, k');
    if i < |d| {
      FindFirst(r, k', j);
    } else {
      KeysSnoc(d, k, v);
      if j < |d| {
        FindFirst(r, k', j);
      } else {
        assert k' !in Keys(r);
      }
    }
  }

  /** The dict that `for (k, v) in kvs: d[k] = v` leaves behind. */
  function AssignAll<V>(d: seq<(string, V)>, kvs: seq<(string, V)>): seq<(string, V)>
    decreases |kvs|
  {
    if kvs == [] then d
    else
      var n := |kvs| - 1;
      Assign(AssignAll(d, kvs[..n]), kvs[n].0, kvs[n].1)
  }

  /** Assigning a new key appends it. */
  lemma AssignNewKey<V>(d: seq<(string, V)>, k: string, v: V, ks: seq<string>)
    requires Keys(d) == ks && k !in ks
    ensures Keys(Assign(d, k, v)) == ks + [k]
  {
  }

  /** Assigning one more pair is one more Assign. */
  lemma AssignAllSnoc<V>(d: seq<(string, V)>, kvs: seq<(string, V)>, k: string, v: V)
    ensures AssignAll(d, kvs + [(k, v)]) == Assign(AssignAll(d, kvs), k, v)
  {
    assert (kvs + [(k, v)])[..|kvs|] == kvs;
  }

  /** The value of the last pair in kvs with key k. */
  function LastValue<V>(kvs: seq<(string, V)>, k: string): V
    requires k in Keys(kvs)
    decreases |kvs|
  {
    var n := |kvs| - 1;
    if kvs[n].0 == k then kvs[n].1
    else
      assert Keys(kvs) == Keys(kvs[..n]) + [kvs[n].0];
      LastValue(kvs[..n], k)
  }

  /** xs without repetitions, each element at the place it first occurs. */
  function Dedup(xs: seq<string>): (r: seq<string>)
    ensures forall x :: x in r <==> x in xs
    ensures Distinct(r)
    decreases |xs|
  {
    if xs == [] then []
    else
      var n := |xs| - 1;
      var p := Dedup(xs[..n]);
      assert forall x :: x in xs <==> x in xs[..n] || x == xs[n];
      if xs[n] in p then p else p + [xs[n]]
  }

  /** Assigning keys in turn: every key ends up with the last value given to it, and every
      other key keeps the value it had. */
  lemma {:induction false} AssignAllGet<V>(d: seq<(string, V)>, kvs: seq<(string, V)>, k: string)
    ensures Get(AssignAll(d, kvs), k) == if k in Keys(kvs) then Some(LastValue(kvs, k)) else Get(d, k)
    decreases |kvs|
  {
    if kvs != [] {
      var n := |kvs| - 1;
      assert kvs == kvs[..n] + [(kvs[n].0, kvs[n].1)];
      KeysSnoc(kvs[..n], kvs[n].0, kvs[n].1);
      AssignAllGet(d, kvs[..n], k);
      if kvs[n].0 != k {
        AssignOther(AssignAll(d, kvs[..n]), kvs[n].0, kvs[n].1, k);
      }
    }
  }

  /** Assigning keys in turn never moves or drops a key that was there: the old keys stay
      a prefix of the new ones. */
  lemma {:induction false} AssignAllKeepsKeys<V>(d: seq<(string, V)>, kvs: seq<(string, V)>)
    ensures Keys(d) <= Keys(AssignAll(d, kvs))
    decreases |kvs|
  {
    if kvs != [] {
      AssignAllKeepsKeys(d, kvs[..|kvs| - 1]);
    }
  }

  /** Starting from an empty dict, the keys come out in order of first assignment. */
  lemma {:induction false} AssignAllKeys<V>(kvs: seq<(string, V)>)
    ensures Keys(AssignAll([], kvs)) == Dedup(Keys(kvs))
    decreases |kvs|
  {
    if kvs != [] {
      var n := |kvs| - 1;
      assert kvs == kvs[..n] + [(kvs[n].0, kvs[n].1)];
      KeysSnoc(kvs[..n], kvs[n].0, kvs[n].1);
      assert Keys(kvs)[..n] == Keys(kvs[..n]);
      AssignAllKeys(kvs[..n]);
    }
  }

  /** Lemma on Dedup: a sequence without repetitions is its own Dedup. */
  lemma {:induction false} DedupOfDistinct(xs: seq<string>)
    requires Distinct(xs)
    ensures Dedup(xs) == xs
    decreases |xs|
  {
    if xs != [] {
      var n := |xs| - 1;
      DedupOfDistinct(xs[..n]);
      assert xs[n] !in xs[..n];
      assert xs == xs[..n] + [xs[n]];
    }
  }
}

=== FILE: legacy_utils.dfy ===
/** utils.py, the generation before utils/: a reply counts when it parses as JSON at all, an
    unparseable reply leaves no record, and nothing catches an error on the way. Its
    parse_json_numeric_value, search_numeric_value, clean_company_name, filter_recent_news,
    format_prompt and find_published_date are the same code as in utils/ and are the members of
    ValidationUtils and AnalysisUtils. */
module LegacyUtils {
  import opened JsonValues
  import opened PyStrings
  import opened Rounding
  import opened Oracles
  import opened ValidationUtils
  import opened AnalysisUtils

  // ---------------------------------------------------------------------------
  // validate_json

  /** validate_json: (True, the parsed value) whenever json.loads succeeds, whatever the value
      is; (False, {}) on a syntax error. */
  function LegacyValidateJson(parsed: Option<Json>): (r: (bool, Json))
    ensures r.0 <==> parsed.Some?
    ensures r.0 ==> r.1 == parsed.value
    ensures !r.0 ==> r.1 == Obj([])
  {
    match parsed
    case Some(j) => (true, j)
    case None => (false, Obj([]))
  }

  // ---------------------------------------------------------------------------
  // analyze_content

  /** One pass of the loop body, given the model's reply: None when the reply does not parse;
      the parsed object with `url` and then `published` assigned; Raises when llm.invoke raised
      or when the reply parses to something that is not an object, since item assignment on it
      raises TypeError. So a record comes exactly from a reply that parses to an object, and
      nothing from one that does not parse. */
  function LegacyProcess(reply: Reply, parse: string -> Option<Json>, url: string, published: string)
    : (e: Outcome<Option<Dict>>)
    ensures e == Returns(None) <==> reply.Text? && parse(reply.text).None?
    ensures e.Returns? && e.value.Some? <==> reply.Text? && parse(reply.text).Some? && parse(reply.text).value.Obj?
  {
    match reply
    case Failed => Raises
    case Text(output) =>
      var (valid, sentimentJson) := LegacyValidateJson(parse(output));
      if !valid then Returns(None)
      else
        match sentimentJson
        case Obj(fields) => Returns(Some(Assign(Assign(fields, "url", Str(url)), "published", Str(published))))
        case _ => Raises
  }

  /** A record holds the url and the published date, every other field of the reply
      unchanged, and the reply's fields first, in their order. */
  lemma LegacyProcessRecord(reply: Reply, parse: string -> Option<Json>, url: string, published: string)
    requires reply.Text? && parse(reply.text).Some? && parse(reply.text).value.Obj?
    ensures var fields := parse(reply.text).value.fields;
            var d := LegacyProcess(reply, parse, url, published).value.value;
            && Get(d, "url") == Some(Str(url))
            && Get(d, "published") == Some(Str(published))
            && (forall k :: k != "url" && k != "published" ==> Get(d, k) == Get(fields, k))
            && Keys(fields) <= Keys(d)
  {
    var fields := parse(reply.text).value.fields;
    var d1 := Assign(fields, "url", Str(url));
    var d := Assign(d1, "published", Str(published));
    assert LegacyProcess(reply, parse, url, published) == Returns(Some(d));
    AssignOther(d1, "published", Str(published), "url");
    forall k | k != "url" && k != "published"
      ensures Get(d, k) == Get(fields, k)
    {
      AssignOther(fields, "url", Str(url), k);
      AssignOther(d1, "published", Str(published), k);
    }
  }

  /** A record is never empty: it holds at least `url`. */
  lemma LegacyProcessNonEmpty(reply: Reply, parse: string -> Option<Json>, url: string, published: string)
    ensures LegacyProcess(reply, parse, url, published) != Returns(Some([]))
  {
    if reply.Text? && parse(reply.text).Some? && parse(reply.text).value.Obj? {
      var d := Assign(parse(reply.text).value.fields, "url", Str(url));
      assert "url" in Keys(d);
    }
  }

  /** The pass for the article (url, content) of the content map. */
  function LegacyEntry(b: Batch, url: string, content: string): Outcome<Option<Dict>> {
    var prompt := FormatPrompt(IsSentimentModel(b.modelName), b.analyzePrompt, content, b.companyName);
    LegacyProcess(b.env.llm(prompt), b.env.parse, url, FindPublishedDate(b.news, url))
  }

  /** What each pass of the loop gives, article by article. */
  function LegacyEntries(b: Batch, contentMap: seq<(string, string)>): (es: seq<Outcome<Option<Dict>>>)
    ensures |es| == |contentMap|
  {
    seq(|contentMap|, j requires 0 <= j < |contentMap| => LegacyEntry(b, contentMap[j].0, contentMap[j].1))
  }

  /** One pass of the loop body on the assignments made so far: e is what the pass gave and k
      the hash of its url. */
  function AddRecord(kvs: seq<(string, Dict)>, k: string, e: Outcome<Option<Dict>>): Outcome<seq<(string, Dict)>> {
    match e
    case Raises => Raises
    case Returns(None) => Returns(kvs)
    case Returns(Some(d)) => Returns(kvs + [(k, d)])
  }

  /** The passes in turn, each under its key: the assignments they make, or Raises at the first
      pass that raises. */
  function RecordFold(ks: seq<string>, es: seq<Outcome<Option<Dict>>>): Outcome<seq<(string, Dict)>>
    requires |ks| == |es|
    decreases |ks|
  {
    if ks == [] then Returns([])
    else
      var n := |ks| - 1;
      match RecordFold(ks[..n], es[..n])
      case Raises => Raises
      case Returns(kvs) => AddRecord(kvs, ks[n], es[n])
  }

  /** The record a pass leaves, [] for none. */
  function RecordOf(e: Outcome<Option<Dict>>): Dict {
    match e
    case Returns(Some(d)) => d
    case _ => []
  }

  function Records(es: seq<Outcome<Option<Dict>>>): (ds: seq<Dict>)
    ensures |ds| == |es|
  {
    seq(|es|, j requires 0 <= j < |es| => RecordOf(es[j]))
  }

  predicate AllReturn(es: seq<Outcome<Option<Dict>>>) {
    forall j :: 0 <= j < |es| ==> es[j].Returns?
  }

  /** The fold returns exactly when no pass raises, and then it holds the non-empty records in
      order, each under its key. */
  lemma {:induction false} RecordFoldSpec(ks: seq<string>, es: seq<Outcome<Option<Dict>>>)
    requires |ks| == |es|
    requires forall j :: 0 <= j < |es| ==> es[j] != Returns(Some([]))
    ensures RecordFold(ks, es).Returns? <==> AllReturn(es)
    ensures RecordFold(ks, es).Returns? ==> RecordFold(ks, es).value == NonEmptyPairs(ks, Records(es))
    decreases |ks|
  {
    if ks != [] {
      var n := |ks| - 1;
      RecordFoldSpec(ks[..n], es[..n]);
      assert forall j :: 0 <= j < n ==> es[..n][j] == es[j];
      if AllReturn(es) {
        assert AllReturn(es[..n]);
        assert Records(es)[..n] == Records(es[..n]);
      } else if AllReturn(es[..n]) {
        assert es[n].Raises?;
      }
    }
  }

  lemma {:induction false} RecordFoldRaises(ks: seq<string>, es: seq<Outcome<Option<Dict>>>, j: nat)
    requires |ks| == |es| && j <= |ks| && RecordFold(ks[..j], es[..j]) == Raises
    ensures RecordFold(ks, es) == Raises
    decreases |ks|
  {
    if j < |ks| {
      var n := |ks| - 1;
      assert ks[..n][..j] == ks[..j] && es[..n][..j] == es[..j];
      RecordFoldRaises(ks[..n], es[..n], j);
    } else {
      assert ks[..j] == ks && es[..j] == es;
    }
  }

  /** The `sentiments_map[hash_url(url)] = sentiment_json` assignments the loop makes, in
      content-map order, or Raises when a pass raises. */
  function LegacyPairs(b: Batch, contentMap: seq<(string, string)>): Outcome<seq<(string, Dict)>> {
    RecordFold(Hashes(b, contentMap), LegacyEntries(b, contentMap))
  }

  /** No pass of the loop raises. */
  predicate NoneRaises(b: Batch, contentMap: seq<(string, string)>) {
    AllReturn(LegacyEntries(b, contentMap))
  }

  /** The loop returns exactly when no pass raises, and then it has assigned the record of each
      article that has one, under the hash of its url, in content-map order. */
  lemma LegacyPairsSpec(b: Batch, contentMap: seq<(string, string)>)
    ensures LegacyPairs(b, contentMap).Returns? <==> NoneRaises(b, contentMap)
    ensures LegacyPairs(b, contentMap).Returns? ==>
              LegacyPairs(b, contentMap).value
              == NonEmptyPairs(Hashes(b, contentMap), Records(LegacyEntries(b, contentMap)))
  {
    LegacyEntriesNonEmpty(b, contentMap);
    RecordFoldSpec(Hashes(b, contentMap), LegacyEntries(b, contentMap));
  }

  lemma LegacyPairsSnoc(b: Batch, contentMap: seq<(string, string)>, j: nat)
    requires j < |contentMap|
    ensures LegacyPairs(b, contentMap[..j + 1])
         == match LegacyPairs(b, contentMap[..j])
            case Raises => Raises
            case Returns(kvs) => AddRecord(kvs, b.env.hash(contentMap[j].0), LegacyEntry(b, contentMap[j].0, contentMap[j].1))
  {
    var ks, es := Hashes(b, contentMap[..j + 1]), LegacyEntries(b, contentMap[..j + 1]);
    assert ks[..j] == Hashes(b, contentMap[..j]);
    assert es[..j] == LegacyEntries(b, contentMap[..j]);
  }

  lemma LegacyPairsRaises(b: Batch, contentMap: seq<(string, string)>, j: nat)
    requires j <= |contentMap| && LegacyPairs(b, contentMap[..j]) == Raises
    ensures LegacyPairs(b, contentMap) == Raises
  {
    var ks, es := Hashes(b, contentMap), LegacyEntries(b, contentMap);
    assert ks[..j] == Hashes(b, contentMap[..j]);
    assert es[..j] == LegacyEntries(b, contentMap[..j]);
    RecordFoldRaises(ks, es, j);
  }

  /** analyze_content's result: the assignments made in turn, or the exception of a pass. */
  function LegacySentimentsOf(b: Batch, contentMap: seq<(string, string)>): Outcome<seq<(string, Dict)>> {
    match LegacyPairs(b, contentMap)
    case Raises => Raises
    case Returns(kvs) => Returns(AssignAll([], kvs))
  }

  /** analyze_content. */
  method LegacyAnalyzeContent(b: Batch, contentMap: seq<(string, string)>)
    returns (sentimentsMap: Outcome<seq<(string, Dict)>>)
    ensures sentimentsMap == LegacySentimentsOf(b, contentMap)
  {
    var acc: seq<(string, Dict)> := [];
    ghost var pairs: seq<(string, Dict)> := [];
    var isSentimentModel := IsSentimentModel(b.modelName);
    var j := 0;
    while j < |contentMap|
      invariant 0 <= j <= |contentMap|
      invariant LegacyPairs(b, contentMap[..j]) == Returns(pairs)
      invariant acc == AssignAll([], pairs)
    {
      var (url, content) := contentMap[j];
      var prompt := FormatPrompt(isSentimentModel, b.analyzePrompt, content, b.companyName);
      var output := b.env.llm(prompt);
      var sentimentJson := LegacyProcess(output, b.env.parse, url, FindPublishedDate(b.news, url));
      assert sentimentJson == LegacyEntry(b, url, content);
      LegacyPairsSnoc(b, contentMap, j);
      match sentimentJson {
        case Raises =>
          LegacyPairsRaises(b, contentMap, j + 1);
          return Raises;
        case Returns(None) =>
        case Returns(Some(entry)) =>
          AssignAllSnoc([], pairs, b.env.hash(url), entry);
          acc := Assign(acc, b.env.hash(url), entry);
          pairs := pairs + [(b.env.hash(url), entry)];
      }
      j := j + 1;
    }
    assert contentMap[..j] == contentMap;
    return Returns(acc);
  }

  /** When no pass raises: the stored keys are the hashes of the articles whose reply parsed to
      an object, in order of first appearance; every such article is stored; every stored
      record is the one some article of the map with that hash produced, and an article whose
      reply does not parse leaves no record. */
  lemma LegacyAnalyzeContentEntries(b: Batch, contentMap: seq<(string, string)>)
    ensures LegacySentimentsOf(b, contentMap).Returns? <==> NoneRaises(b, contentMap)
    ensures NoneRaises(b, contentMap) ==>
              var ks, es := Hashes(b, contentMap), LegacyEntries(b, contentMap);
              var kvs := NonEmptyPairs(ks, Records(es));
              var m := LegacySentimentsOf(b, contentMap).value;
              && Keys(m) == Dedup(Keys(kvs))
              && (forall j :: 0 <= j < |es| && es[j].value.Some? ==> ks[j] in Keys(m))
              && (forall k :: k in Keys(m) ==>
                    exists j :: 0 <= j < |es| && k == ks[j] && es[j] == Returns(Some(Get(m, k).value)))
  {
    LegacyPairsSpec(b, contentMap);
    if NoneRaises(b, contentMap) {
      var es := LegacyEntries(b, contentMap);
      LegacyEntriesNonEmpty(b, contentMap);
      RecordMap(Hashes(b, contentMap), es);
    }
  }

  lemma LegacyEntriesNonEmpty(b: Batch, contentMap: seq<(string, string)>)
    ensures forall j :: 0 <= j < |contentMap| ==> LegacyEntries(b, contentMap)[j] != Returns(Some([]))
  {
    forall j | 0 <= j < |contentMap|
      ensures LegacyEntries(b, contentMap)[j] != Returns(Some([]))
    {
      var prompt := FormatPrompt(IsSentimentModel(b.modelName), b.analyzePrompt, contentMap[j].1, b.companyName);
      LegacyProcessNonEmpty(b.env.llm(prompt), b.env.parse, contentMap[j].0, FindPublishedDate(b.news, contentMap[j].0));
    }
  }

  /** Assigning the records of passes that all returned, none of them empty: the keys come in
      order of first appearance, every record is stored under its key, and every stored value
      is the record of some pass under that key. */
  lemma RecordMap(ks: seq<string>, es: seq<Outcome<Option<Dict>>>)
    requires |ks| == |es| && AllReturn(es)
    requires forall j :: 0 <= j < |es| ==> es[j] != Returns(Some([]))
    ensures var kvs := NonEmptyPairs(ks, Records(es));
            var m := AssignAll([], kvs);
            && Keys(m) == Dedup(Keys(kvs))
            && (forall j :: 0 <= j < |es| && es[j].value.Some? ==> ks[j] in Keys(m))
            && (forall k :: k in Keys(m) ==>
                  exists j :: 0 <= j < |es| && k == ks[j] && es[j] == Returns(Some(Get(m, k).value)))
  {
    AssignAllKeys(NonEmptyPairs(ks, Records(es)));
    RecordMapCover(ks, es);
    RecordMapFrom(ks, es);
  }

  lemma RecordMapCover(ks: seq<string>, es: seq<Outcome<Option<Dict>>>)
    requires |ks| == |es| && AllReturn(es)
    requires forall j :: 0 <= j < |es| ==> es[j] != Returns(Some([]))
    ensures forall j :: 0 <= j < |es| && es[j].value.Some? ==> ks[j] in Keys(AssignAll([], NonEmptyPairs(ks, Records(es))))
  {
    var ds := Records(es);
    var kvs := NonEmptyPairs(ks, ds);
    AssignAllKeys(kvs);
    NonEmptyPairsCover(ks, ds);
    forall j | 0 <= j < |es| && es[j].value.Some?
      ensures ks[j] in Keys(AssignAll([], kvs))
    {
      assert ds[j] != [];
      assert ks[j] in Keys(kvs);
    }
  }

  lemma RecordMapFrom(ks: seq<string>, es: seq<Outcome<Option<Dict>>>)
    requires |ks| == |es|
    ensures var m := AssignAll([], NonEmptyPairs(ks, Records(es)));
            forall k :: k in Keys(m) ==>
              exists j :: 0 <= j < |es| && k == ks[j] && es[j] == Returns(Some(Get(m, k).value))
  {
    var ds := Records(es);
    var kvs := NonEmptyPairs(ks, ds);
    var m := AssignAll([], kvs);
    AssignAllKeys(kvs);
    NonEmptyPairsFrom(ks, ds);
    forall k | k in Keys(m)
      ensures exists j :: 0 <= j < |es| && k == ks[j] && es[j] == Returns(Some(Get(m, k).value))
    {
      AssignAllGet([], kvs, k);
      var i := LastIndex(kvs, k);
      var j :| 0 <= j < |ks| && kvs[i] == (ks[j], ds[j]) && ds[j] != [];
      RecordOfInverse(es[j]);
    }
  }

  /** A non-empty record comes from a pass that returned it. */
  lemma RecordOfInverse(e: Outcome<Option<Dict>>)
    requires RecordOf(e) != []
    ensures e == Returns(Some(RecordOf(e)))
  {
    match e
    case Returns(Some(d)) =>
    case Returns(None) =>
    case Raises =>
  }

  /** Where the generations part: a reply that does not parse leaves no record here, while
      utils/ records it with `valid` false. */
  lemma UnparseableReplyDropped(b: Batch, url: string, content: string, j: nat)
    requires var prompt := FormatPrompt(IsSentimentModel(b.modelName), b.analyzePrompt, content, b.companyName);
             b.env.llm(prompt).Text? && b.env.parse(b.env.llm(prompt).text).None?
    ensures LegacyEntry(b, url, content) == Returns(None)
    ensures Get(ArticleEntry(b, url, content, j), "valid") == Some(Bool(false))
  {
    ArticleEntryMeta(b, url, content, j);
  }

  // ---------------------------------------------------------------------------
  // compute_weighted_average_sentiment

  /** The loop of the utils/ version without the decorator: a read that raises propagates. When
      the loop completes the result is the one the decorated version gives. */
  method LegacyComputeWeightedAverage(sentimentsMap: seq<(string, Dict)>, env: Env)
    returns (averageSentiment: Outcome<real>)
    ensures averageSentiment.Raises? <==> Accumulate(sentimentsMap, env).Raises?
    ensures averageSentiment.Returns? ==> averageSentiment.value == WeightedAverage(sentimentsMap, env)
  {
    var sum := 0.0;
    var totalWeight := 0.0;
    var i := 0;
    while i < |sentimentsMap|
      invariant 0 <= i <= |sentimentsMap|
      invariant Accumulate(sentimentsMap[..i], env) == Returns((sum, totalWeight))
    {
      var entry := sentimentsMap[i].1;
      var sValue := ParseJsonNumericValue(entry, "sentiment", env.dumps, env.parseFloat);
      var sConfidence := ParseJsonNumericValue(entry, "confidence", env.dumps, env.parseFloat);
      AccumulateSnoc(sentimentsMap, i, env);
      var next := Combine((sum, totalWeight), sValue, sConfidence);
      if next.Raises? {
        AccumulateRaises(sentimentsMap, i + 1, env);
        return Raises;
      }
      sum, totalWeight := next.value.0, next.value.1;
      i := i + 1;
    }
    assert sentimentsMap[..i] == sentimentsMap;
    if totalWeight != 0.0 {
      return Returns(Round2(sum / totalWeight));
    } else {
      return Returns(0.0);
    }
  }

  // ---------------------------------------------------------------------------
  // get_results_directory, save_results and test_model

  /** get_results_directory: "sentiments" joined with the model name, every ':' made '_'. */
  function ResultsDirectory(modelName: string): (dir: string)
    ensures |modelName| <= |dir| && dir[|dir| - |modelName|..] == ReplaceColons(modelName)
    ensures ':' !in dir[|dir| - |modelName|..]
    ensures modelName == [] || modelName[0] != '/' ==> dir == "sentiments/" + ReplaceColons(modelName)
  {
    PathJoin("sentiments", ReplaceColons(modelName))
  }

  /** test_model: prepare the prompt (the first-prompt call of a model without "sentiment" in
      its name is not guarded), analyse every article, average, and give the path and document
      save_results writes. Any exception on the way ends the run. */
  method LegacyTestModel(env: Env, modelName: string, iteration: nat, firstPrompt: string, template: seq<Piece>,
                         companyName: string, contentMap: seq<(string, string)>, news: seq<NewsItem>,
                         tickerSymbol: string, runSeconds: real)
    returns (saved: Outcome<(string, Artifact)>)
    ensures var b := Batch(env, if IsSentimentModel(modelName) then [] else template, modelName, companyName, news);
            saved.Returns? <==>
              && (IsSentimentModel(modelName) || env.llm(firstPrompt).Text?)
              && LegacySentimentsOf(b, contentMap).Returns?
              && Accumulate(LegacySentimentsOf(b, contentMap).value, env).Returns?
    ensures saved.Returns? ==>
              var b := Batch(env, if IsSentimentModel(modelName) then [] else template, modelName, companyName, news);
              && saved.value.0 == ResultsFile("sentiments", modelName, tickerSymbol, iteration)
              && Returns(saved.value.1.sentiments) == LegacySentimentsOf(b, contentMap)
              && saved.value.1.averageSentiment == WeightedAverage(saved.value.1.sentiments, env)
              && saved.value.1.timeTaken == Round2(runSeconds)
  {
    var analyzePrompt: seq<Piece> := [];
    if !IsSentimentModel(modelName) {
      if env.llm(firstPrompt).Failed? {
        return Raises;
      }
      analyzePrompt := template;
    }
    var b := Batch(env, analyzePrompt, modelName, companyName, news);
    var sentimentsMap := LegacyAnalyzeContent(b, contentMap);
    if sentimentsMap.Raises? {
      return Raises;
    }
    var averageSentiment := LegacyComputeWeightedAverage(sentimentsMap.value, env);
    if averageSentiment.Raises? {
      return Raises;
    }
    var resultsDir := ResultsDirectory(modelName);
    var path := PathJoin(resultsDir, tickerSymbol + "_" + NatToString(iteration) + ".json");
    saved := Returns((path, Artifact(averageSentiment.value, Round2(runSeconds), sentimentsMap.value)));
  }
}

=== FILE: main_script.dfy ===
/** main.py, the original script. Its module-level variables (the news list, the content map,
    the sentiments map and the company name) are the fields of a Script object that the steps
    of the script update in turn; nothing ever resets the sentiments map between runs. */
module MainScript {
  import opened JsonValues
  import opened PyStrings
  import opened Rounding
  import opened Oracles
  import opened ValidationUtils
  import opened AnalysisUtils
  import opened GenerateModelSentiments
  import opened LegacyUtils

  // ---------------------------------------------------------------------------
  // Company-name cleaning

  /** The inline cleaning: lower-case, cut at the first comma, each suffix deleted in list
      order, and no strip. */
  function ScriptCleanName(longName: string): (r: string)
    ensures ',' !in r
  {
    var cut := BeforeFirstComma(Lower(longName));
    RemoveEachNoNewChar(cut, CommonSuffixes, ',');
    RemoveEach(cut, CommonSuffixes)
  }

  /** Without the strip, "NVIDIA Corporation, Inc." keeps the space before "corporation". */
  lemma ScriptCleanNameExample(longName: string)
    requires longName == "NVIDIA Corporation, Inc."
    ensures ScriptCleanName(longName) == "nvidia "
    ensures Strip(ScriptCleanName(longName)) == CleanName(longName)
  {
    LowerAndCutExample(longName);
    NvidiaLacksSuffixChars("nvidia ");
    CorporationRemoved("nvidia corporation", "nvidia ");
  }

  // ---------------------------------------------------------------------------
  // The recency filter that removes while iterating

  /** list.remove(x): the first element equal to x goes; the list is unchanged when none is. */
  function RemoveFirst(xs: seq<NewsItem>, x: NewsItem): (r: seq<NewsItem>)
    ensures x in xs ==> |r| == |xs| - 1
    ensures x !in xs ==> r == xs
    ensures multiset(r) == multiset(xs) - multiset{x}
    decreases |xs|
  {
    if xs == [] then []
    else if xs[0] == x then
      assert xs == [xs[0]] + xs[1..];
      xs[1..]
    else
      var r := [xs[0]] + RemoveFirst(xs[1..], x);
      assert xs == [xs[0]] + xs[1..];
      r
  }

  /** `for news in news_object: if <old>: news_object.remove(news)` from the loop's position i
      on. The iterator reads position i and moves to i + 1 whatever the body does, so after a
      removal the item that slid into position i is never read. */
  function InPlaceFilter(xs: seq<NewsItem>, i: nat, cutoff: real): seq<NewsItem>
    decreases |xs| - i
  {
    if i >= |xs| then xs
    else if (xs[i].publishedAt as real) < cutoff then InPlaceFilter(RemoveFirst(xs, xs[i]), i + 1, cutoff)
    else InPlaceFilter(xs, i + 1, cutoff)
  }

  /** Removing an old item leaves the recent items as they were. */
  lemma {:induction false} RemoveFirstKeepsRecent(xs: seq<NewsItem>, x: NewsItem, cutoff: real)
    requires (x.publishedAt as real) < cutoff
    ensures Recent(RemoveFirst(xs, x), cutoff) == Recent(xs, cutoff)
    decreases |xs|
  {
    if xs != [] && xs[0] != x {
      RemoveFirstKeepsRecent(xs[1..], x, cutoff);
      assert RemoveFirst(xs, x)[1..] == RemoveFirst(xs[1..], x);
    }
  }

  /** The loop only ever removes items older than the cutoff: every recent item stays, in
      order, and nothing is added. */
  lemma {:induction false} InPlaceFilterKeepsRecent(xs: seq<NewsItem>, i: nat, cutoff: real)
    ensures Recent(InPlaceFilter(xs, i, cutoff), cutoff) == Recent(xs, cutoff)
    ensures multiset(InPlaceFilter(xs, i, cutoff)) <= multiset(xs)
    decreases |xs| - i
  {
    if i < |xs| {
      if (xs[i].publishedAt as real) < cutoff {
        RemoveFirstKeepsRecent(xs, xs[i], cutoff);
        InPlaceFilterKeepsRecent(RemoveFirst(xs, xs[i]), i + 1, cutoff);
      } else {
        InPlaceFilterKeepsRecent(xs, i + 1, cutoff);
      }
    }
  }

  /** Two different out-of-window items in a row: the first is removed, the second slides into
      its place, is never examined and survives. */
  lemma SkippedItemSurvives(a: NewsItem, b: NewsItem, cutoff: real)
    requires (a.publishedAt as real) < cutoff && (b.publishedAt as real) < cutoff && a != b
    ensures InPlaceFilter([a, b], 0, cutoff) == [b]
  {
    assert RemoveFirst([a, b], a) == [b];
  }

  // ---------------------------------------------------------------------------
  // parse_json_numeric_value and the aggregation

  /** parse_json_numeric_value: the value itself, unconverted, when the key is present;
      otherwise the first literal the scan of json.dumps finds, or 0.0. */
  function ScriptParseNumeric(d: Dict, key: string, dumps: Dict -> string): (r: Json)
    ensures key in Keys(d) ==> Some(r) == Get(d, key)
    ensures key !in Keys(d) ==> r.Num? && -2.0 < r.n < 2.0
    ensures key !in Keys(d) && SearchNumericValue(dumps(d)).None? ==> r == Num(0.0)
    ensures key !in Keys(d) && SearchNumericValue(dumps(d)).Some? ==> r == Num(SearchNumericValue(dumps(d)).value)
  {
    match Get(d, key)
    case Some(v) => v
    case None =>
      match SearchNumericValue(dumps(d))
      case Some(x) => Num(x)
      case None => Num(0.0)
  }

  /** One pass of the aggregation loop: a sentiment equal to 0.0 (0, 0.0 or false) is skipped;
      otherwise s·c joins the sum and c the weight, and Python raises TypeError when either
      value is not a number or a bool. */
  function ScriptCombine(acc: (real, real), s: Json, c: Json): Outcome<(real, real)> {
    if Arith(s) == Some(0.0) then Returns(acc)
    else if Arith(s).Some? && Arith(c).Some? then
      Returns((acc.0 + Arith(s).value * Arith(c).value, acc.1 + Arith(c).value))
    else Raises
  }

  function ScriptAddEntry(acc: (real, real), entry: Dict, dumps: Dict -> string): Outcome<(real, real)> {
    ScriptCombine(acc, ScriptParseNumeric(entry, "sentiment", dumps), ScriptParseNumeric(entry, "confidence", dumps))
  }

  /** (average_sentiment, total_weight) after the loop over the given entries. */
  function ScriptAccumulate(m: seq<(string, Dict)>, dumps: Dict -> string): Outcome<(real, real)>
    decreases |m|
  {
    if m == [] then Returns((0.0, 0.0))
    else
      var n := |m| - 1;
      match ScriptAccumulate(m[..n], dumps)
      case Raises => Raises
      case Returns(acc) => ScriptAddEntry(acc, m[n].1, dumps)
  }

  /** After the loop: the rounded mean when the weight is not 0, and otherwise the sum itself,
      undivided. */
  function ScriptFinish(acc: (real, real)): real {
    if acc.1 != 0.0 then Round2(acc.0 / acc.1) else acc.0
  }

  function ScriptAverage(m: seq<(string, Dict)>, dumps: Dict -> string): Outcome<real> {
    match ScriptAccumulate(m, dumps)
    case Raises => Raises
    case Returns(acc) => Returns(ScriptFinish(acc))
  }

  lemma ScriptAccumulateSnoc(m: seq<(string, Dict)>, i: nat, dumps: Dict -> string)
    requires i < |m|
    ensures ScriptAccumulate(m[..i + 1], dumps)
         == match ScriptAccumulate(m[..i], dumps)
            case Raises => Raises
            case Returns(acc) => ScriptAddEntry(acc, m[i].1, dumps)
  {
    assert m[..i + 1][..i] == m[..i];
  }

  lemma {:induction false} ScriptAccumulateRaises(m: seq<(string, Dict)>, i: nat, dumps: Dict -> string)
    requires i <= |m| && ScriptAccumulate(m[..i], dumps) == Raises
    ensures ScriptAccumulate(m, dumps) == Raises
    decreases |m|
  {
    if i < |m| {
      var n := |m| - 1;
      assert m[..n][..i] == m[..i];
      ScriptAccumulateRaises(m[..n], i, dumps);
    } else {
      assert m[..i] == m;
    }
  }

  /** Entries holding both scores as JSON numbers. */
  predicate NumericScores(entry: Dict) {
    && Get(entry, "sentiment").Some? && Get(entry, "sentiment").value.Num?
    && Get(entry, "confidence").Some? && Get(entry, "confidence").value.Num?
  }

  /** One pass over an entry holding both scores as numbers reads them the same way as
      utils/ does and combines them the same way. */
  lemma ScriptAddEntryAgrees(acc: (real, real), entry: Dict, env: Env)
    requires NumericScores(entry)
    ensures ScriptAddEntry(acc, entry, env.dumps) == AddEntry(acc, entry, env)
  {
    var s, c := Get(entry, "sentiment").value, Get(entry, "confidence").value;
    assert ParseJsonNumericValue(entry, "sentiment", env.dumps, env.parseFloat) == Returns(Some(s.n));
    assert ParseJsonNumericValue(entry, "confidence", env.dumps, env.parseFloat) == Returns(Some(c.n));
    assert ScriptParseNumeric(entry, "sentiment", env.dumps) == s;
    assert ScriptParseNumeric(entry, "confidence", env.dumps) == c;
    assert Arith(s) == Some(s.n) && Arith(c) == Some(c.n);
    if s.n != 0.0 {
      var r, q := ScriptAddEntry(acc, entry, env.dumps), AddEntry(acc, entry, env);
      assert r.Returns? && r.value.0 == acc.0 + s.n * c.n && r.value.1 == acc.1 + c.n;
      assert q.Returns? && q.value.0 == acc.0 + s.n * c.n && q.value.1 == acc.1 + c.n;
    }
  }

  /** Over entries that hold both scores as numbers, the script's loop makes the same sums as
      compute_weighted_average_sentiment of utils/, and where the weight is not 0 it gives the
      same average. */
  lemma {:induction false} ScriptAccumulateAgrees(m: seq<(string, Dict)>, env: Env)
    requires forall i :: 0 <= i < |m| ==> NumericScores(m[i].1)
    ensures ScriptAccumulate(m, env.dumps) == Accumulate(m, env)
    ensures Accumulate(m, env).Returns?
    ensures Accumulate(m, env).value.1 != 0.0 ==> ScriptAverage(m, env.dumps) == Returns(WeightedAverage(m, env))
    decreases |m|
  {
    if m != [] {
      var n := |m| - 1;
      ScriptAccumulateAgrees(m[..n], env);
      ScriptAddEntryAgrees(Accumulate(m[..n], env).value, m[n].1, env);
    }
  }

  /** Confidence is not range-checked here, so the weights can cancel: {0.5 with confidence
      1.0, -0.5 with confidence -1.0} has weight 0 and the script reports the raw sum 1.0,
      outside [-1, 1], where utils/ reports 0.0. */
  lemma ZeroWeightRawSum(a: Dict, b: Dict, env: Env)
    requires a == [("sentiment", Num(0.5)), ("confidence", Num(1.0))]
    requires b == [("sentiment", Num(-0.5)), ("confidence", Num(-1.0))]
    ensures ScriptAverage([("a", a), ("b", b)], env.dumps) == Returns(1.0)
    ensures WeightedAverage([("a", a), ("b", b)], env) == 0.0
  {
    FindFirst(a, "sentiment", 0);
    FindFirst(a, "confidence", 1);
    FindFirst(b, "sentiment", 0);
    FindFirst(b, "confidence", 1);
    var m := [("a", a), ("b", b)];
    assert m[..1] == [("a", a)] && m[..1][..0] == [];
    ScriptAccumulateAgrees(m, env);
    assert ScriptAccumulate(m[..1], env.dumps) == Returns((0.5, 1.0));
    assert ScriptAccumulate(m, env.dumps) == Returns((1.0, 0.0));
  }

  // ---------------------------------------------------------------------------
  // The script's state

  class Script {
    var newsObject: seq<NewsItem>
    var contentMap: seq<(string, string)>
    var sentimentsMap: seq<(string, Dict)>
    var companyName: string

    /** The module-level variables before the first step: the fetched feed, empty maps and an
        empty company name. */
    constructor(news: seq<NewsItem>)
      ensures newsObject == news && contentMap == [] && sentimentsMap == [] && companyName == ""
    {
      newsObject := news;
      contentMap := [];
      sentimentsMap := [];
      companyName := "";
    }

    /** The cleaning block: the company name stays "" for a ticker without a short name. */
    method CleanCompanyName(hasShortName: bool, longName: string)
      modifies this`companyName
      ensures companyName == if hasShortName then ScriptCleanName(longName) else ""
    {
      companyName := "";
      if hasShortName {
        companyName := Lower(longName);
        companyName := BeforeFirstComma(companyName);
        ghost var start := companyName;
        var toRemove := CommonSuffixes;
        var i := 0;
        while i < |toRemove|
          invariant 0 <= i <= |toRemove|
          invariant RemoveEach(companyName, toRemove[i..]) == RemoveEach(start, toRemove)
        {
          assert toRemove[i..][1..] == toRemove[i + 1..];
          companyName := RemoveAll(companyName, toRemove[i]);
          i := i + 1;
        }
      }
    }

    /** The recency loop over the list it removes from, then the cut to maxNewsItems. */
    method FilterNews(now: real, maxNewsAge: int, maxNewsItems: int)
      modifies this`newsObject
      ensures newsObject == PyPrefix(InPlaceFilter(old(newsObject), 0, Cutoff(now, maxNewsAge)), maxNewsItems)
    {
      var cutoff := Cutoff(now, maxNewsAge);
      var i := 0;
      while i < |newsObject|
        invariant InPlaceFilter(newsObject, i, cutoff) == InPlaceFilter(old(newsObject), 0, cutoff)
        decreases |newsObject| - i
      {
        var news := newsObject[i];
        i := i + 1;
        if (news.publishedAt as real) < cutoff {
          newsObject := RemoveFirst(newsObject, news);
        }
      }
      newsObject := PyPrefix(newsObject, maxNewsItems);
    }

    /** The content loop: as in get_content_map, but an empty summary raises out of the script
      instead of being caught. */
    method BuildContentMap(scrape: string -> string) returns (ok: bool)
      modifies this`contentMap
      ensures ok <==> ContentPairs(newsObject, scrape).Returns?
      ensures ok ==> contentMap == AssignAll(old(contentMap), ContentPairs(newsObject, scrape).value)
    {
      ghost var pairs: seq<(string, string)> := [];
      var i := 0;
      while i < |newsObject|
        invariant 0 <= i <= |newsObject|
        invariant ContentPairs(newsObject[..i], scrape) == Returns(pairs)
        invariant contentMap == AssignAll(old(contentMap), pairs)
      {
        var url := newsObject[i].link;
        var extraContent := scrape(url);
        var item := ArticleContent(newsObject[i].summary, extraContent);
        ContentPairsSnoc(newsObject, scrape, i);
        if item.None? {
          ContentPairsRaises(newsObject, scrape, i + 1);
          return false;
        }
        var content := item.value;
        if content != [] {
          AssignAllSnoc(old(contentMap), pairs, url, content);
          contentMap := Assign(contentMap, url, content);
          pairs := pairs + [(url, content)];
        }
        i := i + 1;
      }
      assert newsObject[..i] == newsObject;
      return true;
    }

    /** The inner search for the published date: the first item linking to url, or "". */
    method FindPublished(url: string) returns (published: string)
      ensures published == FindPublishedDate(newsObject, url)
    {
      published := "";
      var k := 0;
      while k < |newsObject|
        invariant 0 <= k <= |newsObject|
        invariant FindPublishedDate(newsObject, url) == FindPublishedDate(newsObject[k..], url)
      {
        if newsObject[k].link == url {
          published := newsObject[k].published;
          return;
        }
        assert newsObject[k..][1..] == newsObject[k + 1..];
        k := k + 1;
      }
    }

    /** One pass of the article loop: the reply is parsed; a parsed object gets the url and the
        published date of the first item linking to it; an unparseable reply gives None; a
        parsed value that is not an object raises TypeError on the first assignment. */
    method ProcessArticle(b: Batch, url: string, content: string) returns (e: Outcome<Option<Dict>>)
      requires b.news == newsObject
      ensures e == LegacyEntry(b, url, content)
    {
      var prompt := FormatPrompt(IsSentimentModel(b.modelName), b.analyzePrompt, content, b.companyName);
      var output := b.env.llm(prompt);
      if output.Failed? {
        return Raises;
      }
      var (valid, sentimentJson) := LegacyValidateJson(b.env.parse(output.text));
      if !valid {
        return Returns(None);
      }
      if !sentimentJson.Obj? {
        return Raises;
      }
      var entry := Assign(sentimentJson.fields, "url", Str(url));
      var published := FindPublished(url);
      entry := Assign(entry, "published", Str(published));
      return Returns(Some(entry));
    }

    /** The article loop of test_model: every reply that parses adds or overwrites one entry of
        the global map; nothing is removed. */
    method RecordRun(b: Batch) returns (ok: bool)
      requires b.news == newsObject
      modifies this`sentimentsMap
      ensures ok <==> LegacyPairs(b, contentMap).Returns?
      ensures ok ==> sentimentsMap == AssignAll(old(sentimentsMap), LegacyPairs(b, contentMap).value)
    {
      ghost var pairs: seq<(string, Dict)> := [];
      var j := 0;
      while j < |contentMap|
        invariant 0 <= j <= |contentMap|
        invariant LegacyPairs(b, contentMap[..j]) == Returns(pairs)
        invariant sentimentsMap == AssignAll(old(sentimentsMap), pairs)
      {
        var (url, content) := contentMap[j];
        var sentimentJson := ProcessArticle(b, url, content);
        LegacyPairsSnoc(b, contentMap, j);
        match sentimentJson {
          case Raises =>
            LegacyPairsRaises(b, contentMap, j + 1);
            return false;
          case Returns(None) =>
          case Returns(Some(entry)) =>
            AssignAllSnoc(old(sentimentsMap), pairs, b.env.hash(url), entry);
            sentimentsMap := Assign(sentimentsMap, b.env.hash(url), entry);
            pairs := pairs + [(b.env.hash(url), entry)];
        }
        j := j + 1;
      }
      assert contentMap[..j] == contentMap;
      return true;
    }

    /** The aggregation block over the whole global map. */
    method Aggregate(dumps: Dict -> string) returns (averageSentiment: Outcome<real>)
      ensures averageSentiment == ScriptAverage(sentimentsMap, dumps)
    {
      var sum := 0.0;
      var totalWeight := 0.0;
      if |sentimentsMap| > 0 {
        var i := 0;
        while i < |sentimentsMap|
          invariant 0 <= i <= |sentimentsMap|
          invariant ScriptAccumulate(sentimentsMap[..i], dumps) == Returns((sum, totalWeight))
        {
          var entry := sentimentsMap[i].1;
          var sValue := ScriptParseNumeric(entry, "sentiment", dumps);
          var sConfidence := ScriptParseNumeric(entry, "confidence", dumps);
          ScriptAccumulateSnoc(sentimentsMap, i, dumps);
          var next := ScriptCombine((sum, totalWeight), sValue, sConfidence);
          if next.Raises? {
            ScriptAccumulateRaises(sentimentsMap, i + 1, dumps);
            return Raises;
          }
          sum, totalWeight := next.value.0, next.value.1;
          i := i + 1;
        }
        assert sentimentsMap[..i] == sentimentsMap;
        if totalWeight != 0.0 {
          sum := Round2(sum / totalWeight);
        }
      }
      return Returns(sum);
    }

    /** test_model: the first-prompt call for a model without "sentiment" in its name, the
        article loop into the global map, the average over that whole map, and the file and
        document written. Any exception ends the script. */
    method TestModel(env: Env, modelName: string, iteration: nat, firstPrompt: string, template: seq<Piece>,
                     tickerSymbol: string, runSeconds: real)
      returns (saved: Outcome<(string, Artifact)>)
      modifies this`sentimentsMap
      ensures var b := Batch(env, if IsSentimentModel(modelName) then [] else template, modelName, companyName, newsObject);
              saved.Returns? <==>
                && (IsSentimentModel(modelName) || env.llm(firstPrompt).Text?)
                && LegacyPairs(b, contentMap).Returns?
                && ScriptAverage(AssignAll(old(sentimentsMap), LegacyPairs(b, contentMap).value), env.dumps).Returns?
      ensures saved.Returns? ==>
                var b := Batch(env, if IsSentimentModel(modelName) then [] else template, modelName, companyName, newsObject);
                && sentimentsMap == AssignAll(old(sentimentsMap), LegacyPairs(b, contentMap).value)
                && saved.value.0 == ResultsFile("sentiments", modelName, tickerSymbol, iteration)
                && saved.value.1.sentiments == sentimentsMap
                && Returns(saved.value.1.averageSentiment) == ScriptAverage(sentimentsMap, env.dumps)
                && saved.value.1.timeTaken == Round2(runSeconds)
    {
      var isSentimentModel := IsSentimentModel(modelName);
      var analyzePrompt: seq<Piece> := [];
      if !isSentimentModel {
        if env.llm(firstPrompt).Failed? {
          return Raises;
        }
        analyzePrompt := template;
      }
      var b := Batch(env, analyzePrompt, modelName, companyName, newsObject);
      var ok := RecordRun(b);
      if !ok {
        return Raises;
      }
      var averageSentiment := Aggregate(env.dumps);
      if averageSentiment.Raises? {
        return Raises;
      }
      var resultsDir := PathJoin("sentiments", ReplaceColons(modelName));
      var sentimentFile := PathJoin(resultsDir, tickerSymbol + "_" + NatToString(iteration) + ".json");
      saved := Returns((sentimentFile, Artifact(averageSentiment.value, Round2(runSeconds), sentimentsMap)));
    }
  }

  /** What a run leaves in the global map: every key of the earlier runs stays, in place, and
      a key this run did not record keeps the earlier run's entry, possibly another model's. */
  lemma RunLeaks(before: seq<(string, Dict)>, recorded: seq<(string, Dict)>, k: string)
    ensures Keys(before) <= Keys(AssignAll(before, recorded))
    ensures k !in Keys(recorded) ==> Get(AssignAll(before, recorded), k) == Get(before, k)
    ensures k in Keys(recorded) ==> Get(AssignAll(before, recorded), k) == Some(LastValue(recorded, k))
  {
    AssignAllKeepsKeys(before, recorded);
    AssignAllGet(before, recorded, k);
  }

  /** A key under which every entry is empty is never assigned. */
  lemma AbsentKeyNotPaired<T>(ks: seq<string>, es: seq<seq<T>>, k: string)
    requires |ks| == |es|
    requires forall i :: 0 <= i < |ks| && ks[i] == k ==> es[i] == []
    ensures k !in Keys(NonEmptyPairs(ks, es))
  {
    var kvs := NonEmptyPairs(ks, es);
    NonEmptyPairsFrom(ks, es);
    forall p | 0 <= p < |kvs|
      ensures Keys(kvs)[p] != k
    {
      var i :| 0 <= i < |ks| && kvs[p] == (ks[i], es[i]) && es[i] != [];
    }
  }

  /** An article whose reply does not parse in this run, with no other article of the map
      sharing its hash and recording, leaves in the saved map the entry an earlier run stored
      under that hash. */
  lemma StaleEntrySaved(b: Batch, contentMap: seq<(string, string)>, before: seq<(string, Dict)>, j: nat)
    requires j < |contentMap| && LegacyPairs(b, contentMap).Returns?
    requires forall i :: 0 <= i < |contentMap| && b.env.hash(contentMap[i].0) == b.env.hash(contentMap[j].0) ==>
               LegacyEntry(b, contentMap[i].0, contentMap[i].1) == Returns(None)
    ensures Get(AssignAll(before, LegacyPairs(b, contentMap).value), b.env.hash(contentMap[j].0))
            == Get(before, b.env.hash(contentMap[j].0))
  {
    var k := b.env.hash(contentMap[j].0);
    var ks, es := Hashes(b, contentMap), LegacyEntries(b, contentMap);
    LegacyPairsSpec(b, contentMap);
    forall i | 0 <= i < |ks| && ks[i] == k
      ensures Records(es)[i] == []
    {
      assert es[i] == LegacyEntry(b, contentMap[i].0, contentMap[i].1);
    }
    AbsentKeyNotPaired(ks, Records(es), k);
    RunLeaks(before, LegacyPairs(b, contentMap).value, k);
  }
}

=== FILE: model_metrics.dfy ===
/** generate_model_metrics.py: the saved runs of one model grouped by article key, and the
    per-article metrics computed from each group. */
module ModelMetrics {
  import opened JsonValues
  import opened PyStrings
  import opened Rounding

  // ---------------------------------------------------------------------------
  // extract_model_name

  /** os.path.basename(path).replace(":", "_"). */
  function ExtractModelName(path: string): (name: string)
    ensures ':' !in name && '/' !in name
    ensures |name| <= |path|
  {
    ReplaceColons(Basename(path))
  }

  /** Replacing the colons of a text that has none changes nothing. */
  lemma ReplaceColonsIdempotent(s: string)
    ensures ReplaceColons(ReplaceColons(s)) == ReplaceColons(s)
  {
  }

  /** The model directories are `folder/<model with '_' for ':'>`, and the name read back from
      such a directory is the model name with its colons replaced. */
  lemma ExtractModelNameOfPath(folder: string, model: string)
    requires '/' !in model
    ensures ExtractModelName(PathJoin(folder, ReplaceColons(model))) == ReplaceColons(model)
    ensures Basename(PathJoin(folder, ReplaceColons(model))) == ReplaceColons(model)
  {
    var name := ReplaceColons(model);
    assert '/' !in name by {
      forall i | 0 <= i < |name|
        ensures name[i] != '/'
      {
        assert model[i] != '/';
      }
    }
    if folder == [] || folder[|folder| - 1] == '/' {
      BasenameOfJoin(folder, name);
    } else {
      BasenameOfJoin(folder + "/", name);
      assert folder + "/" + name == (folder + "/") + name;
    }
    ReplaceColonsIdempotent(model);
  }

  // ---------------------------------------------------------------------------
  // aggregate_sentiments

  /** data["sentiments"].items() for one loaded run: the run must be an object whose
      "sentiments" value is an object; otherwise the subscript or .items() raises. */
  function RunSentiments(run: Json): Outcome<seq<(string, Json)>> {
    if run.Obj? then
      var v: Option<Json> := Get(run.fields, "sentiments");
      if v.Some? && v.value.Obj? then Returns(v.value.fields) else Raises
    else Raises
  }

  /** Every run holds a "sentiments" object. */
  predicate WellFormedRuns(runs: seq<Json>) {
    forall i :: 0 <= i < |runs| ==> RunSentiments(runs[i]).Returns?
  }

  /** The "sentiments" map of each run. */
  function Maps(runs: seq<Json>): (ms: seq<seq<(string, Json)>>)
    requires WellFormedRuns(runs)
    ensures |ms| == |runs|
  {
    seq(|runs|, i requires 0 <= i < |runs| => RunSentiments(runs[i]).value)
  }

  /** The sequences one after the other. */
  function Concat<T>(xss: seq<seq<T>>): seq<T>
    decreases |xss|
  {
    if xss == [] then [] else Concat(xss[..|xss| - 1]) + xss[|xss| - 1]
  }

  /** Every (key, sentiment) pair of the runs, run after run, each run's pairs in map order;
      Raises when some run has no "sentiments" object, on which the loop stops. */
  function AllPairs(runs: seq<Json>): Outcome<seq<(string, Json)>> {
    if WellFormedRuns(runs) then Returns(Concat(Maps(runs))) else Raises
  }

  /** aggregated_data[key].append(sentiment) on a defaultdict(list). */
  function AppendTo(agg: seq<(string, seq<Json>)>, key: string, sentiment: Json): seq<(string, seq<Json>)> {
    Assign(agg, key, GetOr(agg, key, []) + [sentiment])
  }

  /** The grouped dict after appending every pair in turn. */
  function Group(pairs: seq<(string, Json)>): seq<(string, seq<Json>)>
    decreases |pairs|
  {
    if pairs == [] then []
    else
      var n := |pairs| - 1;
      AppendTo(Group(pairs[..n]), pairs[n].0, pairs[n].1)
  }

  function AggregateOf(runs: seq<Json>): Outcome<seq<(string, seq<Json>)>> {
    match AllPairs(runs)
    case Raises => Raises
    case Returns(p) => Returns(Group(p))
  }

  lemma ConcatSnoc<T>(xss: seq<seq<T>>, xs: seq<T>)
    ensures Concat(xss + [xs]) == Concat(xss) + xs
  {
    assert (xss + [xs])[..|xss|] == xss;
  }

  lemma MapsPrefix(runs: seq<Json>, i: nat)
    requires i <= |runs| && WellFormedRuns(runs)
    ensures WellFormedRuns(runs[..i]) && Maps(runs[..i]) == Maps(runs)[..i]
  {
    assert forall k :: 0 <= k < i ==> runs[..i][k] == runs[k];
  }

  lemma AllPairsSnoc(runs: seq<Json>, i: nat)
    requires i < |runs|
    ensures AllPairs(runs[..i + 1])
         == match AllPairs(runs[..i])
            case Raises => Raises
            case Returns(p) =>
              match RunSentiments(runs[i])
              case Raises => Raises
              case Returns(m) => Returns(p + m)
  {
    var q := runs[..i + 1];
    assert q[..i] == runs[..i] && q[i] == runs[i];
    if WellFormedRuns(q) {
      MapsPrefix(q, i);
      assert Maps(q) == Maps(q)[..i] + [RunSentiments(runs[i]).value];
      ConcatSnoc(Maps(q)[..i], RunSentiments(runs[i]).value);
    } else if WellFormedRuns(runs[..i]) {
      forall k | 0 <= k < i
        ensures RunSentiments(q[k]).Returns?
      {
        assert q[k] == runs[..i][k];
      }
    }
  }

  /** Once the loop has raised, it has raised for all the runs. */
  lemma AllPairsRaises(runs: seq<Json>, i: nat)
    requires i <= |runs| && AllPairs(runs[..i]) == Raises
    ensures AllPairs(runs) == Raises
  {
    var k :| 0 <= k < i && RunSentiments(runs[..i][k]).Raises?;
    assert runs[..i][k] == runs[k];
  }

  lemma GroupSnoc(pairs: seq<(string, Json)>, x: (string, Json))
    ensures Group(pairs + [x]) == AppendTo(Group(pairs), x.0, x.1)
  {
    assert (pairs + [x])[..|pairs|] == pairs;
  }

  lemma AppendTake<T>(a: seq<T>, m: seq<T>, j: nat)
    requires j < |m|
    ensures a + m[..j + 1] == (a + m[..j]) + [m[j]]
  {
  }

  /** One pass of the inner loop of aggregate_sentiments. */
  lemma GroupStep(before: seq<(string, Json)>, m: seq<(string, Json)>, j: nat)
    requires j < |m|
    ensures Group(before + m[..j + 1]) == AppendTo(Group(before + m[..j]), m[j].0, m[j].1)
  {
    AppendTake(before, m, j);
    GroupSnoc(before + m[..j], m[j]);
  }

  /** The inner loop of aggregate_sentiments: appends each (key, sentiment) of one run's map
      to the key's list. */
  method GroupRun(aggregated: seq<(string, seq<Json>)>, ghost before: seq<(string, Json)>, m: seq<(string, Json)>)
    returns (updated: seq<(string, seq<Json>)>)
    requires aggregated == Group(before)
    ensures updated == Group(before + m)
  {
    updated := aggregated;
    var j := 0;
    assert before + m[..j] == before;
    while j < |m|
      invariant 0 <= j <= |m|
      invariant updated == Group(before + m[..j])
    {
      GroupStep(before, m, j);
      updated := AppendTo(updated, m[j].0, m[j].1);
      j := j + 1;
    }
    assert m[..j] == m;
  }

  /** aggregate_sentiments: for each run, for each (key, sentiment) of its map, append the
      sentiment to the key's list. */
  method AggregateSentiments(runs: seq<Json>) returns (agg: Outcome<seq<(string, seq<Json>)>>)
    ensures agg == AggregateOf(runs)
  {
    var aggregated: seq<(string, seq<Json>)> := [];
    ghost var done: seq<(string, Json)> := [];
    var i := 0;
    while i < |runs|
      invariant 0 <= i <= |runs|
      invariant AllPairs(runs[..i]) == Returns(done)
      invariant aggregated == Group(done)
    {
      AllPairsSnoc(runs, i);
      var items := RunSentiments(runs[i]);
      if items.Raises? {
        AllPairsRaises(runs, i + 1);
        return Raises;
      }
      aggregated := GroupRun(aggregated, done, items.value);
      done := done + items.value;
      i := i + 1;
    }
    assert runs[..i] == runs;
    return Returns(aggregated);
  }

  /** len(data["sentiments"]) for a run that has one. */
  function MapSize(run: Json): nat {
    match RunSentiments(run)
    case Returns(m) => |m|
    case Raises => 0
  }

  function SumSizes(runs: seq<Json>): nat
    decreases |runs|
  {
    if runs == [] then 0 else SumSizes(runs[..|runs| - 1]) + MapSize(runs[|runs| - 1])
  }

  /** The loading loop succeeds exactly when every run holds a "sentiments" object, and then
      it yields as many pairs as the runs' maps hold together. */
  lemma {:induction false} AllPairsSpec(runs: seq<Json>)
    ensures AllPairs(runs).Returns? <==> WellFormedRuns(runs)
    ensures AllPairs(runs).Returns? ==> |AllPairs(runs).value| == SumSizes(runs)
    decreases |runs|
  {
    if runs != [] && WellFormedRuns(runs) {
      var n := |runs| - 1;
      MapsPrefix(runs, n);
      AllPairsSpec(runs[..n]);
      AllPairsSnoc(runs, n);
      assert runs[..n + 1] == runs;
    }
  }

  /** The first sequences' elements start the concatenation. */
  lemma {:induction false} ConcatPrefix<T>(xss: seq<seq<T>>, i: nat)
    requires i <= |xss|
    ensures |Concat(xss[..i])| <= |Concat(xss)|
    ensures Concat(xss)[..|Concat(xss[..i])|] == Concat(xss[..i])
    decreases |xss|
  {
    if i < |xss| {
      var n := |xss| - 1;
      assert xss[..n][..i] == xss[..i];
      ConcatPrefix(xss[..n], i);
    } else {
      assert xss[..i] == xss;
    }
  }

  lemma PrefixIndex<T>(whole: seq<T>, p: seq<T>, m: seq<T>, j: nat)
    requires |p + m| <= |whole| && whole[..|p + m|] == p + m && j < |m|
    ensures |p| + j < |whole| && whole[|p| + j] == m[j]
  {
    assert whole[..|p + m|][|p| + j] == (p + m)[|p| + j];
  }

  /** Element j of sequence r sits after the elements of the sequences before it. */
  lemma ConcatIndex<T>(xss: seq<seq<T>>, r: nat, j: nat)
    requires r < |xss| && j < |xss[r]|
    ensures |Concat(xss[..r])| + j < |Concat(xss)|
    ensures Concat(xss)[|Concat(xss[..r])| + j] == xss[r][j]
  {
    ConcatPrefix(xss, r + 1);
    assert xss[..r + 1] == xss[..r] + [xss[r]];
    ConcatSnoc(xss[..r], xss[r]);
    PrefixIndex(Concat(xss), Concat(xss[..r]), xss[r], j);
  }

  /** Run r's j-th pair sits after all pairs of the runs before it. */
  lemma AllPairsIndex(runs: seq<Json>, r: nat, j: nat)
    requires r < |runs| && AllPairs(runs).Returns?
    requires RunSentiments(runs[r]).Returns? && j < |RunSentiments(runs[r]).value|
    ensures AllPairs(runs[..r]).Returns?
    ensures |AllPairs(runs[..r]).value| + j < |AllPairs(runs).value|
    ensures AllPairs(runs).value[|AllPairs(runs[..r]).value| + j] == RunSentiments(runs[r]).value[j]
  {
    MapsPrefix(runs, r);
    ConcatIndex(Maps(runs), r, j);
  }

  // Group: keys, values and size

  /** The values of the pairs with key k, in order. */
  function ValuesFor(pairs: seq<(string, Json)>, k: string): seq<Json>
    decreases |pairs|
  {
    if pairs == [] then []
    else
      var n := |pairs| - 1;
      if pairs[n].0 == k then ValuesFor(pairs[..n], k) + [pairs[n].1] else ValuesFor(pairs[..n], k)
  }

  lemma KeysLast<V>(d: seq<(string, V)>)
    requires d != []
    ensures Keys(d) == Keys(d[..|d| - 1]) + [d[|d| - 1].0]
  {
    KeysPrefix(d, |d| - 1);
  }

  /** Assigning under key k grows the keys the way Dedup grows with k. */
  lemma AssignDedupStep<V>(d: seq<(string, V)>, k: string, v: V, xs: seq<string>)
    requires Keys(d) == Dedup(xs)
    ensures Keys(Assign(d, k, v)) == Dedup(xs + [k])
  {
    assert (xs + [k])[..|xs|] == xs;
  }

  lemma {:induction false} GroupKeys(pairs: seq<(string, Json)>)
    ensures Keys(Group(pairs)) == Dedup(Keys(pairs))
    decreases |pairs|
  {
    if pairs != [] {
      var n := |pairs| - 1;
      GroupKeys(pairs[..n]);
      KeysLast(pairs);
      AssignDedupStep(Group(pairs[..n]), pairs[n].0, GetOr(Group(pairs[..n]), pairs[n].0, []) + [pairs[n].1],
                      Keys(pairs[..n]));
    }
  }

  lemma {:induction false} GroupValues(pairs: seq<(string, Json)>, k: string)
    ensures Get(Group(pairs), k) == if k in Keys(pairs) then Some(ValuesFor(pairs, k)) else None
    decreases |pairs|
  {
    if pairs != [] {
      var n := |pairs| - 1;
      GroupValues(pairs[..n], k);
      KeysLast(pairs);
      var g := Group(pairs[..n]);
      if pairs[n].0 != k {
        AssignOther(g, pairs[n].0, GetOr(g, pairs[n].0, []) + [pairs[n].1], k);
      } else if k !in Keys(pairs[..n]) {
        ValuesForAbsent(pairs[..n], k);
      }
    }
  }

  lemma {:induction false} ValuesForAbsent(pairs: seq<(string, Json)>, k: string)
    requires k !in Keys(pairs)
    ensures ValuesFor(pairs, k) == []
    decreases |pairs|
  {
    if pairs != [] {
      var n := |pairs| - 1;
      KeysLast(pairs);
      ValuesForAbsent(pairs[..n], k);
    }
  }

  /** The number of sentiments held in a grouped dict. */
  function TotalSize(agg: seq<(string, seq<Json>)>): nat
    decreases |agg|
  {
    if agg == [] then 0 else TotalSize(agg[..|agg| - 1]) + |agg[|agg| - 1].1|
  }

  lemma {:induction false} TotalSizeUpdate(agg: seq<(string, seq<Json>)>, i: nat, x: (string, seq<Json>))
    requires i < |agg|
    ensures TotalSize(agg[i := x]) + |agg[i].1| == TotalSize(agg) + |x.1|
    decreases |agg|
  {
    var n := |agg| - 1;
    if i < n {
      assert agg[i := x][..n] == agg[..n][i := x];
      TotalSizeUpdate(agg[..n], i, x);
    } else {
      assert agg[i := x][..n] == agg[..n];
    }
  }

  lemma AppendToSize(agg: seq<(string, seq<Json>)>, key: string, sentiment: Json)
    ensures TotalSize(AppendTo(agg, key, sentiment)) == TotalSize(agg) + 1
  {
    var i := Find(agg, key);
    if i < |agg| {
      TotalSizeUpdate(agg, i, (key, agg[i].1 + [sentiment]));
    } else {
      assert (agg + [(key, [sentiment])])[..|agg|] == agg;
    }
  }

  lemma {:induction false} GroupSize(pairs: seq<(string, Json)>)
    ensures TotalSize(Group(pairs)) == |pairs|
    decreases |pairs|
  {
    if pairs != [] {
      var n := |pairs| - 1;
      GroupSize(pairs[..n]);
      AppendToSize(Group(pairs[..n]), pairs[n].0, pairs[n].1);
    }
  }

  /** aggregate_sentiments: it raises exactly when some run lacks a "sentiments" object; otherwise
      its keys are the article keys in order of first appearance, each key's list holds that
      key's sentiments in run order, and the lists together hold as many sentiments as the runs'
      maps. */
  lemma AggregateSentimentsProperties(runs: seq<Json>, k: string)
    ensures AggregateOf(runs).Returns? <==> WellFormedRuns(runs)
    ensures AggregateOf(runs).Returns? ==>
              var p := AllPairs(runs).value;
              var agg := AggregateOf(runs).value;
              && Keys(agg) == Dedup(Keys(p))
              && Get(agg, k) == (if k in Keys(p) then Some(ValuesFor(p, k)) else None)
              && TotalSize(agg) == SumSizes(runs)
  {
    AllPairsSpec(runs);
    if AllPairs(runs).Returns? {
      var p := AllPairs(runs).value;
      GroupKeys(p);
      GroupValues(p, k);
      GroupSize(p);
    }
  }

  /** One entry per run containing the key: when each run's map has distinct keys, the list of
      key k holds, in run order, the entry of each run whose map holds k. */
  function PerRun(runs: seq<Json>, k: string): seq<Json>
    decreases |runs|
  {
    if runs == [] then []
    else
      var n := |runs| - 1;
      var m := RunSentiments(runs[n]);
      if m.Returns? && Get(m.value, k).Some? then PerRun(runs[..n], k) + [Get(m.value, k).value]
      else PerRun(runs[..n], k)
  }

  lemma {:induction false} ValuesForAppend(p1: seq<(string, Json)>, p2: seq<(string, Json)>, k: string)
    ensures ValuesFor(p1 + p2, k) == ValuesFor(p1, k) + ValuesFor(p2, k)
    decreases |p2|
  {
    if p2 != [] {
      var n := |p2| - 1;
      assert (p1 + p2)[..|p1 + p2| - 1] == p1 + p2[..n];
      ValuesForAppend(p1, p2[..n], k);
    } else {
      assert p1 + p2 == p1;
    }
  }

  lemma {:induction false} ValuesForDistinct(m: seq<(string, Json)>, k: string)
    requires Distinct(Keys(m))
    ensures ValuesFor(m, k) == match Get(m, k) case Some(v) => [v] case None => []
    decreases |m|
  {
    if m != [] {
      var n := |m| - 1;
      KeysLast(m);
      KeysPrefix(m, n);
      ValuesForDistinct(m[..n], k);
      if m[n].0 == k {
        assert k !in Keys(m[..n]) by {
          forall i | 0 <= i < n
            ensures Keys(m[..n])[i] != k
          {
            assert Keys(m)[i] != Keys(m)[n];
          }
        }
        ValuesForAbsent(m[..n], k);
        FindFirst(m, k, n);
      } else if k in Keys(m[..n]) {
        FindFirst(m, k, Find(m[..n], k));
      }
    }
  }

  lemma {:induction false} ValuesPerRun(runs: seq<Json>, k: string)
    requires WellFormedRuns(runs)
    requires forall i :: 0 <= i < |runs| ==> Distinct(Keys(RunSentiments(runs[i]).value))
    ensures AllPairs(runs).Returns?
    ensures ValuesFor(AllPairs(runs).value, k) == PerRun(runs, k)
    decreases |runs|
  {
    AllPairsSpec(runs);
    if runs != [] {
      var n := |runs| - 1;
      assert forall i :: 0 <= i < n ==> runs[..n][i] == runs[i];
      ValuesPerRun(runs[..n], k);
      var m := RunSentiments(runs[n]).value;
      AllPairsSnoc(runs, n);
      assert runs[..n + 1] == runs;
      ValuesForAppend(AllPairs(runs[..n]).value, m, k);
      ValuesForDistinct(m, k);
    }
  }

  // ---------------------------------------------------------------------------
  // compute_metrics_per_article

  /** sentiment[name] on one grouped entry: KeyError when the key is missing, TypeError when
      the entry is not an object. */
  function Field(s: Json, name: string): Outcome<Json> {
    if s.Obj? && name in Keys(s.fields) then Returns(Get(s.fields, name).value) else Raises
  }

  /** metrics[key]: the four lists the first loop appends to. */
  datatype Collected = Collected(times: seq<Json>, scores: seq<Json>, confidences: seq<Json>, valids: seq<Json>)

  const NoneCollected := Collected([], [], [], [])

  /** sentiment[name] where the key is known to be there; Null stands in elsewhere. */
  function FieldOr(s: Json, name: string): Json {
    if s.Obj? && name in Keys(s.fields) then Get(s.fields, name).value else Null
  }

  /** An entry the inner loop gets through: it has "valid", and when that is truthy it has the
      three scores too. Any other entry raises KeyError or TypeError. */
  predicate Collectible(s: Json) {
    Field(s, "valid").Returns? &&
      (Truthy(Field(s, "valid").value) ==>
         Field(s, "time_taken").Returns? && Field(s, "sentiment").Returns? && Field(s, "confidence").Returns?)
  }

  /** One pass of the inner loop on a collectible entry: an entry whose "valid" is truthy adds
      its time, sentiment and confidence; every entry adds its "valid". */
  function Add(c: Collected, s: Json): Collected {
    var v := FieldOr(s, "valid");
    if Truthy(v) then
      Collected(c.times + [FieldOr(s, "time_taken")], c.scores + [FieldOr(s, "sentiment")],
                c.confidences + [FieldOr(s, "confidence")], c.valids + [v])
    else c.(valids := c.valids + [v])
  }

  predicate AllCollectible(pairs: seq<(string, Json)>) {
    forall i :: 0 <= i < |pairs| ==> Collectible(pairs[i].1)
  }

  /** The (key, sentiment) pairs in the order the two loops visit them. */
  function Tag(key: string, sentiments: seq<Json>): (ps: seq<(string, Json)>)
    ensures |ps| == |sentiments|
  {
    seq(|sentiments|, i requires 0 <= i < |sentiments| => (key, sentiments[i]))
  }

  function Flatten(aggregated: seq<(string, seq<Json>)>): seq<(string, Json)>
    decreases |aggregated|
  {
    if aggregated == [] then []
    else
      var n := |aggregated| - 1;
      Flatten(aggregated[..n]) + Tag(aggregated[n].0, aggregated[n].1)
  }

  /** The defaultdict after the first loop has gone through the given pairs. */
  function Gather(pairs: seq<(string, Json)>): seq<(string, Collected)>
    decreases |pairs|
  {
    if pairs == [] then []
    else
      var n := |pairs| - 1;
      var m := Gather(pairs[..n]);
      Assign(m, pairs[n].0, Add(GetOr(m, pairs[n].0, NoneCollected), pairs[n].1))
  }

  /** The metrics of one article. */
  datatype ArticleMetrics = ArticleMetrics(inferenceRate: real, validJsonRate: real, sentimentVariance: real,
                                           meanSentiment: real, meanConfidence: real)

  /** The values as numbers (True is 1, False is 0), or None when one of them is not a number,
      on which sum and numpy raise. */
  function Numbers(xs: seq<Json>): (r: Option<seq<real>>)
    ensures r.Some? ==> |r.value| == |xs|
    decreases |xs|
  {
    if xs == [] then Some([])
    else
      var n := |xs| - 1;
      match Numbers(xs[..n])
      case None => None
      case Some(p) => (match Arith(xs[n]) case Some(x) => Some(p + [x]) case None => None)
  }

  function Sum(xs: seq<real>): real
    decreases |xs|
  {
    if xs == [] then 0.0 else Sum(xs[..|xs| - 1]) + xs[|xs| - 1]
  }

  /** np.mean. */
  function Mean(xs: seq<real>): real
    requires xs != []
  {
    Sum(xs) / |xs| as real
  }

  /** np.var: the mean squared deviation from the mean. */
  function Variance(xs: seq<real>): real
    requires xs != []
  {
    var m := Mean(xs);
    Mean(seq(|xs|, i requires 0 <= i < |xs| => (xs[i] - m) * (xs[i] - m)))
  }

  /** One value of aggregated_metrics: each statistic rounded to 2 places, 0 for an empty list,
      and valid_json_rate the sum of the "valid" flags over their number. */
  function MetricsOf(c: Collected): Outcome<ArticleMetrics> {
    var vs, ts, ss, cs := Numbers(c.valids), Numbers(c.times), Numbers(c.scores), Numbers(c.confidences);
    if vs.None? || ts.None? || ss.None? || cs.None? then Raises
    else
      Returns(ArticleMetrics(
        if ts.value != [] then Round2(Mean(ts.value)) else 0.0,
        if |vs.value| > 0 then Round2(Sum(vs.value) / |vs.value| as real) else 0.0,
        if ss.value != [] then Round2(Variance(ss.value)) else 0.0,
        if ss.value != [] then Round2(Mean(ss.value)) else 0.0,
        if cs.value != [] then Round2(Mean(cs.value)) else 0.0))
  }

  predicate AllMetrics(m: seq<(string, Collected)>) {
    forall i :: 0 <= i < |m| ==> MetricsOf(m[i].1).Returns?
  }

  /** aggregated_metrics after the second loop, when no key's statistics raise. */
  function MetricsAll(m: seq<(string, Collected)>): seq<(string, ArticleMetrics)>
    requires AllMetrics(m)
    decreases |m|
  {
    if m == [] then []
    else
      var n := |m| - 1;
      Assign(MetricsAll(m[..n]), m[n].0, MetricsOf(m[n].1).value)
  }

  /** compute_metrics_per_article's result, or Raises. */
  function MetricsPerArticle(aggregated: seq<(string, seq<Json>)>): Outcome<seq<(string, ArticleMetrics)>> {
    var pairs := Flatten(aggregated);
    if !AllCollectible(pairs) then Raises
    else
      var m := Gather(pairs);
      if AllMetrics(m) then Returns(MetricsAll(m)) else Raises
  }

  lemma TagSnoc(key: string, sentiments: seq<Json>, j: nat)
    requires j < |sentiments|
    ensures Tag(key, sentiments[..j + 1]) == Tag(key, sentiments[..j]) + [(key, sentiments[j])]
  {
  }

  lemma FlattenSnoc(aggregated: seq<(string, seq<Json>)>, i: nat)
    requires i < |aggregated|
    ensures Flatten(aggregated[..i + 1]) == Flatten(aggregated[..i]) + Tag(aggregated[i].0, aggregated[i].1)
  {
    assert aggregated[..i + 1][..i] == aggregated[..i];
  }

  lemma {:induction false} FlattenPrefix(aggregated: seq<(string, seq<Json>)>, i: nat)
    requires i <= |aggregated|
    ensures |Flatten(aggregated[..i])| <= |Flatten(aggregated)|
    ensures Flatten(aggregated)[..|Flatten(aggregated[..i])|] == Flatten(aggregated[..i])
    decreases |aggregated|
  {
    if i < |aggregated| {
      var n := |aggregated| - 1;
      assert aggregated[..n][..i] == aggregated[..i];
      FlattenPrefix(aggregated[..n], i);
    } else {
      assert aggregated[..i] == aggregated;
    }
  }

  lemma GatherSnoc(pairs: seq<(string, Json)>, key: string, s: Json)
    ensures Gather(pairs + [(key, s)])
         == Assign(Gather(pairs), key, Add(GetOr(Gather(pairs), key, NoneCollected), s))
  {
    assert (pairs + [(key, s)])[..|pairs|] == pairs;
  }

  lemma MetricsAllSnoc(m: seq<(string, Collected)>, k: nat)
    requires k < |m| && AllMetrics(m[..k]) && MetricsOf(m[k].1).Returns?
    ensures AllMetrics(m[..k + 1])
    ensures MetricsAll(m[..k + 1]) == Assign(MetricsAll(m[..k]), m[k].0, MetricsOf(m[k].1).value)
  {
    var p := m[..k + 1];
    forall i | 0 <= i < k + 1
      ensures MetricsOf(p[i].1).Returns?
    {
      if i < k {
        assert p[i] == m[..k][i];
      }
    }
    assert p[..k] == m[..k];
  }

  /** One pass of the inner loop: ok when the entry has the keys it is read for, and then the
      key's lists have its fields appended. */
  method CollectEntry(metrics: seq<(string, Collected)>, key: string, sentiment: Json)
    returns (ok: bool, updated: seq<(string, Collected)>)
    ensures ok <==> Collectible(sentiment)
    ensures ok ==> updated == Assign(metrics, key, Add(GetOr(metrics, key, NoneCollected), sentiment))
  {
    updated := metrics;
    var valid := Field(sentiment, "valid");
    if valid.Raises? {
      return false, updated;
    }
    var entry := GetOr(metrics, key, NoneCollected);
    if Truthy(valid.value) {
      var timeTaken := Field(sentiment, "time_taken");
      var score := Field(sentiment, "sentiment");
      var confidence := Field(sentiment, "confidence");
      if timeTaken.Raises? || score.Raises? || confidence.Raises? {
        return false, updated;
      }
      entry := Collected(entry.times + [timeTaken.value], entry.scores + [score.value],
                         entry.confidences + [confidence.value], entry.valids + [valid.value]);
    } else {
      entry := entry.(valids := entry.valids + [valid.value]);
    }
    updated := Assign(metrics, key, entry);
    ok := true;
  }

  lemma AllCollectibleSnoc(pairs: seq<(string, Json)>, x: (string, Json))
    requires AllCollectible(pairs) && Collectible(x.1)
    ensures AllCollectible(pairs + [x])
  {
    assert forall i :: 0 <= i < |pairs| ==> (pairs + [x])[i] == pairs[i];
  }

  lemma AllCollectiblePrefix(pairs: seq<(string, Json)>, n: nat)
    requires n <= |pairs| && !AllCollectible(pairs[..n])
    ensures !AllCollectible(pairs)
  {
    var i :| 0 <= i < n && !Collectible(pairs[..n][i].1);
    assert pairs[..n][i] == pairs[i];
  }

  lemma TagStep(before: seq<(string, Json)>, key: string, sentiments: seq<Json>, j: nat)
    requires j < |sentiments|
    ensures before + Tag(key, sentiments[..j + 1]) == (before + Tag(key, sentiments[..j])) + [(key, sentiments[j])]
  {
    TagSnoc(key, sentiments, j);
  }

  lemma TagIndex(before: seq<(string, Json)>, key: string, sentiments: seq<Json>, j: nat)
    requires j < |sentiments|
    ensures |before| + j < |before + Tag(key, sentiments)|
    ensures (before + Tag(key, sentiments))[|before| + j] == (key, sentiments[j])
  {
  }

  /** The inner loop of compute_metrics_per_article over one article's entries: ok when it gets
      through all of them, and then the lists with their fields appended. */
  method CollectArticle(metrics: seq<(string, Collected)>, ghost before: seq<(string, Json)>,
                        key: string, sentiments: seq<Json>)
    returns (ok: bool, updated: seq<(string, Collected)>)
    requires AllCollectible(before) && metrics == Gather(before)
    ensures ok <==> AllCollectible(before + Tag(key, sentiments))
    ensures ok ==> updated == Gather(before + Tag(key, sentiments))
  {
    updated := metrics;
    var j := 0;
    assert before + Tag(key, sentiments[..j]) == before;
    while j < |sentiments|
      invariant 0 <= j <= |sentiments|
      invariant AllCollectible(before + Tag(key, sentiments[..j]))
      invariant updated == Gather(before + Tag(key, sentiments[..j]))
    {
      var entryOk, next := CollectEntry(updated, key, sentiments[j]);
      if !entryOk {
        TagIndex(before, key, sentiments, j);
        return false, updated;
      }
      TagStep(before, key, sentiments, j);
      AllCollectibleSnoc(before + Tag(key, sentiments[..j]), (key, sentiments[j]));
      GatherSnoc(before + Tag(key, sentiments[..j]), key, sentiments[j]);
      updated := next;
      j := j + 1;
    }
    assert sentiments[..j] == sentiments;
    ok := true;
  }

  /** The first loop of compute_metrics_per_article: ok when it gets through every entry, and
      then the lists it gathered. */
  method CollectAll(aggregated: seq<(string, seq<Json>)>) returns (ok: bool, metrics: seq<(string, Collected)>)
    ensures ok <==> AllCollectible(Flatten(aggregated))
    ensures ok ==> metrics == Gather(Flatten(aggregated))
  {
    metrics := [];
    var i := 0;
    while i < |aggregated|
      invariant 0 <= i <= |aggregated|
      invariant AllCollectible(Flatten(aggregated[..i])) && metrics == Gather(Flatten(aggregated[..i]))
    {
      FlattenSnoc(aggregated, i);
      var articleOk, updated := CollectArticle(metrics, Flatten(aggregated[..i]), aggregated[i].0, aggregated[i].1);
      if !articleOk {
        FlattenPrefix(aggregated, i + 1);
        AllCollectiblePrefix(Flatten(aggregated), |Flatten(aggregated[..i + 1])|);
        return false, metrics;
      }
      metrics := updated;
      i := i + 1;
    }
    assert aggregated[..i] == aggregated;
    ok := true;
  }

  /** The second loop of compute_metrics_per_article: each key's metrics, or Raises when some
      key's lists hold a value that is not a number. */
  method SummarizeAll(metrics: seq<(string, Collected)>) returns (r: Outcome<seq<(string, ArticleMetrics)>>)
    ensures r == if AllMetrics(metrics) then Returns(MetricsAll(metrics)) else Raises
  {
    var aggregatedMetrics: seq<(string, ArticleMetrics)> := [];
    var k := 0;
    while k < |metrics|
      invariant 0 <= k <= |metrics|
      invariant AllMetrics(metrics[..k]) && aggregatedMetrics == MetricsAll(metrics[..k])
    {
      var values := MetricsOf(metrics[k].1);
      if values.Raises? {
        return Raises;
      }
      MetricsAllSnoc(metrics, k);
      aggregatedMetrics := Assign(aggregatedMetrics, metrics[k].0, values.value);
      k := k + 1;
    }
    assert metrics[..k] == metrics;
    return Returns(aggregatedMetrics);
  }

  /** compute_metrics_per_article: the first loop appends every entry's fields under its key,
      the second turns each key's lists into its metrics. */
  method ComputeMetricsPerArticle(aggregated: seq<(string, seq<Json>)>)
    returns (r: Outcome<seq<(string, ArticleMetrics)>>)
    ensures r == MetricsPerArticle(aggregated)
  {
    var ok, metrics := CollectAll(aggregated);
    if !ok {
      return Raises;
    }
    r := SummarizeAll(metrics);
  }

  // ---------------------------------------------------------------------------
  // What compute_metrics_per_article computes, key by key

  /** An entry counted as valid: its "valid" is truthy. */
  predicate IsValid(s: Json) {
    Truthy(FieldOr(s, "valid"))
  }

  /** The entries counted as valid, in order. */
  function ValidOnes(ss: seq<Json>): (vs: seq<Json>)
    ensures |vs| <= |ss|
    decreases |ss|
  {
    if ss == [] then []
    else
      var n := |ss| - 1;
      if IsValid(ss[n]) then ValidOnes(ss[..n]) + [ss[n]] else ValidOnes(ss[..n])
  }

  /** The named field of each entry. */
  function Column(ss: seq<Json>, name: string): (c: seq<Json>)
    ensures |c| == |ss|
  {
    seq(|ss|, i requires 0 <= i < |ss| => FieldOr(ss[i], name))
  }

  /** The lists one key ends up with, column by column: the time, sentiment and confidence of
      its valid entries only, and the "valid" of every entry. */
  function Gathered(ss: seq<Json>): Collected {
    var vs := ValidOnes(ss);
    Collected(Column(vs, "time_taken"), Column(vs, "sentiment"), Column(vs, "confidence"), Column(ss, "valid"))
  }

  lemma ColumnSnoc(ss: seq<Json>, s: Json, name: string)
    ensures Column(ss + [s], name) == Column(ss, name) + [FieldOr(s, name)]
  {
  }

  lemma GatheredSnoc(ss: seq<Json>, s: Json)
    ensures Gathered(ss + [s]) == Add(Gathered(ss), s)
  {
    assert (ss + [s])[..|ss|] == ss;
    var vs := ValidOnes(ss);
    ColumnSnoc(ss, s, "valid");
    if IsValid(s) {
      ColumnSnoc(vs, s, "time_taken");
      ColumnSnoc(vs, s, "sentiment");
      ColumnSnoc(vs, s, "confidence");
    }
  }

  /** An invalid entry lengthens only the "valid" list; a valid one lengthens all four, each
      with its own field. */
  lemma GatheredEntry(ss: seq<Json>, s: Json)
    ensures var before, after := Gathered(ss), Gathered(ss + [s]);
            && after.valids == before.valids + [FieldOr(s, "valid")]
            && (!IsValid(s) ==> after.times == before.times && after.scores == before.scores
                                && after.confidences == before.confidences)
            && (IsValid(s) ==> after.times == before.times + [FieldOr(s, "time_taken")]
                               && after.scores == before.scores + [FieldOr(s, "sentiment")]
                               && after.confidences == before.confidences + [FieldOr(s, "confidence")])
  {
    GatheredSnoc(ss, s);
  }

  /** The first loop keeps the keys in order of first appearance. */
  lemma {:induction false} GatherKeys(pairs: seq<(string, Json)>)
    ensures Keys(Gather(pairs)) == Dedup(Keys(pairs))
    decreases |pairs|
  {
    if pairs != [] {
      var n := |pairs| - 1;
      var g := Gather(pairs[..n]);
      GatherKeys(pairs[..n]);
      KeysLast(pairs);
      AssignDedupStep(g, pairs[n].0, Add(GetOr(g, pairs[n].0, NoneCollected), pairs[n].1), Keys(pairs[..n]));
    }
  }

  /** The first loop gives each key exactly the lists Gathered describes for that key's entries:
      an invalid entry adds to "valid" only. */
  lemma {:induction false} GatherValues(pairs: seq<(string, Json)>, k: string)
    ensures Get(Gather(pairs), k) == if k in Keys(pairs) then Some(Gathered(ValuesFor(pairs, k))) else None
    decreases |pairs|
  {
    if pairs != [] {
      var n := |pairs| - 1;
      GatherValues(pairs[..n], k);
      KeysLast(pairs);
      var g := Gather(pairs[..n]);
      if pairs[n].0 != k {
        AssignOther(g, pairs[n].0, Add(GetOr(g, pairs[n].0, NoneCollected), pairs[n].1), k);
      } else {
        if k !in Keys(pairs[..n]) {
          ValuesForAbsent(pairs[..n], k);
        }
        GatheredSnoc(ValuesFor(pairs[..n], k), pairs[n].1);
      }
    }
  }

  /** The second loop keeps the keys of the first, in order. */
  lemma {:induction false} MetricsAllKeys(m: seq<(string, Collected)>)
    requires AllMetrics(m)
    ensures Keys(MetricsAll(m)) == Dedup(Keys(m))
    decreases |m|
  {
    if m != [] {
      var n := |m| - 1;
      assert forall i :: 0 <= i < n ==> m[..n][i] == m[i];
      MetricsAllKeys(m[..n]);
      KeysLast(m);
      AssignDedupStep(MetricsAll(m[..n]), m[n].0, MetricsOf(m[n].1).value, Keys(m[..n]));
    }
  }

  lemma AllMetricsPrefix(m: seq<(string, Collected)>, n: nat)
    requires n <= |m| && AllMetrics(m)
    ensures AllMetrics(m[..n])
  {
    forall i | 0 <= i < n
      ensures MetricsOf(m[..n][i].1).Returns?
    {
      assert m[..n][i] == m[i];
    }
  }

  lemma DistinctPrefix(xs: seq<string>, n: nat)
    requires n <= |xs| && Distinct(xs)
    ensures Distinct(xs[..n])
  {
  }

  /** The second loop gives each key the metrics of its own lists. */
  lemma {:induction false} MetricsAllGet(m: seq<(string, Collected)>, k: string)
    requires AllMetrics(m) && Distinct(Keys(m))
    ensures k in Keys(m) ==> MetricsOf(Get(m, k).value).Returns?
    ensures k in Keys(m) ==> Get(MetricsAll(m), k) == Some(MetricsOf(Get(m, k).value).value)
    decreases |m|
  {
    if m != [] && k in Keys(m) {
      var n := |m| - 1;
      AllMetricsPrefix(m, n);
      KeysPrefix(m, n);
      DistinctPrefix(Keys(m), n);
      GetDistinctLast(m, k);
      if m[n].0 != k {
        KeysLast(m);
        MetricsAllGet(m[..n], k);
        AssignOther(MetricsAll(m[..n]), m[n].0, MetricsOf(m[n].1).value, k);
      }
    }
  }

  lemma {:induction false} ValuesForTag(key: string, ss: seq<Json>, k: string)
    ensures ValuesFor(Tag(key, ss), k) == if key == k then ss else []
    decreases |ss|
  {
    if ss != [] {
      var n := |ss| - 1;
      assert Tag(key, ss)[..n] == Tag(key, ss[..n]);
      ValuesForTag(key, ss[..n], k);
    }
  }

  /** In a dict with distinct keys, the last key is looked up in the last pair and every other
      key in the pairs before it. */
  lemma GetDistinctLast<V>(d: seq<(string, V)>, k: string)
    requires d != [] && Distinct(Keys(d))
    ensures d[|d| - 1].0 !in Keys(d[..|d| - 1])
    ensures Get(d, k) == if d[|d| - 1].0 == k then Some(d[|d| - 1].1) else Get(d[..|d| - 1], k)
  {
    var n := |d| - 1;
    var pre := d[..n];
    KeysLast(d);
    forall j | 0 <= j < n
      ensures d[j].0 != d[n].0
    {
      assert Keys(d)[j] != Keys(d)[n];
    }
    assert d[n].0 !in Keys(pre) by {
      FindFirst(pre, d[n].0, n);
    }
    if d[n].0 == k {
      FindFirst(d, k, n);
    } else if k in Keys(pre) {
      FindFirst(d, k, Find(pre, k));
    }
  }

  /** Walking a dict with distinct keys list by list visits key k's list, and only it. */
  lemma {:induction false} ValuesForFlatten(aggregated: seq<(string, seq<Json>)>, k: string)
    requires Distinct(Keys(aggregated))
    ensures ValuesFor(Flatten(aggregated), k) == GetOr(aggregated, k, [])
    decreases |aggregated|
  {
    if aggregated != [] {
      var n := |aggregated| - 1;
      var pre := aggregated[..n];
      KeysPrefix(aggregated, n);
      DistinctPrefix(Keys(aggregated), n);
      ValuesForFlatten(pre, k);
      ValuesForAppend(Flatten(pre), Tag(aggregated[n].0, aggregated[n].1), k);
      ValuesForTag(aggregated[n].0, aggregated[n].1, k);
      GetDistinctLast(aggregated, k);
      if aggregated[n].0 == k {
        assert GetOr(pre, k, []) == [];
        assert ValuesFor(Flatten(aggregated), k) == [] + aggregated[n].1;
      } else {
        assert ValuesFor(Flatten(aggregated), k) == GetOr(pre, k, []) + [];
      }
    }
  }

  /** A key has entries exactly when it occurs. */
  lemma {:induction false} ValuesForPresent(pairs: seq<(string, Json)>, k: string)
    ensures ValuesFor(pairs, k) != [] <==> k in Keys(pairs)
    decreases |pairs|
  {
    if pairs != [] {
      var n := |pairs| - 1;
      KeysLast(pairs);
      ValuesForPresent(pairs[..n], k);
    }
  }

  /** compute_metrics_per_article on a dict with distinct keys: the output keys are the input
      keys with a non-empty list, in input order, and each one's metrics are those of the lists
      Gathered takes from its entries. */
  lemma MetricsPerArticleProperties(aggregated: seq<(string, seq<Json>)>, k: string)
    requires Distinct(Keys(aggregated)) && MetricsPerArticle(aggregated).Returns?
    ensures var r := MetricsPerArticle(aggregated).value;
            var ss := GetOr(aggregated, k, []);
            && Keys(r) == Dedup(Keys(Flatten(aggregated)))
            && (k in Keys(r) <==> ss != [])
            && (ss != [] ==> MetricsOf(Gathered(ss)).Returns? && Get(r, k) == Some(MetricsOf(Gathered(ss)).value))
  {
    var pairs := Flatten(aggregated);
    var m := Gather(pairs);
    GatherKeys(pairs);
    MetricsAllKeys(m);
    DedupOfDistinct(Keys(m));
    ValuesForFlatten(aggregated, k);
    ValuesForPresent(pairs, k);
    GatherValues(pairs, k);
    MetricsAllGet(m, k);
  }

  /** Run on what aggregate_sentiments returns, the metrics have a key exactly for every article
      key that occurs in some run. */
  lemma MetricsOfGroupKeys(pairs: seq<(string, Json)>, k: string)
    requires MetricsPerArticle(Group(pairs)).Returns?
    ensures k in Keys(MetricsPerArticle(Group(pairs)).value) <==> k in Keys(pairs)
  {
    GroupKeys(pairs);
    GroupValues(pairs, k);
    ValuesForPresent(pairs, k);
    MetricsPerArticleProperties(Group(pairs), k);
  }

  /** When every "valid" is a bool, summing them counts the valid entries. */
  lemma {:induction false} ValidCount(ss: seq<Json>)
    requires forall i :: 0 <= i < |ss| ==> FieldOr(ss[i], "valid").Bool?
    ensures Numbers(Column(ss, "valid")).Some?
    ensures Sum(Numbers(Column(ss, "valid")).value) == |ValidOnes(ss)| as real
    decreases |ss|
  {
    if ss != [] {
      var n := |ss| - 1;
      var c := Column(ss, "valid");
      assert c[..n] == Column(ss[..n], "valid");
      ValidCount(ss[..n]);
      var p := Numbers(c[..n]).value;
      var x := Arith(c[n]).value;
      assert Numbers(c).value == p + [x];
      assert (p + [x])[..|p|] == p;
    }
  }

  /** A count over a larger positive total is a share in [0, 1]. */
  lemma ShareBounded(a: nat, b: nat)
    requires a <= b && b > 0
    ensures 0.0 <= a as real / b as real <= 1.0
  {
    var x := a as real / b as real;
    assert x * b as real == a as real;
  }

  /** valid_json_rate, when every "valid" is a bool: the share of valid entries rounded to two
      places, which lies in [0, 1]. */
  lemma ValidRate(ss: seq<Json>)
    requires ss != [] && MetricsOf(Gathered(ss)).Returns?
    requires forall i :: 0 <= i < |ss| ==> FieldOr(ss[i], "valid").Bool?
    ensures var rate := MetricsOf(Gathered(ss)).value.validJsonRate;
            && rate == Round2(|ValidOnes(ss)| as real / |ss| as real)
            && 0.0 <= rate <= 1.0
  {
    ValidCount(ss);
    RateOf(Gathered(ss));
    ShareBounded(|ValidOnes(ss)|, |ss|);
    Round2Within(|ValidOnes(ss)| as real / |ss| as real, 0, 100);
  }

  lemma RateOf(c: Collected)
    requires MetricsOf(c).Returns? && c.valids != []
    ensures Numbers(c.valids).Some?
    ensures MetricsOf(c).value.validJsonRate == Round2(Sum(Numbers(c.valids).value) / |c.valids| as real)
  {
  }

  /** An article none of whose entries is valid gets 0 for every statistic but the valid rate. */
  lemma NoValidEntriesZero(ss: seq<Json>)
    requires MetricsOf(Gathered(ss)).Returns?
    requires forall i :: 0 <= i < |ss| ==> !IsValid(ss[i])
    ensures var m := MetricsOf(Gathered(ss)).value;
            m.inferenceRate == 0.0 && m.sentimentVariance == 0.0 && m.meanSentiment == 0.0
              && m.meanConfidence == 0.0
  {
    NoneValid(ss);
  }

  lemma {:induction false} NoneValid(ss: seq<Json>)
    requires forall i :: 0 <= i < |ss| ==> !IsValid(ss[i])
    ensures ValidOnes(ss) == []
    decreases |ss|
  {
    if ss != [] {
      var n := |ss| - 1;
      assert forall i :: 0 <= i < n ==> ss[..n][i] == ss[i];
      NoneValid(ss[..n]);
    }
  }
}

=== FILE: oracles.dfy ===
/** The collaborators the pipeline calls but whose code lies outside the model: the language
    model, the JSON codec, float(), the URL hash, the clock and the web scraper. Each is a
    parameter, so every property proved holds whatever functions they are. A function answers
    one input the same way every time, so a model that samples a different reply to a repeated
    prompt is outside what is proved. */
module Oracles {
  import opened JsonValues

  /** hash_url keeps the first 8 hex digits of an MD5 digest. */
  type Hash8 = s: string | |s| == 8 witness "00000000"

  /** One item of the news feed: its link, its summary, its `published` text and its
      `published_parsed` time in seconds. */
  datatype NewsItem = NewsItem(link: string, summary: string, published: string, publishedAt: int)

  /** What llm.invoke(prompt) gives back: the model's text, or an exception. */
  datatype Reply = Text(text: string) | Failed

  /** A prompt template read from the messages directory, already split into literal text and
      the two fields str.format fills in. */
  datatype Piece = Literal(text: string) | ContentSlot | CompanySlot

  datatype Env = Env(
    llm: string -> Reply,               // llm.invoke(prompt)
    parse: string -> Option<Json>,      // json.loads; None on a syntax error
    dumps: Dict -> string,              // json.dumps
    parseFloat: string -> Option<real>, // float(text); None where it raises ValueError
    hash: string -> Hash8,              // hash_url
    elapsed: nat -> real)               // seconds the llm call for the j-th article took
}

=== FILE: py_strings.dfy ===
/** The Python string and sequence operations the pipeline relies on. */
module PyStrings {

  /** str.isspace() for one character: the characters Python's strip() removes by default. */
  predicate IsSpace(c: char) {
    || c == ' '
    || ('\t' <= c <= '\r')
    || ('\U{1C}' <= c <= '\U{1F}')
    || c == '\U{85}' || c == '\U{A0}' || c == '\U{1680}'
    || ('\U{2000}' <= c <= '\U{200A}')
    || c == '\U{2028}' || c == '\U{2029}' || c == '\U{202F}' || c == '\U{205F}' || c == '\U{3000}'
  }

  function LowerChar(c: char): char {
    if 'A' <= c <= 'Z' then (c as int + 32) as char else c
  }

  /** str.lower(), for the ASCII letters. */
  function Lower(s: string): string {
    seq(|s|, i requires 0 <= i < |s| => LowerChar(s[i]))
  }

  /** str.lstrip(). */
  function LStrip(s: string): (r: string)
    ensures |r| <= |s| && r == s[|s| - |r|..]
    ensures r == [] || !IsSpace(r[0])
    ensures forall i :: 0 <= i < |s| - |r| ==> IsSpace(s[i])
    decreases |s|
  {
    if s != [] && IsSpace(s[0]) then LStrip(s[1..]) else s
  }

  /** str.rstrip(). */
  function RStrip(s: string): (r: string)
    ensures |r| <= |s| && r == s[..|r|]
    ensures r == [] || !IsSpace(r[|r| - 1])
    ensures forall i :: |r| <= i < |s| ==> IsSpace(s[i])
    decreases |s|
  {
    if s != [] && IsSpace(s[|s| - 1]) then RStrip(s[..|s| - 1]) else s
  }

  /** str.strip(): what is left neither starts nor ends with whitespace, and every character
      of it comes from s. */
  function Strip(s: string): (r: string)
    ensures r == [] || (!IsSpace(r[0]) && !IsSpace(r[|r| - 1]))
    ensures forall c :: c in r ==> c in s
  {
    var t := LStrip(s);
    var r := RStrip(t);
    assert r != [] ==> r[0] == t[0];
    r
  }

  /** strip() cuts only whitespace, and only at the two ends: the result is a middle slice of s
      with nothing but whitespace on either side of it. */
  lemma StripCuts(s: string)
    ensures exists a, b :: 0 <= a <= b <= |s| && Strip(s) == s[a..b]
                           && (forall i :: 0 <= i < a ==> IsSpace(s[i]))
                           && (forall i :: b <= i < |s| ==> IsSpace(s[i]))
  {
    StripIs(s);
    SpaceCuts(s, LStrip(s), RStrip(LStrip(s)));
  }

  lemma StripIs(s: string)
    ensures Strip(s) == RStrip(LStrip(s))
  {
  }

  /** Cutting whitespace off the front of s and then off the back of what is left leaves a
      middle slice of s. */
  lemma SpaceCuts(s: string, t: string, r: string)
    requires |t| <= |s| && t == s[|s| - |t|..] && (forall i :: 0 <= i < |s| - |t| ==> IsSpace(s[i]))
    requires |r| <= |t| && r == t[..|r|] && (forall i :: |r| <= i < |t| ==> IsSpace(t[i]))
    ensures exists a, b :: 0 <= a <= b <= |s| && r == s[a..b]
                           && (forall i :: 0 <= i < a ==> IsSpace(s[i]))
                           && (forall i :: b <= i < |s| ==> IsSpace(s[i]))
  {
    var a := |s| - |t|;
    assert r == s[a..a + |r|];
    forall i | a + |r| <= i < |s|
      ensures IsSpace(s[i])
    {
      assert s[i] == t[i - a];
    }
  }

  /** s.split(",")[0]: the text before the first comma, or all of s when it has none. */
  function BeforeFirstComma(s: string): (r: string)
    ensures |r| <= |s| && r == s[..|r|]
    ensures ',' !in r
    ensures |r| < |s| ==> s[|r|] == ','
    decreases |s|
  {
    if s == [] || s[0] == ',' then [] else [s[0]] + BeforeFirstComma(s[1..])
  }

  /** s.replace(w, ""): one left-to-right pass that deletes non-overlapping occurrences of w. */
  function RemoveAll(s: string, w: string): (r: string)
    ensures |r| <= |s|
    decreases |s|
  {
    if |w| == 0 || |s| < |w| then s
    else if s[..|w|] == w then RemoveAll(s[|w|..], w)
    else [s[0]] + RemoveAll(s[1..], w)
  }

  /** replace only ever deletes, so it brings in no character that s lacks. */
  lemma {:induction false} RemoveAllNoNewChar(s: string, w: string, c: char)
    requires c !in s
    ensures c !in RemoveAll(s, w)
    decreases |s|
  {
    if |w| == 0 || |s| < |w| {
    } else if s[..|w|] == w {
      assert c !in s[|w|..];
      RemoveAllNoNewChar(s[|w|..], w, c);
    } else {
      assert c !in s[1..];
      RemoveAllNoNewChar(s[1..], w, c);
    }
  }

  /** `for w in ws: s = s.replace(w, "")`. */
  function RemoveEach(s: string, ws: seq<string>): string
    decreases |ws|
  {
    if ws == [] then s else RemoveEach(RemoveAll(s, ws[0]), ws[1..])
  }

  lemma {:induction false} RemoveEachNoNewChar(s: string, ws: seq<string>, c: char)
    requires c !in s
    ensures c !in RemoveEach(s, ws)
    decreases |ws|
  {
    if ws != [] {
      RemoveAllNoNewChar(s, ws[0], c);
      RemoveEachNoNewChar(RemoveAll(s, ws[0]), ws[1..], c);
    }
  }

  /** s.replace(":", "_"). */
  function ReplaceColons(s: string): (r: string)
    ensures |r| == |s| && ':' !in r
    ensures forall i :: 0 <= i < |s| && s[i] != ':' ==> r[i] == s[i]
    ensures forall i :: 0 <= i < |s| && s[i] == ':' ==> r[i] == '_'
  {
    seq(|s|, i requires 0 <= i < |s| => if s[i] == ':' then '_' else s[i])
  }

  /** `sub in s` for strings. */
  predicate Contains(s: string, sub: string)
    decreases |s|
  {
    (|sub| <= |s| && s[..|sub|] == sub) || (s != [] && Contains(s[1..], sub))
  }

  /** A string contains every string that occurs in it. */
  lemma {:induction false} ContainsInfix(a: string, b: string, c: string)
    ensures Contains(a + b + c, b)
    decreases |a|
  {
    if a == [] {
      assert (a + b + c)[..|b|] == b;
    } else {
      assert (a + b + c)[1..] == a[1..] + b + c;
      ContainsInfix(a[1..], b, c);
    }
  }

  /** s[:n] with Python's slice rules: a negative n counts from the end. */
  function PyPrefix<T>(s: seq<T>, n: int): (r: seq<T>)
    ensures |r| <= |s| && r == s[..|r|]
    ensures 0 <= n ==> |r| == if n <= |s| then n else |s|
    ensures n < 0 ==> |r| == if -n <= |s| then |s| + n else 0
  {
    if n >= 0 then (if n <= |s| then s[..n] else s)
    else (if -n <= |s| then s[..|s| + n] else [])
  }

  /** os.path.basename(p): the part after the last '/'. */
  function Basename(p: string): (r: string)
    ensures '/' !in r
    ensures |r| <= |p| && r == p[|p| - |r|..]
    ensures |r| < |p| ==> p[|p| - |r| - 1] == '/'
    decreases |p|
  {
    if p == [] || p[|p| - 1] == '/' then []
    else
      var r := Basename(p[..|p| - 1]) + [p[|p| - 1]];
      assert r == p[|p| - |r|..];
      r
  }

  /** A character other than '/' extends the last component. */
  lemma BasenameSnoc(p: string, c: char)
    requires c != '/'
    ensures Basename(p + [c]) == Basename(p) + [c]
  {
    assert (p + [c])[..|p|] == p;
  }

  /** The last component of a directory name ending in '/' followed by a name without '/' is
      that name. */
  lemma {:induction false} BasenameOfJoin(dir: string, name: string)
    requires dir == [] || dir[|dir| - 1] == '/'
    requires '/' !in name
    ensures Basename(dir + name) == name
    decreases |name|
  {
    if name == [] {
      assert dir + name == dir;
    } else {
      var n := |name| - 1;
      BasenameOfJoin(dir, name[..n]);
      SplitLast(dir, name);
      BasenameSnoc(dir + name[..n], name[n]);
    }
  }

  lemma SplitLast<T>(a: seq<T>, b: seq<T>)
    requires b != []
    ensures a + b == (a + b[..|b| - 1]) + [b[|b| - 1]]
    ensures b == b[..|b| - 1] + [b[|b| - 1]]
  {
  }

  /** os.path.join(a, b) on POSIX paths: an absolute b replaces a, otherwise one '/' separates them. */
  function PathJoin(a: string, b: string): (r: string)
    ensures |b| <= |r| && r[|r| - |b|..] == b
  {
    if b != [] && b[0] == '/' then b
    else if a == [] || a[|a| - 1] == '/' then a + b
    else a + "/" + b
  }

  /** Joining one directory with two different names, both relative or both absolute, gives
      two different paths. */
  lemma PathJoinInjective(a: string, b1: string, b2: string)
    requires b1 != b2
    requires (b1 != [] && b1[0] == '/') == (b2 != [] && b2[0] == '/')
    ensures PathJoin(a, b1) != PathJoin(a, b2)
  {
    if !(b1 != [] && b1[0] == '/') {
      var p := if a == [] || a[|a| - 1] == '/' then a else a + "/";
      assert PathJoin(a, b1) == p + b1 && PathJoin(a, b2) == p + b2;
      assert (p + b1)[|p|..] == b1;
      assert (p + b2)[|p|..] == b2;
    }
  }

  function DigitChar(d: nat): char
    requires d < 10
  {
    ('0' as int + d) as char
  }

  /** str(n) for a non-negative int. */
  function NatToString(n: nat): (r: string)
    ensures |r| >= 1
    ensures forall i :: 0 <= i < |r| ==> '0' <= r[i] <= '9'
  {
    if n < 10 then [DigitChar(n)] else NatToString(n / 10) + [DigitChar(n % 10)]
  }

  /** int(s) for a string of decimal digits. */
  function DecimalValue(s: string): nat
    requires forall i :: 0 <= i < |s| ==> '0' <= s[i] <= '9'
    decreases |s|
  {
    if s == [] then 0
    else DecimalValue(s[..|s| - 1]) * 10 + (s[|s| - 1] as int - '0' as int)
  }

  /** int(str(n)) == n. */
  lemma {:induction false} NatToStringRoundTrip(n: nat)
    ensures DecimalValue(NatToString(n)) == n
  {
    if n >= 10 {
      var s := NatToString(n);
      assert s[..|s| - 1] == NatToString(n / 10);
      NatToStringRoundTrip(n / 10);
    }
  }

  /** Different numbers print differently. */
  lemma NatToStringInjective(m: nat, n: nat)
    requires m != n
    ensures NatToString(m) != NatToString(n)
  {
    NatToStringRoundTrip(m);
    NatToStringRoundTrip(n);
  }
}

=== FILE: rounding.dfy ===
/** round(x, 2) on the reals that stand for the pipeline's floats: the nearest multiple of
    0.01, ties to the even multiple, as Python's round does. */
module Rounding {

  /** round(y): the nearest integer, ties to the even one. */
  function RoundHalfEven(y: real): (k: int)
    ensures y - 0.5 <= k as real <= y + 0.5
    ensures y == y.Floor as real ==> k == y.Floor
  {
    var f := y.Floor;
    var d := y - f as real;
    if d < 0.5 then f
    else if d > 0.5 then f + 1
    else if f % 2 == 0 then f
    else f + 1
  }

  /** round(x, 2): within half a hundredth of x. */
  function Round2(x: real): (r: real)
    ensures x - 0.005 <= r <= x + 0.005
  {
    RoundHalfEven(x * 100.0) as real / 100.0
  }

  /** round never reverses the order of two numbers. */
  lemma RoundHalfEvenMonotone(y1: real, y2: real)
    requires y1 <= y2
    ensures RoundHalfEven(y1) <= RoundHalfEven(y2)
  {
    var f1, f2 := y1.Floor, y2.Floor;
    assert f1 <= f2;
    if f1 == f2 {
      assert y1 - f1 as real <= y2 - f2 as real;
    }
  }

  lemma Round2Monotone(x1: real, x2: real)
    requires x1 <= x2
    ensures Round2(x1) <= Round2(x2)
  {
    RoundHalfEvenMonotone(x1 * 100.0, x2 * 100.0);
  }

  /** A number with at most two decimals is its own round(x, 2). */
  lemma Round2OfHundredths(k: int)
    ensures Round2(k as real / 100.0) == k as real / 100.0
  {
    assert (k as real / 100.0) * 100.0 == k as real;
  }

  /** Rounding keeps a number inside [lo, hi] when both ends have at most two decimals. */
  lemma Round2Within(x: real, lo: int, hi: int)
    requires lo as real / 100.0 <= x <= hi as real / 100.0
    ensures lo as real / 100.0 <= Round2(x) <= hi as real / 100.0
  {
    Round2Monotone(lo as real / 100.0, x);
    Round2Monotone(x, hi as real / 100.0);
    Round2OfHundredths(lo);
    Round2OfHundredths(hi);
  }
}

=== FILE: validation_utils.dfy ===
/** utils/validation_utils.py: the schema check on a model's reply, the regular-expression
    scan that recovers a number from text, and the lookup that falls back to that scan. */
module ValidationUtils {
  import opened JsonValues

  // ---------------------------------------------------------------------------
  // SentimentResponse and validate_json

  predicate HasReasoning(d: Dict) {
    var v := Get(d, "reasoning");
    v.Some? && v.value.Str? && |v.value.s| >= 1
  }

  predicate NumberIn(v: Option<Json>, lo: real, hi: real) {
    v.Some? && v.value.Num? && lo <= v.value.n <= hi
  }

  /** The SentimentResponse model checked in strict mode: a non-empty string `reasoning`,
      a number `sentiment` in [-1.0, 1.0] and a number `confidence` in [0.0, 1.0]. The model
      does not forbid other fields, so they are allowed. */
  predicate IsSentimentResponse(d: Dict) {
    && HasReasoning(d)
    && NumberIn(Get(d, "sentiment"), -1.0, 1.0)
    && NumberIn(Get(d, "confidence"), 0.0, 1.0)
  }

  /** validate_json, given what parsing the reply produced (None for a syntax error). */
  function ValidateJson(parsed: Option<Json>): (r: (bool, Dict))
    ensures r.0 ==> parsed == Some(Obj(r.1))
    ensures r.0 ==> Get(r.1, "reasoning").Some? && Get(r.1, "reasoning").value.Str?
                    && |Get(r.1, "reasoning").value.s| >= 1
    ensures r.0 ==> Get(r.1, "sentiment").Some? && Get(r.1, "sentiment").value.Num?
                    && -1.0 <= Get(r.1, "sentiment").value.n <= 1.0
    ensures r.0 ==> Get(r.1, "confidence").Some? && Get(r.1, "confidence").value.Num?
                    && 0.0 <= Get(r.1, "confidence").value.n <= 1.0
    ensures !r.0 ==> r.1 == []
    ensures parsed.Some? && parsed.value.Obj? && HasReasoning(parsed.value.fields)
            && NumberIn(Get(parsed.value.fields, "sentiment"), -1.0, 1.0)
            && NumberIn(Get(parsed.value.fields, "confidence"), 0.0, 1.0)
            ==> r == (true, parsed.value.fields)
  {
    match parsed
    case Some(Obj(fields)) => if IsSentimentResponse(fields) then (true, fields) else (false, [])
    case _ => (false, [])
  }

  /** The bounds are inclusive: a reply at the edge of both ranges is accepted, whole. */
  lemma ValidateJsonAcceptsBounds(reasoning: string, sentiment: real, confidence: real, extra: Dict)
    requires |reasoning| >= 1
    requires sentiment == -1.0 || sentiment == 1.0
    requires confidence == 0.0 || confidence == 1.0
    requires "reasoning" !in Keys(extra) && "sentiment" !in Keys(extra) && "confidence" !in Keys(extra)
    ensures var d := [("reasoning", Str(reasoning)), ("sentiment", Num(sentiment)), ("confidence", Num(confidence))] + extra;
            ValidateJson(Some(Obj(d))) == (true, d)
  {
    ValidateJsonAccepts(reasoning, sentiment, confidence, extra);
  }

  /** Any object with the three fields in range is accepted as it is, extra fields included. */
  lemma ValidateJsonAccepts(reasoning: string, sentiment: real, confidence: real, extra: Dict)
    requires |reasoning| >= 1 && -1.0 <= sentiment <= 1.0 && 0.0 <= confidence <= 1.0
    requires "reasoning" !in Keys(extra) && "sentiment" !in Keys(extra) && "confidence" !in Keys(extra)
    ensures var d := [("reasoning", Str(reasoning)), ("sentiment", Num(sentiment)), ("confidence", Num(confidence))] + extra;
            ValidateJson(Some(Obj(d))) == (true, d)
  {
    var d := [("reasoning", Str(reasoning)), ("sentiment", Num(sentiment)), ("confidence", Num(confidence))] + extra;
    FindFirst(d, "reasoning", 0);
    FindFirst(d, "sentiment", 1);
    FindFirst(d, "confidence", 2);
  }

  /** {"reasoning": "x", "sentiment": 0.3, "confidence": 0.7} is accepted unchanged. */
  lemma ValidateJsonAcceptsExample(d: Dict)
    requires d == [("reasoning", Str("x")), ("sentiment", Num(0.3)), ("confidence", Num(0.7))]
    ensures ValidateJson(Some(Obj(d))) == (true, d)
  {
    ValidateJsonAccepts("x", 0.3, 0.7, []);
    assert d == [("reasoning", Str("x")), ("sentiment", Num(0.3)), ("confidence", Num(0.7))] + [];
  }

  /** Any reply whose sentiment or confidence lies outside its range, or that lacks one of the
      three fields, is rejected with an empty dict, however well-formed the JSON. */
  lemma ValidateJsonRejects(d: Dict)
    requires || "reasoning" !in Keys(d) || "sentiment" !in Keys(d) || "confidence" !in Keys(d)
             || (Get(d, "sentiment").Some? && Get(d, "sentiment").value.Num?
                 && (Get(d, "sentiment").value.n < -1.0 || Get(d, "sentiment").value.n > 1.0))
             || (Get(d, "confidence").Some? && Get(d, "confidence").value.Num?
                 && (Get(d, "confidence").value.n < 0.0 || Get(d, "confidence").value.n > 1.0))
    ensures ValidateJson(Some(Obj(d))) == (false, [])
  {
  }

  // ---------------------------------------------------------------------------
  // search_numeric_value: re.search(r"[-+]?[0-1]\.\d+", text)

  predicate IsDigit(c: char) { '0' <= c <= '9' }

  predicate IsUnitDigit(c: char) { c == '0' || c == '1' }

  predicate IsSign(c: char) { c == '-' || c == '+' }

  /** The whole of t matches [-+]?[0-1]\.\d+ . */
  predicate IsLiteral(t: string) {
    var k := if |t| > 0 && IsSign(t[0]) then 1 else 0;
    && |t| >= k + 3
    && IsUnitDigit(t[k]) && t[k + 1] == '.'
    && forall m :: k + 2 <= m < |t| ==> IsDigit(t[m])
  }

  /** Where the run of digits that starts at j ends. */
  function DigitsEnd(s: string, j: nat): (e: nat)
    requires j <= |s|
    ensures j <= e <= |s|
    ensures forall m :: j <= m < e ==> IsDigit(s[m])
    ensures e == |s| || !IsDigit(s[e])
    decreases |s| - j
  {
    if j < |s| && IsDigit(s[j]) then DigitsEnd(s, j + 1) else j
  }

  /** The end of the match that starts at i, if one does. The optional sign is taken only when it
      is s[i] itself, and \d+ takes every digit that follows. */
  function MatchAt(s: string, i: nat): (e: Option<nat>)
    ensures e.Some? ==> i + 3 <= e.value <= |s|
  {
    if i + 2 < |s| && IsUnitDigit(s[i]) && s[i + 1] == '.' && IsDigit(s[i + 2]) then
      Some(DigitsEnd(s, i + 3))
    else if i + 3 < |s| && IsSign(s[i]) && IsUnitDigit(s[i + 1]) && s[i + 2] == '.' && IsDigit(s[i + 3]) then
      Some(DigitsEnd(s, i + 4))
    else None
  }

  /** A match covers a whole literal, and its run of digits is as long as it can be. */
  lemma MatchAtLiteral(s: string, i: nat)
    requires MatchAt(s, i).Some?
    ensures IsLiteral(s[i..MatchAt(s, i).value])
    ensures MatchAt(s, i).value == |s| || !IsDigit(s[MatchAt(s, i).value])
  {
    var e := MatchAt(s, i).value;
    var t := s[i..e];
    var k := if IsSign(s[i]) then 1 else 0;
    assert forall m :: k + 2 <= m < |t| ==> t[m] == s[i + m];
  }

  /** The first match that starts at or after i, as (start, end). */
  function SearchFrom(s: string, i: nat): (m: Option<(nat, nat)>)
    requires i <= |s|
    ensures m.Some? ==> i <= m.value.0 <= |s| && MatchAt(s, m.value.0) == Some(m.value.1)
    decreases |s| - i
  {
    if MatchAt(s, i).Some? then Some((i, MatchAt(s, i).value))
    else if i == |s| then None
    else SearchFrom(s, i + 1)
  }

  /** The scan finds nothing exactly when no position from i on starts a match. */
  lemma {:induction false} SearchFromNone(s: string, i: nat)
    requires i <= |s|
    ensures SearchFrom(s, i).None? <==> forall k :: i <= k <= |s| ==> MatchAt(s, k).None?
    decreases |s| - i
  {
    if SearchFrom(s, i).None? {
      assert MatchAt(s, i).None?;
      if i < |s| {
        SearchFromNone(s, i + 1);
      }
      forall k | i <= k <= |s| ensures MatchAt(s, k).None? {
        if k != i {
          assert SearchFrom(s, i + 1).None?;
        }
      }
    }
  }

  /** What the scan finds is the leftmost match: no position before it starts one. */
  lemma {:induction false} SearchFromFirst(s: string, i: nat, k: nat)
    requires i <= k <= |s|
    requires SearchFrom(s, i).Some? && k < SearchFrom(s, i).value.0
    ensures MatchAt(s, k).None?
    decreases k - i
  {
    if k > i {
      assert MatchAt(s, i).None? && SearchFrom(s, i) == SearchFrom(s, i + 1);
      SearchFromFirst(s, i + 1, k);
    }
  }

  function DigitValue(c: char): real
    requires IsDigit(c)
  {
    (c as int - '0' as int) as real
  }

  /** The value of the digits after a decimal point. */
  function FractionValue(ds: string): (v: real)
    requires forall m :: 0 <= m < |ds| ==> IsDigit(ds[m])
    ensures 0.0 <= v < 1.0
  {
    if ds == [] then 0.0 else (DigitValue(ds[0]) + FractionValue(ds[1..])) / 10.0
  }

  /** float(t) for a matched literal. */
  function LiteralValue(t: string): (v: real)
    requires IsLiteral(t)
    ensures -2.0 < v < 2.0
  {
    var k := if IsSign(t[0]) then 1 else 0;
    var magnitude := DigitValue(t[k]) + FractionValue(t[k + 2..]);
    if t[0] == '-' then -magnitude else magnitude
  }

  /** search_numeric_value: the value of the leftmost match, None when nothing matches. */
  function SearchNumericValue(text: string): (r: Option<real>)
    ensures r.Some? ==> -2.0 < r.value < 2.0
  {
    match SearchFrom(text, 0)
    case Some((i, e)) =>
      MatchAtLiteral(text, i);
      Some(LiteralValue(text[i..e]))
    case None => None
  }

  /** The scan finds nothing exactly when no position starts a match, and otherwise gives the
      value of the match at the leftmost such position. */
  lemma SearchNumericValueLeftmost(text: string)
    ensures SearchNumericValue(text).None? <==> forall k :: 0 <= k <= |text| ==> MatchAt(text, k).None?
    ensures SearchNumericValue(text).Some? ==>
              exists i :: 0 <= i <= |text| && MatchAt(text, i).Some?
                && (forall k :: 0 <= k < i ==> MatchAt(text, k).None?)
                && IsLiteral(text[i..MatchAt(text, i).value])
                && SearchNumericValue(text).value == LiteralValue(text[i..MatchAt(text, i).value])
  {
    SearchFromNone(text, 0);
    match SearchFrom(text, 0)
    case Some((i, e)) =>
      forall k | 0 <= k < i ensures MatchAt(text, k).None? {
        SearchFromFirst(text, 0, k);
      }
      MatchAtLiteral(text, i);
    case None =>
  }

  /** Positions whose character cannot begin a match are skipped by the scan. */
  lemma {:induction false} SearchSkips(s: string, i: nat, p: nat)
    requires i <= p <= |s|
    requires forall k :: i <= k < p ==> !IsUnitDigit(s[k]) && !IsSign(s[k])
    ensures SearchFrom(s, i) == SearchFrom(s, p)
    decreases p - i
  {
    if i < p {
      assert !IsUnitDigit(s[i]) && !IsSign(s[i]);
      assert MatchAt(s, i).None? && SearchFrom(s, i) == SearchFrom(s, i + 1);
      SearchSkips(s, i + 1, p);
    }
  }

  /** A matched literal with two decimals, such as 0.73, has the value its digits spell. */
  lemma TwoDecimalLiteral(t: string)
    requires |t| == 4 && IsUnitDigit(t[0]) && t[1] == '.' && IsDigit(t[2]) && IsDigit(t[3])
    ensures IsLiteral(t)
    ensures LiteralValue(t) == DigitValue(t[0]) + DigitValue(t[2]) / 10.0 + DigitValue(t[3]) / 100.0
  {
    var ds := t[2..];
    assert ds[0] == t[2] && ds[1..] == t[3..];
    assert FractionValue(t[3..]) == DigitValue(t[3]) / 10.0 by {
      assert t[3..][1..] == [];
    }
  }

  /** `"score": 0.73` gives 0.73: the key is absent, but the scan finds the literal. */
  lemma SearchScoreExample(s: string)
    requires s == "\"score\": 0.73"
    ensures SearchNumericValue(s) == Some(0.73)
  {
    assert forall k :: 0 <= k < 9 ==> !IsUnitDigit(s[k]) && !IsSign(s[k]);
    SearchSkips(s, 0, 9);
    assert DigitsEnd(s, 13) == 13;
    assert DigitsEnd(s, 12) == 13;
    assert MatchAt(s, 9) == Some(13);
    assert SearchFrom(s, 9) == Some((9, 13));
    var t := s[9..13];
    assert t[0] == '0' && t[1] == '.' && t[2] == '7' && t[3] == '3';
    TwoDecimalLiteral(t);
    assert DigitValue('0') == 0.0 && DigitValue('7') == 7.0 && DigitValue('3') == 3.0;
  }

  /** "11.45" gives 1.45: the first '1' is not followed by '.', so the match starts one later. */
  lemma SearchLeftmostExample(s: string)
    requires s == "11.45"
    ensures SearchNumericValue(s) == Some(1.45)
  {
    assert MatchAt(s, 0).None?;
    assert DigitsEnd(s, 5) == 5;
    assert DigitsEnd(s, 4) == 5;
    assert DigitsEnd(s, 3) == 5;
    assert MatchAt(s, 1) == Some(5);
    assert SearchFrom(s, 1) == Some((1, 5));
    assert SearchFrom(s, 0) == Some((1, 5));
    var t := s[1..5];
    assert t[0] == '1' && t[1] == '.' && t[2] == '4' && t[3] == '5';
    TwoDecimalLiteral(t);
    assert DigitValue('1') == 1.0 && DigitValue('4') == 4.0 && DigitValue('5') == 5.0;
  }

  // ---------------------------------------------------------------------------
  // parse_json_numeric_value

  /** float(d[key]) when the key is present (raising when float() does); otherwise the scan of
      json.dumps(d). */
  function ParseJsonNumericValue(d: Dict, key: string, dumps: Dict -> string, parseFloat: string -> Option<real>)
    : (r: Outcome<Option<real>>)
    ensures key !in Keys(d) ==> r == Returns(SearchNumericValue(dumps(d)))
    ensures key in Keys(d) && Get(d, key).value.Num? ==> r == Returns(Some(Get(d, key).value.n))
    ensures key in Keys(d) ==> (r.Raises? <==> FloatOf(Get(d, key).value, parseFloat).Raises?)
    ensures key in Keys(d) && FloatOf(Get(d, key).value, parseFloat).Returns?
            ==> r == Returns(Some(FloatOf(Get(d, key).value, parseFloat).value))
    ensures r.Returns? && r.value.Some? && key !in Keys(d) ==> -2.0 < r.value.value < 2.0
  {
    match Get(d, key)
    case Some(v) =>
      (match FloatOf(v, parseFloat) case Returns(x) => Returns(Some(x)) case Raises => Raises)
    case None => Returns(SearchNumericValue(dumps(d)))
  }

  /** When the key is present its value decides; the serialised text is never looked at. */
  lemma PresentKeyIgnoresText(d: Dict, key: string, dumps1: Dict -> string, dumps2: Dict -> string,
                              parseFloat: string -> Option<real>)
    requires key in Keys(d)
    ensures ParseJsonNumericValue(d, key, dumps1, parseFloat) == ParseJsonNumericValue(d, key, dumps2, parseFloat)
  {
  }
}
